=== FILE: README.md ===
# Billing and provisioning core of an ISP management app, in Dafny

The application sells internet packages (PPPoE, Hotspot, or both) to the
customers of a small internet provider. A customer subscribes to a package
and pays through the Xendit payment gateway. When the gateway reports the
invoice as paid, the server creates the customer's accounts on a MikroTik
router through its REST API and activates the subscription.

This project models that payment-to-provisioning pipeline. It also models
the small decision procedures around it:

- login and registration;
- the admin-area gate;
- the package catalogue and its one-off seeding;
- the router-configuration admin endpoint, which keeps at most one
  configuration active;
- the router-accounts endpoint and its error classification;
- the admin user directory.

## How the model is built

- **Store (`Store`).** An immutable value holding five tables: users,
  packages, subscriptions, transactions and router configurations. Each
  table is a sequence in insertion order. A query without `orderBy`
  returns the first matching row. Ids come from a counter, and
  `Store.WellFormed` says every id is below the counter and no table
  repeats an id.
- **Process state (`Runtime.World`).** The store plus the two cached
  client singletons, the gateway client and the router client. The
  environment variables are a separate `Runtime.Env` value.
- **Route handlers.** Each is a pure function from the world and the
  request to the response, the new world, and the list of remote requests
  the handler sent, in order.
- **Oracles.** The router (`Mikrotik.Device`) and the gateway
  (`Xendit.Gateway`) are functions from (call index, request) to reply.
  The password hash and its check are function parameters as well.
- **Clock and randomness.** `Date.now()` and `Math.random()` are
  parameters. A random draw is the sequence of base-36 digits that
  `toString(36)` prints after `0.`.
- **Errors.** Every thrown error is a `Result`. Each handler's `catch`
  becomes an explicit branch.
- **Strings** are `seq<char>`. Letter-case conversion covers ASCII
  letters only.
- **Money** is `real`. `Math.round` is `floor(x + 1/2)`.

Modules follow the source files:

| module | file |
|---|---|
| `Base` | generic helpers: Option/Result, JS string and number operations, sequence search, filter, stable insertion sort |
| `Store` | data model |
| `Http` | response shape |
| `Runtime` | process state |
| `Xendit` | `src/lib/xendit.ts` |
| `Mikrotik` | `src/lib/mikrotik.ts` |
| `Callback` | `src/app/api/payments/xendit/callback/route.ts` |
| `Subscriptions` | `src/app/api/subscriptions/route.ts` |
| `RouterConfigs` | `src/app/api/admin/mikrotik/route.ts` |
| `RouterUsers` | `src/app/api/mikrotik/users/route.ts` |
| `Packages` | `src/app/api/packages/route.ts` |
| `Seeding` | `src/app/api/setup/packages/route.ts` |
| `Registration` | `src/app/api/auth/register/route.ts` |
| `Auth` | `src/lib/auth.ts` |
| `AdminGate` | `middleware.ts` |
| `UserDirectory` | `src/app/api/admin/users/route.ts` |

## Model

| member | source | states |
|---|---|---|
| Xendit.NewClient | src/lib/xendit.ts:142-147 | The client keeps the API key. Both environment branches produce the same API root, so the base URL never depends on the production flag. |
| Xendit.GetInstance | src/lib/xendit.ts:292-304 | A cached instance is returned as it is. Otherwise an unset or empty API key yields the missing-key error and nothing is cached. A non-empty key yields a client for that key, and that client becomes the cached instance. |
| Xendit.VerifyCallbackToken | src/lib/xendit.ts:250-255 | A token is accepted exactly when it equals the configured token. With no token configured, every token is refused. |
| Xendit.GenerateExternalId | src/lib/xendit.ts:258-262 | The id is the prefix (INV by default), a dash, the decimal timestamp, a dash, then up to six base-36 characters. Each part sits at the position this layout predicts. |
| Xendit.FormatAmount | src/lib/xendit.ts:264-268 | The result is the integer nearest to the amount, with halves rounded up. An integral amount is returned unchanged. |
| Xendit.ValidatePaymentMethod | src/lib/xendit.ts:271-277 | A method is accepted exactly when its upper-cased form is one of the eight listed methods. |
| Xendit.ValidatePaymentMethodIgnoresCase | src/lib/xendit.ts:271-277 | Two spellings that differ only in the case of letters are both accepted or both refused. |
| Xendit.QueryEntries | src/lib/xendit.ts:195-204 | The number of entries is one per array element plus one per defined scalar, with none for an undefined value. Every entry's key is one of the query object's property names. |
| Xendit.EntriesOf | src/lib/xendit.ts:197-202 | One property gives one entry per array element, with that element as value, in array order. A defined scalar gives one entry, its text (a number in decimal). `undefined` gives none. Every entry carries the property's key. |
| Xendit.QueryEntryPlacement | src/lib/xendit.ts:195-204 | For every property `k` and every entry `j` it contributes, the query holds that entry at position `Offset(props, k) + j`, after all entries of the earlier properties. So the values and their order are those of the object's properties and arrays. |
| Xendit.QueryEntryOrigin | src/lib/xendit.ts:195-204 | Conversely, every entry of the query is entry `j` of some property `k`, at position `Offset(props, k) + j`. The query holds nothing else. |
| Xendit.InvoicesPath | src/lib/xendit.ts:188-208 | The path is the bare invoices endpoint, with no `?`, when there are no parameters or when they contribute no entry. Otherwise it is the endpoint, a `?`, and the serialized entries. |
| Xendit.QueryPresentIffEntries | src/lib/xendit.ts:206-207 | The serialized query string is non-empty exactly when there is at least one entry. |
| Xendit.SerializeSeparatesEntries | src/lib/xendit.ts:195-207 | The serialized query has exactly one `=` per entry and one `&` between consecutive entries. Form encoding removes both characters from keys and values, so no key or value can forge or swallow an entry. |
| Xendit.RedirectUrl | src/lib/xendit.ts:337-338 | A redirect URL exists exactly when a non-empty return URL is given. It starts with the return URL and `?status=<outcome>`, and everything after that is `&external_id=` followed by the external id. |
| Xendit.SubscriptionInvoice | src/lib/xendit.ts:314-344 | The invoice has a `SUB-` external id, the rounded amount, currency IDR and e-mail notification on. It has no items and keeps the description and customer as given. Both redirect URLs exist exactly when a return URL is given, and each carries its outcome and the invoice's own external id. |
| Xendit.TopupInvoice | src/lib/xendit.ts:346-383 | The invoice has a `TOPUP-` external id, the rounded amount, currency IDR and e-mail notification on. The description is passed through, and the customer's name, e-mail and phone become the invoice customer. Its single item, `Topup Saldo`, has quantity 1, category `Topup` and a price equal to the rounded amount. The redirect URLs follow the same rule as for subscriptions. |
| Xendit.MakeRequest | src/lib/xendit.ts:149-177 | Exactly one request is sent, to the base URL plus the endpoint, with the client's key. The call succeeds exactly when the gateway answers with a 2xx status, and then yields the decoded body. A transport failure is passed on unchanged. A non-2xx answer yields the error `Xendit API error: <status> <status text> - <detail>`, where the detail is the reply's non-empty `message`, or `Unknown error`. |
| Xendit.CreateInvoice | src/lib/xendit.ts:180-182 | The invoice parameters are POSTed to the invoices endpoint. A 2xx reply yields its body, whatever its shape. |
| Xendit.CheckPaymentStatus | src/lib/xendit.ts:385-394 | An invoice is returned only if it came from a successful listing and carries the requested external id. It is the first such invoice in the listing. Whenever the listing succeeds and contains such an invoice, one is returned. Failures yield no invoice instead of an error. |
| Xendit.ProcessCallback | src/lib/xendit.ts:396-422 | The result is a success exactly when the notification has a status. Then the status is upper-cased and the external id, paid amount, method and channel are copied unchanged. Otherwise the result is the fixed failure value. |
| Mikrotik.NewClient | src/lib/mikrotik.ts:47-51 | The client keeps its configuration. The base URL joins the scheme chosen by the SSL flag, the host and the decimal port. |
| Mikrotik.BaseUrlScheme | src/lib/mikrotik.ts:49-50 | The base URL is an `https` URL exactly when SSL is on, and an `http` URL exactly when it is off. The configured host follows the scheme. |
| Mikrotik.RequestUrl | src/lib/mikrotik.ts:55 | Every request URL starts with the base URL followed by `/rest`, and the rest of it is exactly the request path. |
| Mikrotik.MakeRequest | src/lib/mikrotik.ts:53-76 | Exactly one request is appended to the log, carrying the configured credentials. The call succeeds exactly when the router answers with a 2xx status, and then yields the decoded body. A transport error is passed on unchanged. Any other status fails with `Mikrotik API error: <status> <text>`. |
| Mikrotik.TestConnection | src/lib/mikrotik.ts:79-87 | One system-resource request is sent. The result is true exactly when the router answers it with a 2xx status; a failure becomes false instead of an error. |
| Mikrotik.LogsPath | src/lib/mikrotik.ts:207-210 | Without topics the path is `/log`. With topics, even an empty list, the path is `/log?topics=` followed by the topics joined with commas. |
| Mikrotik.TrafficPath | src/lib/mikrotik.ts:201-204 | An absent or empty interface name reads all traffic. A non-empty name adds `?id=<name>`. |
| Mikrotik.CreateMultipleUsers | src/lib/mikrotik.ts:240-258 | There is exactly one result per account and one create request per account, both in input order. A result is a created record exactly when its request got a 2xx reply, and it then carries that reply's payload. A failed result names its own account and carries the error's message: the transport error's own message, or `Mikrotik API error: <status> <status text>`. |
| Mikrotik.SyncOne | src/lib/mikrotik.ts:272-296 | Every step first lists the PPPoE secrets. A second request is sent exactly when the listing succeeds. If an existing secret has the account's name, that secret is patched with the password, profile and disabled flag. Otherwise a `pppoe` secret is created. The step succeeds exactly when that second request gets a 2xx reply. |
| Mikrotik.SyncStep | src/lib/mikrotik.ts:272-296 | Each account adds exactly one to the successes or to the failures, appends one or two requests and keeps the earlier log. |
| Mikrotik.SyncUsers | src/lib/mikrotik.ts:261-300 | The totals, the messages and the request log are exactly those of running `SyncOne` on every account in order (`SyncFrom`). Successes plus failures equal the number of accounts. There is exactly one error message per failure, each starting with `Failed to sync user `. Each account costs one or two requests. |
| Mikrotik.ActiveConfig | src/lib/mikrotik.ts:311-313 | The configuration found is an active one from the table, and no earlier configuration is active. None is found exactly when no configuration is active. |
| Mikrotik.GetConnection | src/lib/mikrotik.ts:306-323 | A cached client is returned without reading the configurations. Otherwise, with no active configuration, the call fails with `No active Mikrotik configuration found` and caches nothing. With one, a client for the first active configuration in table order is returned and cached. |
| Mikrotik.CachedConnectionIsStable | src/lib/mikrotik.ts:306-327 | Once a connection has been obtained, every later call returns the same client whatever the configurations have become. Only after a reset does the next call depend on the configurations again. |
| Callback.Locate | src/app/api/payments/xendit/callback/route.ts:23-35 | The transaction found is the first whose external id equals the notification's invoice id, not its `external_id`. None is found exactly when no transaction matches. Without an id every transaction matches, so the first is found. |
| Callback.Settle | src/app/api/payments/xendit/callback/route.ts:45-53 | The new status is SUCCESS exactly when the upper-cased status is PAID, and FAILED otherwise. Method and channel are replaced when the notification carries them. The raw notification becomes the metadata. Every other column is kept. |
| Callback.Profile | src/app/api/payments/xendit/callback/route.ts:67 | The router profile is the package's profile, or `default` when the package has none or an empty one. |
| Callback.ProvisioningPlan | src/app/api/payments/xendit/callback/route.ts:62-79 | A PPPoE secret is planned exactly when the package type is PPPOE or BOTH, and a Hotspot user exactly when it is HOTSPOT or BOTH, in that order. There are two requests exactly for BOTH. Every planned request carries the subscription's stored name and password. |
| Callback.SendAccounts | src/app/api/payments/xendit/callback/route.ts:62-79 | The requests sent are a non-empty prefix of the plan, stopping at the first refusal. Every request before the last was answered. The result is true exactly when the whole plan was sent and answered. |
| Callback.Activate | src/app/api/payments/xendit/callback/route.ts:82-96 | Only the paid subscription becomes ACTIVE and renewed now, and only the payer gets the subscription's account name as router id. Every other row and table is unchanged. |
| Callback.Provision | src/app/api/payments/xendit/callback/route.ts:56-105 | The provisioning block either leaves the store as it was or applies exactly the activation. The router is reached only when a connection, the package and the payer all exist. The router cache is whatever obtaining the connection left. |
| Callback.Reconcile | src/app/api/payments/xendit/callback/route.ts:6-119 | The response is 401 exactly when the token is missing or refused, once the body parses and the gateway client exists. It is 404 exactly when an admitted notification matches no transaction. Any non-200 answer leaves the store untouched and sends no router request. A 200 is always the fixed success message. |
| Callback.AcceptedSettles | src/app/api/payments/xendit/callback/route.ts:45-53 | A notification gets 200 exactly when it is accepted. The located transaction is then settled, SUCCESS exactly when the status is PAID. Every other transaction, the packages, the router configurations and the id counter are unchanged. |
| Callback.ProcessedStatusDecidesSettlement | src/app/api/payments/xendit/callback/route.ts:44-56 | For an authenticated notification whose transaction exists, the gateway client's `processCallback` succeeds exactly when the handler answers 200. It then reports PAID exactly when the handler settles the transaction as SUCCESS. |
| Callback.MissingStatusFailsUnwritten | src/app/api/payments/xendit/callback/route.ts:20-53 | An authenticated notification for a known transaction that has no status answers 500 with the TypeError's message. It writes nothing and sends no router request. |
| Callback.ProvisionsOnlyPaidSubscriptions | src/app/api/payments/xendit/callback/route.ts:56 | A router request is sent only for an accepted PAID notification whose transaction is linked to an existing subscription. Every request carries that subscription's credentials. |
| Callback.PaidSubscriptionCalls | src/app/api/payments/xendit/callback/route.ts:56-111 | With subscription, package, payer and connection all present, the response is 200 whatever the router answers. The requests sent are a non-empty prefix of the plan, and every request before the last was answered. |
| Callback.PaidSubscriptionActivation | src/app/api/payments/xendit/callback/route.ts:81-105 | The subscription is activated, and the payer's router id set, exactly when every planned request was sent and answered. Otherwise the store is the settled store and nothing more. |
| Callback.PaidProvisioning | src/app/api/payments/xendit/callback/route.ts:45-111 | The handler's whole outcome for a PAID notification is: the settled store, activated exactly when all accounts were created; the router client cached; and exactly the requests the account creation sent. |
| Callback.PaidReconcileProvisions | src/app/api/payments/xendit/callback/route.ts:45-111 | An accepted PAID notification with a linked subscription answers 200 and leaves the store as the provisioning block leaves the settled store. |
| Callback.ProvisionWith | src/app/api/payments/xendit/callback/route.ts:58-96 | With a connection, package and payer at hand, the provisioning block sends the accounts. The store is activated exactly when all of them were created. |
| Callback.UnpaidOnlySettles | src/app/api/payments/xendit/callback/route.ts:45-56 | An accepted notification that is not PAID, or whose transaction has no subscription, only settles the transaction. No router request is sent, nothing is activated, and the router cache is untouched. |
| Callback.LocateAfterSettle | src/app/api/payments/xendit/callback/route.ts:23-53 | Settling keeps every external id, so the same invoice id locates the same transaction afterwards. |
| Callback.SubscriptionAfterActivate | src/app/api/payments/xendit/callback/route.ts:82-88 | With unique subscription ids, activation keeps every subscription findable, with the same account credentials and package. |
| Callback.PayerAfterActivate | src/app/api/payments/xendit/callback/route.ts:91-96 | With unique user ids, activation keeps the payer findable, with the same name. |
| Callback.RowsSurviveActivation | src/app/api/payments/xendit/callback/route.ts:56-96 | Whether or not the first delivery activated the subscription, the subscription, package and payer that a paid notification reads are found again, unchanged where provisioning reads them. |
| Callback.RepeatedPaidNotificationProvisionsAgain | src/app/api/payments/xendit/callback/route.ts:45-111 | With no terminal-state guard, delivering a processed PAID notification again is accepted again. It answers 200 and sends the same first account request to the router, whether or not the first delivery activated the subscription. |
| Subscriptions.AccountName | src/app/api/subscriptions/route.ts:105 | The account name holds no white space and no upper-case letter. It keeps the user name's other characters in order, case-folded, and ends with `-` and the decimal timestamp. |
| Subscriptions.AccountPassword | src/app/api/subscriptions/route.ts:106 | The password is at most ten characters, all base-36 digits or lower-case letters. It has exactly ten when the random draw is long enough. |
| Subscriptions.Create | src/app/api/subscriptions/route.ts:63-209 | A missing user id or package id answers 400. An unknown user answers 404 `User not found` before the package is looked at, and an unknown package answers 404 `Package not found`. A 400 or 404 changes nothing and contacts no gateway. At most one gateway request is sent. |
| Subscriptions.Submit | src/app/api/subscriptions/route.ts:99-202 | Past validation the answer is 200 or 500, and at most one gateway request is sent. A XENDIT submission answers 500 exactly when no gateway client can be built or the invoice request fails. The store is then the recorded one with the new subscription and charge deleted again. The stores it leaves are stated by `SubmitStores`. |
| Subscriptions.CreateSubmits | src/app/api/subscriptions/route.ts:71-97 | A request that names an existing user and package is handled as submission with exactly those rows. |
| Subscriptions.CreatedRows | src/app/api/subscriptions/route.ts:68-136 | The subscription is PENDING, for the requested user and package, with the generated credentials. It runs from now for the package's duration in days. The charge is PENDING, of type SUBSCRIPTION, for the package price, linked to that subscription and user, with the requested method or XENDIT by default. A 200 answers with both rows as created. |
| Subscriptions.OtherMethodStaysPending | src/app/api/subscriptions/route.ts:139-202 | A method other than XENDIT answers 200 without contacting the gateway. Both rows are appended, PENDING, and the charge has no external id. |
| Subscriptions.GatewayLinksInvoice | src/app/api/subscriptions/route.ts:139-180 | For XENDIT with a gateway client, exactly one invoice request is sent, carrying the charge's parameters. When the gateway answers with an invoice, the response is 200. The new charge then holds the invoice id as external id and the invoice link as metadata, still PENDING, and earlier charges are untouched. |
| Subscriptions.SubmitCallsGateway | src/app/api/subscriptions/route.ts:141-195 | With a gateway client, the handler sends exactly the invoice request. A successful reply answers 200 and links the new charge to the reply. A failed reply answers 500 with `Failed to create payment: ` and the gateway's message, and deletes the new subscription and charge. |
| Subscriptions.LinkAppended | src/app/api/subscriptions/route.ts:158-167 | Linking the newest charge, whose id no earlier charge has, rewrites that charge only. |
| Subscriptions.FailedPaymentCompensates | src/app/api/subscriptions/route.ts:181-195 | A 500 from payment setup (no API key, or a refused invoice) carries the `Failed to create payment: ` message. Every table is then exactly as before the request, because both new rows are deleted. |
| Subscriptions.SubmitFailureCompensates | src/app/api/subscriptions/route.ts:181-195 | A failed submission leaves the recorded store with the new subscription and charge deleted again, and answers with the payment-failed message. |
| Subscriptions.PaymentFailureCompensates | src/app/api/subscriptions/route.ts:139-195 | On a well-formed store, a submission whose payment fails answers 500 with the payment-failed prefix. Every table, including the users and packages, is then exactly as it was before the request. |
| Subscriptions.SubmitStores | src/app/api/subscriptions/route.ts:109-195 | After submission, the store holds the two new rows, or holds them with the charge linked to an invoice, or has had them deleted again. |
| Subscriptions.CreatePreservesWellFormed | src/app/api/subscriptions/route.ts:63-209 | Every POST keeps ids unique and below the counter. |
| Subscriptions.SubmitPreservesWellFormed | src/app/api/subscriptions/route.ts:109-195 | Submission keeps ids unique and below the counter in each of its three outcomes. |
| Subscriptions.RecordWellFormed | src/app/api/subscriptions/route.ts:109-136 | Appending the subscription and the charge under the next two ids keeps the store well formed. |
| Subscriptions.CompensateWellFormed | src/app/api/subscriptions/route.ts:185-190 | Deleting the two new rows restores every table and leaves the store well formed under the advanced counter. |
| Subscriptions.CompensateRestores | src/app/api/subscriptions/route.ts:185-190 | Deleting two rows just appended under ids no earlier row has gives back the tables exactly as they were. |
| Subscriptions.LinkChargeWellFormed | src/app/api/subscriptions/route.ts:158-167 | Linking a charge to its invoice changes no id. |
| Subscriptions.BuildWhere | src/app/api/subscriptions/route.ts:13-21 | A user filter is set exactly when a user id is given. Status and type filters are set exactly for non-empty parameters, and compare upper-cased. |
| Subscriptions.LatestPayment | src/app/api/subscriptions/route.ts:35-43 | The payment shown is a SUCCESS charge of the subscription with no later SUCCESS charge. None is shown exactly when the subscription has no successful charge. |
| Subscriptions.ViewOf | src/app/api/subscriptions/route.ts:25-44 | A listed subscription shows its own package and its latest successful charge. |
| Subscriptions.Selected | src/app/api/subscriptions/route.ts:23-24 | The selection holds exactly the stored subscriptions that meet every filter. |
| Subscriptions.NewestFirst | src/app/api/subscriptions/route.ts:45-47 | Sorting keeps the same subscriptions with the same multiplicities, newest first. |
| Subscriptions.List | src/app/api/subscriptions/route.ts:23-48 | Every listed entry is a stored subscription meeting every filter, shown with its own view. Entries are ordered newest first. |
| Subscriptions.SortedSelection | src/app/api/subscriptions/route.ts:23-48 | Sorting the selection keeps every entry a stored subscription meeting every filter. |
| Subscriptions.ListShowsEachSelectedOnce | src/app/api/subscriptions/route.ts:23-48 | The listing is a reordering of the selected subscriptions' views: nothing added, nothing lost, nothing doubled. |
| Subscriptions.ListHandler | src/app/api/subscriptions/route.ts:50-54 | The GET answers 200 with a listing of stored subscriptions only. |
| RouterConfigs.Deactivate | src/app/api/admin/mikrotik/route.ts:43-68 | Every configuration keeps its position and settings. Only the excepted one may stay active, and none may with no exception. |
| RouterConfigs.PortOf | src/app/api/admin/mikrotik/route.ts:55-74 | The stored port is never 0. It is the parsed port when that parses to a non-zero number, and 8728 otherwise, including when no port is sent. |
| RouterConfigs.Post | src/app/api/admin/mikrotik/route.ts:24-95 | The answer is 400 exactly for a parsed body missing name, host, username or password, and 500 exactly for a body that is not JSON. Neither changes anything. No POST touches other tables or the cached clients. |
| RouterConfigs.PostSavesForm | src/app/api/admin/mikrotik/route.ts:51-80 | A complete POST answers 200 with the posted name and settings: port 8728 unless one parses to a non-zero number, and SSL off unless asked for. |
| RouterConfigs.PostActivates | src/app/api/admin/mikrotik/route.ts:40-81 | The configuration a POST saves is stored, active, and the only active one. |
| RouterConfigs.UpdateActivates | src/app/api/admin/mikrotik/route.ts:40-61 | When the name exists, the updated configuration is stored, active, and the only active one. |
| RouterConfigs.CreateActivates | src/app/api/admin/mikrotik/route.ts:62-81 | When the name is new, the created configuration is stored, active, and the only active one. |
| RouterConfigs.PostUpdatesInPlace | src/app/api/admin/mikrotik/route.ts:35-61 | Posting an existing name updates that configuration in place. No row is added, no id or name changes, and every other row only loses its active flag. |
| RouterConfigs.PostCreates | src/app/api/admin/mikrotik/route.ts:62-81 | Posting a new name appends one configuration under a fresh id, stamped now, after switching every existing one off. |
| RouterConfigs.PostWellFormed | src/app/api/admin/mikrotik/route.ts:24-95 | A POST keeps ids unique and below the counter. |
| RouterConfigs.PostKeepsOneActive | src/app/api/admin/mikrotik/route.ts:40-81 | After a successful POST exactly one configuration is active, whatever was active before. It is the one a fresh router connection would use. |
| RouterConfigs.SameIdsWellFormed | src/app/api/admin/mikrotik/route.ts:43-126 | Rewriting configurations without touching their ids keeps the store well formed. |
| RouterConfigs.AppendedIdWellFormed | src/app/api/admin/mikrotik/route.ts:70-80 | Appending a configuration under the counter keeps the store well formed. |
| RouterConfigs.OnlyActiveIsOne | src/lib/mikrotik.ts:311-313 | With unique ids, a configuration that is the only active one is the one a fresh router connection is built from. |
| RouterConfigs.PostedIsFound | src/app/api/admin/mikrotik/route.ts:35-37 | After a POST, looking up the same name finds exactly the configuration it saved. |
| RouterConfigs.UpdatedIsFound | src/app/api/admin/mikrotik/route.ts:35-61 | After an update by name, the name still finds the updated configuration. |
| RouterConfigs.CreatedIsFound | src/app/api/admin/mikrotik/route.ts:35-80 | After creating under a new name, the name finds the new configuration. |
| RouterConfigs.PostIsIdempotent | src/app/api/admin/mikrotik/route.ts:24-95 | Posting the same form twice leaves the same configurations, and the same answer, as posting it once. |
| RouterConfigs.RepostChangesNothing | src/app/api/admin/mikrotik/route.ts:40-61 | Re-posting the form that saved the only active configuration changes nothing. |
| RouterConfigs.SameRows | src/app/api/admin/mikrotik/route.ts:43-61 | An update that rewrites the active row with its own values, and switches off rows that are already off, is the identity. |
| RouterConfigs.Patched | src/app/api/admin/mikrotik/route.ts:115-126 | A non-empty name, host, username or password is written. A supplied port is written as parsed. A defined SSL or active flag is written. Everything else, the id and the creation time keep their stored values. |
| RouterConfigs.Put | src/app/api/admin/mikrotik/route.ts:97-140 | The answer is 400 exactly when no id is given. It is 200 exactly when the id names a stored configuration and any supplied port parses. A 400 or a body that is not JSON changes nothing. The number of configurations never changes, and no other table does. |
| RouterConfigs.PutChangesOnlySupplied | src/app/api/admin/mikrotik/route.ts:107-126 | A successful PUT changes only the configuration it names, and there only the supplied fields. With `isActive` true, every other configuration is switched off. |
| RouterConfigs.PutActivation | src/app/api/admin/mikrotik/route.ts:108-113 | A PUT that activates a configuration leaves no other configuration active, whether or not the update then succeeds. |
| RouterConfigs.PutAnswersStored | src/app/api/admin/mikrotik/route.ts:115-132 | A successful PUT answers with the configuration as stored, carrying any active flag it was given. |
| RouterConfigs.PutUnknownId | src/app/api/admin/mikrotik/route.ts:108-139 | A PUT naming no stored configuration answers 500, but the deactivation that ran first stays. With `isActive` true, no configuration is left active. |
| RouterConfigs.PutKeepsIds | src/app/api/admin/mikrotik/route.ts:107-126 | A PUT changes no id. Every configuration active afterwards was active before, or is the one named with `isActive` true. |
| RouterConfigs.PutKeepsAtMostOneActive | src/app/api/admin/mikrotik/route.ts:97-140 | A PUT keeps the store well formed and never makes two configurations active. |
| RouterConfigs.OnlyActiveUnique | src/app/api/admin/mikrotik/route.ts:108-113 | With unique ids, when only one id may be active, at most one configuration is. |
| RouterConfigs.FewerActive | src/app/api/admin/mikrotik/route.ts:115-126 | Switching configurations off cannot make two of them active. |
| RouterConfigs.Delete | src/app/api/admin/mikrotik/route.ts:142-168 | The answer is 400 exactly when no id is given, and 500 exactly when the id names no configuration, with the store's `Record to delete does not exist.` Neither changes anything. A 200 removes exactly the configuration with that id and touches nothing else. |
| RouterConfigs.DeleteKeepsCachedClient | src/app/api/admin/mikrotik/route.ts:142-160 | Deleting keeps at most one configuration active. A cached router client, even one built from the deleted configuration, stays in use. |
| RouterConfigs.List | src/app/api/admin/mikrotik/route.ts:6-15 | The GET lists every configuration once, newest first. |
| RouterUsers.Classify | src/app/api/mikrotik/users/route.ts:49-90 | The answer is 400 exactly when the message mentions the missing configuration. Otherwise it is 503 exactly for an unreachable router (connection refused or timed out, unknown host, timeout or abort). Otherwise 401 exactly when the message mentions failed authentication. Everything else is 500, carrying the error's message. |
| RouterUsers.ConfigMessageClassified | src/app/api/mikrotik/users/route.ts:53-60 | The connection's own missing-configuration message is sorted as 400 `MIKROTIK_NOT_CONFIGURED`, with the handler's fixed error and message. |
| RouterUsers.RouterRefusalIsUnexpected | src/app/api/mikrotik/users/route.ts:75-89 | A router that itself answers 401 produces a message that names none of the phrases the handler looks for. The refusal is therefore reported as 500, not as failed authentication. |
| RouterUsers.RefusalText | src/lib/mikrotik.ts:67-69 | A router's 401 refusal produces exactly `Mikrotik API error: 401 Unauthorized`. |
| RouterUsers.RefusalNamesNoPhrase | src/app/api/mikrotik/users/route.ts:53-81 | The refusal message mentions neither the missing configuration, nor a connection failure, nor failed authentication. |
| RouterUsers.RefusalIsNoConnectionFailure | src/app/api/mikrotik/users/route.ts:62-66 | The refusal message names no connection-failure phrase. |
| RouterUsers.RefusalIsNoAuthFailure | src/app/api/mikrotik/users/route.ts:75 | The refusal message does not mention failed authentication. |
| RouterUsers.List | src/app/api/mikrotik/users/route.ts:5-91 | With no active configuration the answer is 400 MIKROTIK_NOT_CONFIGURED, with no router call and no change. An unknown type is 400 with no router call. Exactly one router request is sent exactly for a known type with a configuration, using the connection's credentials. Its reply decides the answer: a 2xx reply is served with status 200, and a failure is answered as `Classify` sorts its message. |
| RouterUsers.ListingTypes | src/app/api/mikrotik/users/route.ts:22-42 | The known types are exactly `pppoe`, `hotspot` and `active`, plus an absent or empty type, which reads the PPPoE secrets. |
| RouterUsers.Create | src/app/api/mikrotik/users/route.ts:93-148 | A body that is not JSON is 500 with the parser's message. A form missing name, password or profile is 400, with no router call and no change. A router request is sent only for a complete form with a connection. It is the PPPoE create for `pppoe` (service defaulting to `pppoe`) and the Hotspot create for `hotspot`. Any other type is 400 `Invalid type`, with no request and no change. A created record is served exactly on a 2xx reply. Without a connection the answer is 500 with the missing-configuration message. |
| Packages.ParseServiceType | src/app/api/packages/route.ts:61-65 | Exactly the three stored type names parse, and each parses back to a type with that name. |
| Packages.ServiceTypeRoundTrip | src/app/api/packages/route.ts:61-71 | Every type's stored name parses back to the same type. |
| Packages.BuildWhere | src/app/api/packages/route.ts:10-18 | A type filter is set exactly for a non-empty type other than `all`, and is upper-cased. An availability filter is set exactly when `active` is present, and asks for active packages exactly when it is `true`. |
| Packages.TypeRankIsNameOrder | src/app/api/packages/route.ts:22-25 | Ordering types by rank is the ascending order of their stored names. |
| Packages.Select | src/app/api/packages/route.ts:20-26 | The listing holds each stored package meeting the filter exactly as many times as the store does, and nothing else. It is ordered by type name and, within a type, by ascending price. |
| Packages.List | src/app/api/packages/route.ts:4-27 | The listing holds each stored package the query selects exactly as many times as the store does, and nothing else. It is ordered by type and then by price. |
| Packages.ListHandler | src/app/api/packages/route.ts:28-32 | The GET answers 200 with that listing. |
| Packages.AllMeansNoTypeFilter | src/app/api/packages/route.ts:12-14 | `type=all` lists the same packages as no type at all. |
| Packages.TypeFilterIgnoresCase | src/app/api/packages/route.ts:12-14 | Apart from the word `all`, a type and its upper-cased form list the same packages. |
| Packages.UpperCaseAllListsNothing | src/app/api/packages/route.ts:12-14 | `type=ALL` is not the word `all`. It filters on a type named `ALL`, which no package has, so nothing is listed. |
| Packages.DataLimitOf | src/app/api/packages/route.ts:74 | A missing or falsy data limit is stored as null. A truthy one is stored as parsed, and one that does not parse is refused by the store. |
| Packages.Create | src/app/api/packages/route.ts:41-91 | The answer is 400 exactly for a form missing name, type, price or duration (JavaScript falsiness, so the text "0" counts as given), or whose upper-cased type is not PPPOE, HOTSPOT or BOTH. A body that is not JSON is 500 with the parser's message. For a valid form, the answer is 500 with the store's rejection exactly when the price reads as `NaN` under `parseFloat`, or the duration or a truthy data limit reads as `NaN` under `parseInt`. A failed POST changes nothing. A 200 appends exactly the answered package under a fresh id: active, with the upper-cased type, the `parseFloat` price, the parsed duration and data limit, and the other fields as sent. |
| Packages.TextPriceStoresLeadingNumber | src/app/api/packages/route.ts:55-72 | A price sent as text of digits followed by anything that cannot continue a numeral is accepted, and the package stores the value of the digits: "12abc" stores 12, and "0" stores 0. |
| Packages.ReadableFormIsStored | src/app/api/packages/route.ts:67-84 | A complete form of a known type whose price, duration and data limit all read as numbers is answered 200, and the stored package has the price read. |
| Packages.NonNumericPriceRefused | src/app/api/packages/route.ts:67-90 | A non-empty price text with no numeral at its front (after white space and one sign) reads as `NaN`, and the POST answers 500 with the store's rejection and writes nothing. |
| Packages.TypeIgnoresCase | src/app/api/packages/route.ts:61-71 | Two forms that differ only in the case of the type get the same answer and leave the same store. |
| Packages.CreatePreservesWellFormed | src/app/api/packages/route.ts:67-78 | Creating a package keeps ids unique and below the counter. |
| Seeding.Seed | src/app/api/setup/packages/route.ts:4-98 | With any package present, seeding answers `success: false` and changes nothing. On an empty catalogue every default whose create is not refused is stored, under id `nextId + i` and stamped now, and nothing else is. The answer is 500 with the refusal's message exactly when some create is refused. Otherwise it is 200 with all six packages under consecutive fresh ids. |
| Seeding.StoreAll | src/app/api/setup/packages/route.ts:79-85 | One row per default, in list order, under consecutive ids. |
| Seeding.Survivors | src/app/api/setup/packages/route.ts:79-85 | Default `i` is stored under id `first + i` exactly when its create is not refused. Nothing else is stored, the ids are distinct and in range, and with no refusal every default is stored. |
| Seeding.DefaultsAreSellable | src/app/api/setup/packages/route.ts:16-77 | Every default has a positive price and duration and a non-empty router profile. |
| Seeding.OneDefaultLimited | src/app/api/setup/packages/route.ts:47-56 | Only the fourth default, the Hotspot package, carries a data limit, of 5000. |
| Seeding.SeededCatalogue | src/app/api/setup/packages/route.ts:16-91 | Seeding an empty catalogue yields six active packages with positive price and duration and a non-empty profile. Exactly one of them, the Hotspot package, has a data limit, of 5000. |
| Seeding.SeedIsIdempotent | src/app/api/setup/packages/route.ts:7-13 | After one successful call, seeding again changes nothing and declines with `Packages already exist`. |
| Seeding.PartialSeedIsPermanent | src/app/api/setup/packages/route.ts:7-85 | When some creates are refused, the run answers 500 but leaves every unrefused default stored. Any later run declines and changes nothing. |
| Seeding.AllRefusedStoresNothing | src/app/api/setup/packages/route.ts:7-85 | When every create is refused, the run stores nothing, and a later run that is not refused seeds all six defaults. |
| Seeding.SeedPreservesWellFormed | src/app/api/setup/packages/route.ts:79-85 | Seeding keeps ids unique and below the counter. |
| Registration.ProfileOf | src/app/api/auth/register/route.ts:52-61 | The answer carries the account's id, name, username, e-mail, phone, role, status and creation time. |
| Registration.ProfileHidesPassword | src/app/api/auth/register/route.ts:52-61 | The answer does not depend on the stored password hash. |
| Registration.Register | src/app/api/auth/register/route.ts:7-76 | A missing name, username or password is 400. So is a password under six UTF-16 code units (as JavaScript counts `length`), and then a taken username. A body that is not JSON is 500. When every check passes, the answer is 200 exactly when the store accepts the insert, and a refused insert is 500 with the generic message. No failure changes the store. A 200 appends exactly one ACTIVE CUSTOMER account under a fresh id, storing the hash of the password. |
| Base.ParseFloat | src/app/api/packages/route.ts:72 | JavaScript `parseFloat`: the result is `NaN` exactly when, after leading white space and at most one sign, the text does not start with a digit or with a point followed by a digit. A negative result comes only from a leading minus. |
| Base.ParseUnsignedFloat | src/app/api/packages/route.ts:72 | The unsigned numeral at the front of a text: `NaN` exactly when the text starts with neither a digit nor a point and a digit; otherwise a non-negative value. |
| Base.ParseFloatStopsAtJunk | src/app/api/packages/route.ts:72 | Digits followed by text that cannot continue a numeral read as the value of the digits. The rest is ignored. |
| Base.ParseFloatReadsFraction | src/app/api/packages/route.ts:72 | Digits, a point and digits read as the whole part plus the fraction `0.d1d2…`. |
| Base.Utf16Length | src/app/api/auth/register/route.ts:19 | A string's JavaScript `length` counts its UTF-16 code units: between one and two per character, exactly one each when every character is in the Basic Multilingual Plane, and two each when every character lies above it. |
| Registration.RegisterKeepsUsernamesUnique | src/app/api/auth/register/route.ts:27-62 | Registration never lets two accounts share a username. |
| Registration.SecondRegistrationRefused | src/app/api/auth/register/route.ts:27-36 | Registering a username again is refused with 400 and changes nothing. |
| Registration.RegisteredCanSignIn | src/app/api/auth/register/route.ts:39-62 | A newly registered customer can sign in with the password they chose, provided the hash check accepts a password against its own hash. |
| Registration.RegisterPreservesWellFormed | src/app/api/auth/register/route.ts:42-62 | Registering keeps ids unique and below the counter. |
| Auth.IdentityOf | src/lib/auth.ts:44-51 | A login returns the account's id, username, e-mail, name, role and phone, and no password. |
| Auth.FindUsername | src/lib/auth.ts:23-27 | The account found has the requested username. None is found exactly when no account has it. |
| Auth.Authorize | src/lib/auth.ts:18-52 | A login with a missing username or password is refused, and so is one for an unknown username. With both given, it succeeds exactly when the account is ACTIVE and the password matches its hash. Success returns that account's identity. |
| Auth.InactiveCannotSignIn | src/lib/auth.ts:34-36 | An account that is not ACTIVE cannot sign in, whatever the password and however the hash check answers. |
| Auth.Jwt | src/lib/auth.ts:59-67 | On sign-in the identity's id, role, phone and username are written into the token. On later requests the token passes through unchanged. Name and e-mail are never touched. |
| Auth.SessionOf | src/lib/auth.ts:68-76 | With a token and a session user, the token's id, role, phone and username are copied onto the user, keeping name and e-mail. Otherwise the session is unchanged. |
| Auth.SignInReachesSession | src/lib/auth.ts:18-76 | The identity a login produced reaches the client session intact through the token. It names a stored ACTIVE account with that id and role. |
| AdminGate.Authorized | middleware.ts:26-35 | Paths outside `/admin`, and the admin login page, are always allowed. Other admin paths are allowed exactly with an ADMIN token. |
| AdminGate.Middleware | middleware.ts:5-23 | On an admin page other than the login page, no token redirects to `/admin/login` and a non-ADMIN token redirects to `/login`. The request passes exactly in every other case. |
| AdminGate.Gate | middleware.ts:4-42 | An unmatched path passes. A matched path that `authorized` refuses goes to the sign-in page. Only a matched path it accepts reaches `middleware`. |
| AdminGate.MatchedIsAdminPage | middleware.ts:9-42 | Every path the matcher selects is an admin page. |
| AdminGate.GateDecidesByAuthorized | middleware.ts:4-42 | Behind `authorized`, the middleware's own redirects never fire. A request passes exactly when it is unmatched, is the login page, or carries an ADMIN token, and is otherwise sent to sign in. |
| AdminGate.CustomerKeptOut | middleware.ts:26-35 | A non-ADMIN token never opens an admin page other than the login page. |
| UserDirectory.LatestActive | src/app/api/admin/users/route.ts:9-20 | The subscription shown is an ACTIVE subscription of the user with no newer ACTIVE one. None is shown exactly when the user has no ACTIVE subscription. |
| UserDirectory.RowOf | src/app/api/admin/users/route.ts:32-46 | The user's own columns, including balance, status, role and router id, pass through unchanged. |
| UserDirectory.LineShowsLatestActive | src/app/api/admin/users/route.ts:29-44 | The package name, speed and end date come from the newest ACTIVE subscription and its package only. `No Package`, `N/A` and null stand in for what is missing or empty. |
| UserDirectory.NoActiveShowsPlaceholders | src/app/api/admin/users/route.ts:41-44 | A user without an ACTIVE subscription shows the placeholders, whatever other subscriptions they have. |
| UserDirectory.NewestUsersFirst | src/app/api/admin/users/route.ts:22-24 | Sorting keeps the same users with the same multiplicities, newest first. |
| UserDirectory.Directory | src/app/api/admin/users/route.ts:7-47 | There is one line per user, newest account first. |
| UserDirectory.RowsOf | src/app/api/admin/users/route.ts:28 | The lines follow the users one to one, in order. |
| UserDirectory.DirectoryIsEveryUserOnce | src/app/api/admin/users/route.ts:7-47 | The directory is a reordering of the users' lines: nothing added, nothing lost. |
| UserDirectory.ListHandler | src/app/api/admin/users/route.ts:49-52 | The GET answers 200 with the directory. |
| UserDirectory.OneRowPerUser | src/app/api/admin/users/route.ts:7-47 | With distinct user ids, no user appears on two lines. |
| UserDirectory.PermutationKeepsIdsUnique | src/app/api/admin/users/route.ts:22-24 | Reordering users keeps their ids distinct. |
| Runtime.MessageOr | src/app/api/subscriptions/route.ts:203-208 | A caught error's message is used when it is non-empty, and the handler's fallback otherwise. |
| Store.FindUser | src/app/api/subscriptions/route.ts:79-81 | The user found has the requested id. None is found exactly when no user has it. |
| Store.FindPackage | src/app/api/subscriptions/route.ts:82-84 | The package found has the requested id. None is found exactly when no package has it. |
| Store.DeleteSubscription | src/app/api/subscriptions/route.ts:185-187 | The row with that id is removed and every other row kept. Deleting the row just appended restores the table. |
| Store.DeleteTransaction | src/app/api/subscriptions/route.ts:188-190 | The row with that id is removed and every other row kept. Deleting the row just appended restores the table. |
| Store.DeleteConfig | src/app/api/admin/mikrotik/route.ts:153-155 | Exactly the configurations with another id remain, and removing rows cannot make two of them active. |

## Left out

- **I/O.** HTTP transport, Basic-auth and Base64 encoding, JSON parsing
  and printing, and logging are not modelled. A body that is not JSON is
  an `Err` carrying the parser's message. The stored metadata is an
  abstract value (`GatewayNotification(raw)`, `InvoiceLink(...)`), not a
  JSON text.
- **Oracles.** Password hashing and comparison (bcrypt) are function
  parameters. Prisma is replaced by the table model, and its cuid ids by
  a counter. `Date.now`, `new Date()` and `Math.random` are parameters,
  and so are `process.env` values.
- **Concurrency.** Two notifications or two POSTs running at the same
  time are not modelled; every handler runs to completion before the
  next starts.
- **Store error texts.** The store's messages for a missing row and a
  rejected value are the final sentence of the messages the database
  client raises. The client also prefixes a description of the failed
  call, and that prefix is not modelled.
- **Store writes.** Writes are assumed to succeed except where a handler
  depends on them failing: an unknown id in an update or delete, a
  `NaN` in a numeric column, and a refused seeding create. This covers
  the two compensation deletes and the two activation writes, so a failure between the subscription update
  and the user update (which would leave the subscription ACTIVE with no
  router id on the user) is not modelled.
- **JSON `null`.** In request bodies, `null` is treated like an absent
  field. The code does not always treat them alike, and these differences
  are not modelled:
  - A notification with `id: null` looks up the first transaction with no
    external id. The model applies no filter and takes the first
    transaction.
  - A notification with `payment_method` or `payment_channel` null writes
    NULL. The model keeps the stored value.
  - A subscription request with `paymentMethod: null` skips the `XENDIT`
    default and takes the path without an invoice. The model applies the
    default and creates an invoice.
  - A router-settings PUT with `useSSL` or `isActive` null writes the
    null. The model leaves the field unchanged.
  - A router-user POST with `type: null` skips the `pppoe` default and
    answers 400 `Invalid type`. The model creates a PPPoE account.
  - A router-user POST with `service: null` skips the `pppoe` default as
    well, so the router is sent `service: null`. The model sends `pppoe`.
  - A notification with `status: null` fails in `status.toUpperCase()`
    with "Cannot read properties of null (reading 'toUpperCase')", and the
    500 carries that text. The model answers with the message for an
    absent status, which says `undefined` instead of `null`.
- **Column types.** Package type and subscription status are compared as
  strings, as the handlers write them. A filter value that names no type
  or status selects nothing, rather than failing as an enum column would.
- **Ties in `orderBy`.** The sort is a stable insertion sort, so rows with
  equal keys keep their table order. The database's order among ties is
  unspecified.
- **Seeding order.** `Promise.all` may insert the six defaults in any
  order. The model stores the ones that are not refused in list order,
  default `i` under id `nextId + i`. Which refusal's message is reported
  (the first to settle) is a parameter.
- **Package type column.** A stored package's type is the enumeration
  PPPOE, HOTSPOT or BOTH, so a stored package with any other type cannot
  be represented. Every handler that writes a package validates the type
  first, and the seeding defaults use standard types.
- **Unicode.** `toUpperCase` and `toLowerCase` map ASCII letters only.
  The white space that `\s` strips is the JavaScript set, with the
  Unicode space separators listed explicitly.
- **Dates.** `setDate(getDate() + duration)` is modelled as adding
  `duration` whole days of milliseconds. Daylight-saving shifts in the
  server's time zone are not modelled.
- **Sign-in page.** `withAuth` sends a refused request to the
  authentication library's sign-in page. Its callback URL and error page
  are not modelled.
- **Other client methods.** The remaining `XenditAPI` methods (invoice by
  id, virtual accounts, e-wallets, balance, payouts, `handleXenditError`)
  and `MikrotikAPI` methods (delete, enable and disable, profiles, queues,
  hotspot sessions, `getUserStatistics`) are not used by any modelled
  handler. They are not modelled. `Mikrotik.LogsPath` and
  `Mikrotik.TrafficPath` are kept, although only the monitoring routes
  call `getLogs` and `getInterfaceTraffic`: they pin down the request
  paths the client builds. The monitoring routes themselves are not
  modelled.
- **Connection reset.** `resetMikrotikConnection` is modelled
  (`Mikrotik.ResetConnection`), but no route calls it. The model never
  resets the cache on a configuration change, and
  `RouterConfigs.DeleteKeepsCachedClient` states the consequence.
- **Other parts of the application.** The UI pages and components, the
  monitoring and dashboard routes, and the two setup scripts are not part
  of this model.
- Packages.Create: the store's answer to a `NaN` price is modelled as the
  same rejection message as a `NaN` in an integer column
  (`RejectedValueMessage`). The exact text the store gives for a float
  column is not modelled. A price that is a JSON boolean, object or array
  cannot be represented (`FloatField` is a number, a text or nothing).
- Base.ParseFloat: the value read is the exact decimal, not rounded to the
  nearest double. The words `Infinity` and `-Infinity`, which `parseFloat`
  reads, are read as `NaN`, because reals have no infinity.
- Xendit.FormatAmount: `Math.round` on non-finite numbers (`NaN`,
  infinities) is not modelled. Amounts are reals, which are always
  finite.
- Subscriptions.AccountName: the character-level contract is stated up to
  letter case (`UpperChar` of each character). The exact lower-cased
  spelling follows from `ToLower`, which is not restated.

## Observations

These describe the code as written. The model reproduces each one, and the
named lemma states it:

- Behind `withAuth`, the admin pages' own redirects in `middleware` can
  never fire: `authorized` has already sent every such request to the
  sign-in page (`AdminGate.GateDecidesByAuthorized`).
- A package price sent as the text "0" passes the required-field check,
  because non-empty text is truthy, and the package is stored with price 0.
  Text such as "12abc" is stored as 12
  (`Packages.TextPriceStoresLeadingNumber`).
- `type=ALL` on the package listing lists nothing, because only the
  lower-case word `all` switches the filter off
  (`Packages.UpperCaseAllListsNothing`).
- A PUT of router settings with `isActive: true` switches every other
  configuration off before it finds out that the id is unknown and
  answers 500 (`RouterConfigs.PutUnknownId`).
- Deleting the active router configuration leaves the cached client in use
  (`RouterConfigs.DeleteKeepsCachedClient`).
- A router that itself refuses the credentials (HTTP 401) is reported as a
  500, not as failed authentication (`RouterUsers.RouterRefusalIsUnexpected`).
- A repeated PAID notification creates the router accounts again: the
  handler settles the matching transaction whatever its current status,
  so nothing stops a second delivery
  (`Callback.RepeatedPaidNotificationProvisionsAgain`).
- The router password is at most ten base-36 characters, and fewer when
  the random number prints fewer digits (`Subscriptions.AccountPassword`).
- The notification's status is read only after the token check and the
  transaction lookup. A notification without a status passes both and
  then fails with a TypeError (500) before anything is written
  (`Callback.MissingStatusFailsUnwritten`).
- A seeding run in which some of the six creates are refused answers 500
  but leaves the other defaults stored. Every later run then declines, so
  the refused defaults are never created (`Seeding.PartialSeedIsPermanent`).

=== FILE: admin_mikrotik.dfy ===
/** The router-configuration admin endpoint (`/api/admin/mikrotik`): saved
    MikroTik connections are created, updated and deleted here, and the
    handlers keep at most one of them active. None of them resets the cached
    router client, so a client built from an older configuration stays in
    use until the process restarts. */
module RouterConfigs {
  import opened Base
  import opened Store
  import opened Http
  import opened Runtime
  import Mikrotik

  const DefaultPort: int := 8728
  const MissingFieldsMessage: string := "Name, host, username, and password are required"
  const MissingIdMessage: string := "Configuration ID is required"
  const CreatedMessage: string := "Mikrotik configuration created successfully"
  const UpdatedMessage: string := "Mikrotik configuration updated successfully"
  const DeletedMessage: string := "Mikrotik configuration deleted successfully"

  /** Every active configuration carries id `id`. */
  predicate OnlyActive(configs: seq<RouterConfig>, id: Id) {
    forall k :: k in configs && k.isActive ==> k.id == id
  }

  /** The bulk update that switches off every active configuration other
      than `except`; with no exception, all of them. */
  function Deactivate(configs: seq<RouterConfig>, except: Option<Id>): (r: seq<RouterConfig>)
    ensures |r| == |configs|
    ensures forall i :: 0 <= i < |configs| ==>
              r[i] == configs[i].(isActive := configs[i].isActive && except == Some(configs[i].id))
    ensures forall k :: k in r && k.isActive ==> except.Some? && k.id == except.value
  {
    MapSeq(configs, (k: RouterConfig) => k.(isActive := k.isActive && except == Some(k.id)))
  }

  /** The submitted port as an integer, falling back to the default port
      when it does not parse or parses to 0. */
  function PortOf(port: Numeric): (p: int)
    ensures p != 0
    ensures ParseIntOf(port).Some? && ParseIntOf(port).value != 0 ==> p == ParseIntOf(port).value
    ensures ParseIntOf(port).None? || ParseIntOf(port).value == 0 ==> p == DefaultPort
    ensures port.Missing? ==> p == DefaultPort
  {
    var parsed := ParseIntOf(port);
    if parsed.Some? && parsed.value != 0 then parsed.value else DefaultPort
  }

  // ---------------------------------------------------------------------
  // POST: create, or update the configuration with the same name
  // ---------------------------------------------------------------------

  datatype ConfigForm = ConfigForm(
    name: Option<string>,
    host: Option<string>,
    port: Numeric,
    username: Option<string>,
    password: Option<string>,
    useSSL: Option<bool>)

  predicate Complete(f: ConfigForm) {
    Truthy(f.name) && Truthy(f.host) && Truthy(f.username) && Truthy(f.password)
  }

  /** The posted connection settings written over `k`, which becomes active. */
  function Posted(f: ConfigForm, k: RouterConfig): RouterConfig
    requires Complete(f)
  {
    k.(host := f.host.value, port := PortOf(f.port), username := f.username.value,
       password := f.password.value, useSSL := f.useSSL.GetOr(false), isActive := true)
  }

  datatype Outcome = Outcome(response: Response<RouterConfig>, world: World)

  /** The POST handler. `body` is the parsed JSON, or the parser's message. */
  function Post(w: World, body: Result<ConfigForm, string>, now: Millis): (o: Outcome)
    ensures o.response.status in {200, 400, 500}
    ensures o.response.status == 400 <==> body.Ok? && !Complete(body.value)
    ensures o.response.status == 500 <==> body.Err?
    ensures o.response.status != 200 ==> o.world == w
    ensures o.world.router == w.router && o.world.gateway == w.gateway
    ensures o.world.db.(configs := w.db.configs, nextId := w.db.nextId) == w.db
  {
    match body
    case Err(m) => Outcome(Fail(500, m), w)
    case Ok(f) =>
      if !Complete(f) then Outcome(Fail(400, MissingFieldsMessage), w)
      else
        match Existing(w.db, f)
        case Some(existing) =>
          var configs := UpdateConfig(Deactivate(w.db.configs, Some(existing.id)), existing.id,
                                      (k: RouterConfig) => Posted(f, k));
          Outcome(Response(200, Done(UpdatedMessage, Posted(f, existing))), w.(db := w.db.(configs := configs)))
        case None =>
          var created := Posted(f, RouterConfig(w.db.nextId, f.name.value, "", 0, "", "", false, false, now));
          var configs := Deactivate(w.db.configs, None) + [created];
          Outcome(Response(200, Done(CreatedMessage, created)),
                  w.(db := w.db.(configs := configs, nextId := w.db.nextId + 1)))
  }

  /** The configuration a POST names, if one with that name exists. */
  function Existing(db: Db, f: ConfigForm): Option<RouterConfig>
    requires Complete(f)
  {
    First(db.configs, (k: RouterConfig) => k.name == f.name.value)
  }

  /** A complete POST answers 200 with the configuration it saved, carrying
      the posted name and settings (port 8728 unless one parses to a
      non-zero number, SSL off unless asked for). */
  lemma PostSavesForm(w: World, f: ConfigForm, now: Millis)
    requires Complete(f)
    ensures var o := Post(w, Ok(f), now);
            var k := o.response.body.data;
            && o.response.status == 200 && o.response.body.Done?
            && k.name == f.name.value && k.host == f.host.value && k.port == PortOf(f.port)
            && k.username == f.username.value && k.password == f.password.value
            && k.useSSL == (f.useSSL == Some(true))
  {
  }

  /** The configuration a POST saved is stored, active, and the only active
      one. */
  lemma PostActivates(w: World, f: ConfigForm, now: Millis)
    requires Complete(f)
    ensures var o := Post(w, Ok(f), now);
            var k := o.response.body.data;
            && o.response.body.Done?
            && k in o.world.db.configs && k.isActive
            && OnlyActive(o.world.db.configs, k.id)
  {
    if Existing(w.db, f).Some? {
      UpdateActivates(w, f, now);
    } else {
      CreateActivates(w, f, now);
    }
  }

  lemma UpdateActivates(w: World, f: ConfigForm, now: Millis)
    requires Complete(f) && Existing(w.db, f).Some?
    ensures var o := Post(w, Ok(f), now);
            var k := o.response.body.data;
            && o.response.body.Done?
            && k in o.world.db.configs && k.isActive
            && OnlyActive(o.world.db.configs, k.id)
  {
    var o := Post(w, Ok(f), now);
    var k := o.response.body.data;
    var configs := o.world.db.configs;
    var existing := Existing(w.db, f).value;
    PostUpdatesInPlace(w, f, now);
    var i :| 0 <= i < |w.db.configs| && w.db.configs[i] == existing;
    assert configs[i] == k;
    forall x | x in configs && x.isActive ensures x.id == k.id {
      var j :| 0 <= j < |configs| && configs[j] == x;
    }
  }

  lemma CreateActivates(w: World, f: ConfigForm, now: Millis)
    requires Complete(f) && Existing(w.db, f).None?
    ensures var o := Post(w, Ok(f), now);
            var k := o.response.body.data;
            && o.response.body.Done?
            && k in o.world.db.configs && k.isActive
            && OnlyActive(o.world.db.configs, k.id)
  {
    var o := Post(w, Ok(f), now);
    var configs := o.world.db.configs;
    PostCreates(w, f, now);
    forall x | x in configs && x.isActive ensures x.id == o.response.body.data.id {
      var j :| 0 <= j < |configs| && configs[j] == x;
    }
  }

  /** Posting an existing name updates that configuration in place: no row
      is added, no id changes, and every other row keeps its name and
      settings (only losing its active flag). */
  lemma PostUpdatesInPlace(w: World, f: ConfigForm, now: Millis)
    requires Complete(f) && Existing(w.db, f).Some?
    ensures var o := Post(w, Ok(f), now);
            var configs := o.world.db.configs;
            && o.response == Response(200, Done(UpdatedMessage, Posted(f, Existing(w.db, f).value)))
            && o.world.db.nextId == w.db.nextId
            && |configs| == |w.db.configs|
            && (forall i :: 0 <= i < |configs| ==> configs[i].id == w.db.configs[i].id && configs[i].name == w.db.configs[i].name)
            && (forall i :: 0 <= i < |configs| && configs[i].id != Existing(w.db, f).value.id ==>
                  configs[i] == w.db.configs[i].(isActive := false))
            && (forall i :: 0 <= i < |configs| && configs[i].id == Existing(w.db, f).value.id ==>
                  configs[i] == Posted(f, w.db.configs[i]))
  {
  }

  /** Posting a new name appends one configuration under a fresh id, after
      switching every existing one off. */
  lemma PostCreates(w: World, f: ConfigForm, now: Millis)
    requires Complete(f) && Existing(w.db, f).None?
    ensures var o := Post(w, Ok(f), now);
            var configs := o.world.db.configs;
            var n := |w.db.configs|;
            && o.response.body.Done? && o.response.body.message == CreatedMessage
            && |configs| == n + 1
            && configs[n] == o.response.body.data && configs[n].id == w.db.nextId && configs[n].createdAt == now
            && o.world.db.nextId == w.db.nextId + 1
            && (forall i :: 0 <= i < n ==> configs[i] == w.db.configs[i].(isActive := false))
  {
  }

  /** POST keeps the store well formed. */
  lemma PostWellFormed(w: World, body: Result<ConfigForm, string>, now: Millis)
    requires WellFormed(w.db)
    ensures WellFormed(Post(w, body, now).world.db)
  {
    if body.Ok? && Complete(body.value) {
      var f := body.value;
      var o := Post(w, body, now);
      if Existing(w.db, f).Some? {
        PostUpdatesInPlace(w, f, now);
        SameIdsWellFormed(w.db, o.world.db);
      } else {
        PostCreates(w, f, now);
        AppendedIdWellFormed(w.db, o.world.db);
      }
    }
  }

  /** After a POST exactly one configuration is active (whatever was active
      before), and it is the one the router client would be built from. */
  lemma PostKeepsOneActive(w: World, body: Result<ConfigForm, string>, now: Millis)
    requires WellFormed(w.db)
    ensures var o := Post(w, body, now);
            o.response.status == 200 ==>
              AtMostOneActive(o.world.db.configs) && Mikrotik.ActiveConfig(o.world.db.configs) == Some(o.response.body.data)
    ensures AtMostOneActive(w.db.configs) ==> AtMostOneActive(Post(w, body, now).world.db.configs)
  {
    if body.Ok? && Complete(body.value) {
      var o := Post(w, body, now);
      PostWellFormed(w, body, now);
      PostActivates(w, body.value, now);
      OnlyActiveIsOne(o.world.db.configs, o.response.body.data);
    }
  }

  /** Rewriting configurations without touching their ids keeps the store
      well formed. */
  lemma SameIdsWellFormed(db: Db, db2: Db)
    requires WellFormed(db) && db2.(configs := db.configs) == db
    requires |db2.configs| == |db.configs|
    requires forall i :: 0 <= i < |db2.configs| ==> db2.configs[i].id == db.configs[i].id
    ensures WellFormed(db2)
  {
  }

  /** Appending one configuration under the counter, and advancing it,
      keeps the store well formed. */
  lemma AppendedIdWellFormed(db: Db, db2: Db)
    requires WellFormed(db) && db2.(configs := db.configs, nextId := db.nextId) == db
    requires db2.nextId == db.nextId + 1 && |db2.configs| == |db.configs| + 1
    requires db2.configs[|db.configs|].id == db.nextId
    requires forall i :: 0 <= i < |db.configs| ==> db2.configs[i].id == db.configs[i].id
    ensures WellFormed(db2)
  {
  }

  /** With unique ids, a configuration that is the only active one is the
      one the router client is built from. */
  lemma OnlyActiveIsOne(configs: seq<RouterConfig>, k: RouterConfig)
    requires forall i, j :: 0 <= i < j < |configs| ==> configs[i].id != configs[j].id
    requires k in configs && k.isActive && OnlyActive(configs, k.id)
    ensures AtMostOneActive(configs)
    ensures Mikrotik.ActiveConfig(configs) == Some(k)
  {
    forall i, j | 0 <= i < |configs| && 0 <= j < |configs| && configs[i].isActive && configs[j].isActive
      ensures i == j
    {
      assert configs[i] in configs && configs[j] in configs;
    }
    var a := Mikrotik.ActiveConfig(configs).value;
    var i :| 0 <= i < |configs| && configs[i] == a;
    var j :| 0 <= j < |configs| && configs[j] == k;
    assert configs[i].isActive && configs[j].isActive;
  }

  /** After a POST, the same name finds the configuration it saved. */
  lemma PostedIsFound(w: World, f: ConfigForm, now: Millis)
    requires Complete(f) && WellFormed(w.db)
    ensures var o := Post(w, Ok(f), now);
            Existing(o.world.db, f) == Some(o.response.body.data)
  {
    if Existing(w.db, f).Some? {
      UpdatedIsFound(w, f, now);
    } else {
      CreatedIsFound(w, f, now);
    }
  }

  lemma UpdatedIsFound(w: World, f: ConfigForm, now: Millis)
    requires Complete(f) && Existing(w.db, f).Some?
    ensures var o := Post(w, Ok(f), now);
            Existing(o.world.db, f) == Some(o.response.body.data)
  {
    var o := Post(w, Ok(f), now);
    var c1 := o.world.db.configs;
    var named := (k: RouterConfig) => k.name == f.name.value;
    PostUpdatesInPlace(w, f, now);
    FindFirstAgrees(c1, w.db.configs, named);
    var m := FindFirst(w.db.configs, named).value;
    assert Existing(w.db, f).value == w.db.configs[m];
    assert Existing(o.world.db, f).value == c1[m];
  }

  lemma CreatedIsFound(w: World, f: ConfigForm, now: Millis)
    requires Complete(f) && Existing(w.db, f).None?
    ensures var o := Post(w, Ok(f), now);
            Existing(o.world.db, f) == Some(o.response.body.data)
  {
    var o := Post(w, Ok(f), now);
    var c1 := o.world.db.configs;
    var named := (k: RouterConfig) => k.name == f.name.value;
    PostCreates(w, f, now);
    var n := |w.db.configs|;
    assert FindFirst(w.db.configs, named).None?;
    assert c1[..n] == Deactivate(w.db.configs, None);
    FindFirstAgrees(c1[..n], w.db.configs, named);
    FirstAfterMisses(c1, n, named);
  }

  /** Posting the same form twice leaves the same configurations as posting
      it once. */
  lemma PostIsIdempotent(w: World, f: ConfigForm, now: Millis, later: Millis)
    requires Complete(f) && WellFormed(w.db)
    ensures var o1 := Post(w, Ok(f), now);
            var o2 := Post(o1.world, Ok(f), later);
            o2.world == o1.world && o2.response.body.data == o1.response.body.data
  {
    var o1 := Post(w, Ok(f), now);
    var k := o1.response.body.data;
    PostWellFormed(w, Ok(f), now);
    PostActivates(w, f, now);
    PostedIsFound(w, f, now);
    assert UniqueIds(o1.world.db.configs);
    RepostChangesNothing(o1.world, f, later, k);
  }

  /** Re-posting the form that saved `k`, the only active configuration,
      changes nothing. */
  lemma RepostChangesNothing(w: World, f: ConfigForm, now: Millis, k: RouterConfig)
    requires Complete(f) && UniqueIds(w.db.configs)
    requires Existing(w.db, f) == Some(k) && k.isActive && OnlyActive(w.db.configs, k.id)
    requires k == Posted(f, k)
    ensures Post(w, Ok(f), now).world == w
    ensures Post(w, Ok(f), now).response.body.data == k
  {
    PostUpdatesInPlace(w, f, now);
    var o := Post(w, Ok(f), now);
    SameRows(w.db.configs, o.world.db.configs, f, k);
  }

  predicate UniqueIds(configs: seq<RouterConfig>) {
    forall i, j :: 0 <= i < j < |configs| ==> configs[i].id != configs[j].id
  }

  lemma SameRows(c: seq<RouterConfig>, c2: seq<RouterConfig>, f: ConfigForm, k: RouterConfig)
    requires Complete(f) && UniqueIds(c) && k in c && k.isActive && OnlyActive(c, k.id) && k == Posted(f, k)
    requires |c2| == |c| && forall i :: 0 <= i < |c| ==> c2[i].id == c[i].id
    requires forall i :: 0 <= i < |c| && c2[i].id != k.id ==> c2[i] == c[i].(isActive := false)
    requires forall i :: 0 <= i < |c| && c2[i].id == k.id ==> c2[i] == Posted(f, c[i])
    ensures c2 == c
  {
    var j :| 0 <= j < |c| && c[j] == k;
    forall i | 0 <= i < |c| ensures c2[i] == c[i] {
      if c[i].id == k.id {
        assert i == j;
      } else {
        assert c[i] in c;
      }
    }
  }

  // ---------------------------------------------------------------------
  // PUT: change the supplied fields of one configuration
  // ---------------------------------------------------------------------

  datatype ConfigPatch = ConfigPatch(
    id: Option<Id>,
    name: Option<string>,
    host: Option<string>,
    port: Numeric,
    username: Option<string>,
    password: Option<string>,
    useSSL: Option<bool>,
    isActive: Option<bool>)

  /** A supplied port is stored as parsed; one that does not parse is `NaN`,
      which the store refuses. */
  predicate PortRejected(p: ConfigPatch) {
    NumericTruthy(p.port) && ParseIntOf(p.port).None?
  }

  /** `after` is `before` with exactly the fields `p` supplies written over
      it: an absent or empty string, an absent or zero port and an absent
      flag leave the stored value. */
  predicate Overwrites(p: ConfigPatch, before: RouterConfig, after: RouterConfig) {
    && after.id == before.id && after.createdAt == before.createdAt
    && (Truthy(p.name) ==> after.name == p.name.value)
    && (!Truthy(p.name) ==> after.name == before.name)
    && (Truthy(p.host) ==> after.host == p.host.value)
    && (!Truthy(p.host) ==> after.host == before.host)
    && (NumericTruthy(p.port) ==> Some(after.port) == ParseIntOf(p.port))
    && (!NumericTruthy(p.port) ==> after.port == before.port)
    && (Truthy(p.username) ==> after.username == p.username.value)
    && (!Truthy(p.username) ==> after.username == before.username)
    && (Truthy(p.password) ==> after.password == p.password.value)
    && (!Truthy(p.password) ==> after.password == before.password)
    && (p.useSSL.Some? ==> after.useSSL == p.useSSL.value)
    && (p.useSSL.None? ==> after.useSSL == before.useSSL)
    && (p.isActive.Some? ==> after.isActive == p.isActive.value)
    && (p.isActive.None? ==> after.isActive == before.isActive)
  }

  /** `k` with the truthy strings, the parsed port and the defined flags of
      the patch written over it. */
  function Patched(p: ConfigPatch, k: RouterConfig): (r: RouterConfig)
    requires !PortRejected(p)
    ensures Overwrites(p, k, r)
  {
    k.(name := OrElse(p.name, k.name),
       host := OrElse(p.host, k.host),
       port := if NumericTruthy(p.port) then ParseIntOf(p.port).value else k.port,
       username := OrElse(p.username, k.username),
       password := OrElse(p.password, k.password),
       useSSL := p.useSSL.GetOr(k.useSSL),
       isActive := p.isActive.GetOr(k.isActive))
  }

  /** The configurations after the deactivation step, which runs before the
      update and stays even when the update fails. */
  function AfterDeactivation(configs: seq<RouterConfig>, p: ConfigPatch): seq<RouterConfig>
    requires p.id.Some?
  {
    if p.isActive == Some(true) then Deactivate(configs, p.id) else configs
  }

  /** The PUT handler. */
  function Put(w: World, body: Result<ConfigPatch, string>): (o: Outcome)
    ensures o.response.status in {200, 400, 500}
    ensures o.response.status == 400 <==> body.Ok? && body.value.id.None?
    ensures body.Err? || o.response.status == 400 ==> o.world == w
    ensures o.world.router == w.router && o.world.gateway == w.gateway
    ensures o.world.db.(configs := w.db.configs) == w.db
    ensures |o.world.db.configs| == |w.db.configs|
    ensures o.response.status == 200 <==>
              body.Ok? && body.value.id.Some? && !PortRejected(body.value)
              && FindConfig(w.db.configs, body.value.id.value).Some?
  {
    match body
    case Err(m) => Outcome(Fail(500, m), w)
    case Ok(p) =>
      if p.id.None? then Outcome(Fail(400, MissingIdMessage), w)
      else
        var id := p.id.value;
        var configs := AfterDeactivation(w.db.configs, p);
        var w1 := w.(db := w.db.(configs := configs));
        assert forall i :: 0 <= i < |configs| ==> configs[i].id == w.db.configs[i].id;
        if PortRejected(p) then Outcome(Fail(500, RejectedValueMessage), w1)
        else
          match FindConfig(configs, id)
          case None =>
            assert FindConfig(w.db.configs, id).None? by {
              forall k | k in w.db.configs ensures k.id != id {
                var i :| 0 <= i < |w.db.configs| && w.db.configs[i] == k;
                assert configs[i] in configs;
              }
            }
            Outcome(Fail(500, MissingRecordMessage), w1)
          case Some(k) =>
            assert FindConfig(w.db.configs, id).Some? by {
              var i :| 0 <= i < |configs| && configs[i] == k;
              assert w.db.configs[i] in w.db.configs;
            }
            Outcome(Response(200, Done(UpdatedMessage, Patched(p, k))),
                    w.(db := w.db.(configs := UpdateConfig(configs, id, (x: RouterConfig) => Patched(p, x)))))
  }

  /** A successful PUT changes only the configuration it names, and there
      only the fields it supplies: an absent or empty string, an absent or
      zero port and an absent flag leave the stored value. With `isActive`
      true, every other configuration is switched off. */
  lemma PutChangesOnlySupplied(w: World, p: ConfigPatch)
    requires Put(w, Ok(p)).response.status == 200
    ensures p.id.Some?
    ensures var configs := Put(w, Ok(p)).world.db.configs;
            forall i :: 0 <= i < |configs| ==>
              && configs[i].id == w.db.configs[i].id
              && (w.db.configs[i].id != p.id.value ==>
                    configs[i] == w.db.configs[i].(isActive := w.db.configs[i].isActive && p.isActive != Some(true)))
              && (w.db.configs[i].id == p.id.value ==> Overwrites(p, w.db.configs[i], configs[i]))
  {
    var id := p.id.value;
    var off := AfterDeactivation(w.db.configs, p);
    var configs := Put(w, Ok(p)).world.db.configs;
    assert configs == UpdateConfig(off, id, (x: RouterConfig) => Patched(p, x));
    forall i | 0 <= i < |configs| && w.db.configs[i].id == id ensures Overwrites(p, w.db.configs[i], configs[i]) {
      assert configs[i] == Patched(p, off[i]);
    }
  }

  /** A PUT that activates a configuration leaves it the only active one,
      whether or not the configuration exists. */
  lemma PutActivation(w: World, p: ConfigPatch)
    requires p.id.Some? && p.isActive == Some(true)
    ensures OnlyActive(Put(w, Ok(p)).world.db.configs, p.id.value)
  {
    var o := Put(w, Ok(p));
    var configs := o.world.db.configs;
    if o.response.status == 200 {
      PutChangesOnlySupplied(w, p);
      forall x | x in configs && x.isActive ensures x.id == p.id.value {
        var j :| 0 <= j < |configs| && configs[j] == x;
      }
    } else {
      assert configs == Deactivate(w.db.configs, p.id);
    }
  }

  /** A successful PUT answers with the configuration as stored, with the
      flag it was given. */
  lemma PutAnswersStored(w: World, p: ConfigPatch)
    requires Put(w, Ok(p)).response.status == 200
    ensures var o := Put(w, Ok(p));
            && o.response.body.Done?
            && o.response.body.data in o.world.db.configs
            && (p.isActive.Some? ==> o.response.body.data.isActive == p.isActive.value)
  {
    var o := Put(w, Ok(p));
    var id := p.id.value;
    var off := AfterDeactivation(w.db.configs, p);
    var configs := o.world.db.configs;
    assert configs == UpdateConfig(off, id, (x: RouterConfig) => Patched(p, x));
    var k := FindConfig(off, id).value;
    var i :| 0 <= i < |off| && off[i] == k;
    assert configs[i] == o.response.body.data;
  }

  /** A PUT naming no stored configuration answers 500, yet the deactivation
      that ran first stays: with `isActive` true, no configuration is left
      active. */
  lemma PutUnknownId(w: World, p: ConfigPatch)
    requires p.id.Some? && FindConfig(w.db.configs, p.id.value).None?
    ensures var o := Put(w, Ok(p));
            && o.response.status == 500
            && o.world.db.configs == AfterDeactivation(w.db.configs, p)
            && (p.isActive == Some(true) ==> forall k :: k in o.world.db.configs ==> !k.isActive)
  {
  }

  /** PUT changes no id and leaves every active configuration either one
      that was active before or the one it names. */
  lemma PutKeepsIds(w: World, p: ConfigPatch)
    requires p.id.Some?
    ensures var configs := Put(w, Ok(p)).world.db.configs;
            && |configs| == |w.db.configs|
            && (forall i :: 0 <= i < |configs| ==> configs[i].id == w.db.configs[i].id)
            && (p.isActive == Some(true) ==> OnlyActive(configs, p.id.value))
            && (p.isActive != Some(true) ==> forall i :: 0 <= i < |configs| && configs[i].isActive ==> w.db.configs[i].isActive)
  {
    var o := Put(w, Ok(p));
    if o.response.status == 200 {
      PutChangesOnlySupplied(w, p);
    } else {
      assert o.world.db.configs == AfterDeactivation(w.db.configs, p);
    }
    if p.isActive == Some(true) {
      PutActivation(w, p);
    }
  }

  /** PUT keeps the store well formed and never breaks the single-active
      invariant. */
  lemma PutKeepsAtMostOneActive(w: World, body: Result<ConfigPatch, string>)
    requires WellFormed(w.db) && AtMostOneActive(w.db.configs)
    ensures WellFormed(Put(w, body).world.db)
    ensures AtMostOneActive(Put(w, body).world.db.configs)
  {
    if body.Ok? && body.value.id.Some? {
      var p := body.value;
      var o := Put(w, body);
      PutKeepsIds(w, p);
      SameIdsWellFormed(w.db, o.world.db);
      if p.isActive == Some(true) {
        OnlyActiveUnique(o.world.db.configs, p.id.value);
      } else {
        FewerActive(w.db.configs, o.world.db.configs);
      }
    }
  }

  /** With unique ids, rows that all carry one id are at most one row. */
  lemma OnlyActiveUnique(configs: seq<RouterConfig>, id: Id)
    requires forall i, j :: 0 <= i < j < |configs| ==> configs[i].id != configs[j].id
    requires OnlyActive(configs, id)
    ensures AtMostOneActive(configs)
  {
    forall i, j | 0 <= i < |configs| && 0 <= j < |configs| && configs[i].isActive && configs[j].isActive
      ensures i == j
    {
      assert configs[i] in configs && configs[j] in configs;
    }
  }

  /** Switching rows off, position by position, keeps at most one active. */
  lemma FewerActive(before: seq<RouterConfig>, after: seq<RouterConfig>)
    requires AtMostOneActive(before) && |after| == |before|
    requires forall i :: 0 <= i < |after| && after[i].isActive ==> before[i].isActive
    ensures AtMostOneActive(after)
  {
  }

  // ---------------------------------------------------------------------
  // DELETE and GET
  // ---------------------------------------------------------------------

  datatype Removal = Removal(response: Response<()>, world: World)

  /** The DELETE handler; `id` is the `id` query parameter (absent or empty
      is `None`). */
  function Delete(w: World, id: Option<Id>): (o: Removal)
    ensures o.response.status in {200, 400, 500}
    ensures o.response.status == 400 <==> id.None?
    ensures o.response.status == 500 <==> id.Some? && FindConfig(w.db.configs, id.value).None?
    ensures o.response.status == 500 ==> o.response == Fail(500, MissingDeleteMessage)
    ensures o.response.status != 200 ==> o.world == w
    ensures o.world.router == w.router && o.world.gateway == w.gateway
    ensures o.world.db.(configs := w.db.configs) == w.db
    ensures o.response.status == 200 ==>
              forall k :: k in o.world.db.configs <==> k in w.db.configs && k.id != id.value
  {
    if id.None? then Removal(Fail(400, MissingIdMessage), w)
    else if FindConfig(w.db.configs, id.value).None? then Removal(Fail(500, MissingDeleteMessage), w)
    else Removal(Response(200, Done(DeletedMessage, ())), w.(db := w.db.(configs := DeleteConfig(w.db.configs, id.value))))
  }

  /** Deleting keeps at most one configuration active; deleting the active
      one leaves none, while the cached router client, built from the
      deleted configuration, stays in use. */
  lemma DeleteKeepsCachedClient(w: World, id: Id)
    requires AtMostOneActive(w.db.configs) && w.router.Some?
    ensures var o := Delete(w, Some(id));
            && AtMostOneActive(o.world.db.configs)
            && Mikrotik.GetConnection(o.world.router, o.world.db.configs).0 == Ok(w.router.value)
  {
  }

  /** The GET handler: every configuration, newest first. */
  function List(db: Db): (r: seq<RouterConfig>)
    ensures multiset(r) == multiset(db.configs)
    ensures forall i :: 0 < i < |r| ==> r[i - 1].createdAt >= r[i].createdAt
  {
    var newestFirst := (a: RouterConfig, b: RouterConfig) => a.createdAt >= b.createdAt;
    assert Total(newestFirst);
    SortBy(db.configs, newestFirst)
  }
}

=== FILE: admin_users.dfy ===
/** The admin user directory (`/api/admin/users`): every user, newest
    first, each shown with the package of their most recent active
    subscription, or placeholders when they have none. */
module UserDirectory {
  import opened Base
  import opened Store
  import opened Http

  const NoPackage: string := "No Package"
  const NoSpeed: string := "N/A"

  /** One line of the directory. */
  datatype Row = Row(
    id: Id,
    username: string,
    name: string,
    email: Option<string>,
    phone: Option<string>,
    status: UserStatus,
    role: Role,
    balance: real,
    packageName: string,
    speed: string,
    createdAt: Millis,
    subscriptionEndDate: Option<Millis>,
    mikrotikId: Option<string>)

  /** The subscription the nested `where: ACTIVE, orderBy: createdAt desc,
      take: 1` returns: the user's newest active subscription. */
  function LatestActive(db: Db, userId: Id): (r: Option<Subscription>)
    ensures r.Some? ==> r.value in db.subscriptions && r.value.userId == userId && r.value.status == SubscriptionStatus.Active
    ensures r.None? <==> forall s :: s in db.subscriptions ==> !(s.userId == userId && s.status == SubscriptionStatus.Active)
    ensures r.Some? ==> forall s :: s in db.subscriptions && s.userId == userId && s.status == SubscriptionStatus.Active ==>
                          s.createdAt <= r.value.createdAt
  {
    var active := Filter(db.subscriptions, (s: Subscription) => s.userId == userId && s.status == SubscriptionStatus.Active);
    MaxBy(active, (s: Subscription) => s.createdAt)
  }

  /** A user's line: the user's own columns unchanged, and the package name,
      speed and end date of their newest active subscription (see
      `LineShowsLatestActive`). */
  function RowOf(db: Db, u: User): (r: Row)
    ensures r.id == u.id && r.username == u.username && r.name == u.name && r.email == u.email
    ensures r.phone == u.phone && r.status == u.status && r.role == u.role && r.balance == u.balance
    ensures r.createdAt == u.createdAt && r.mikrotikId == u.mikrotikId
  {
    var s := LatestActive(db, u.id);
    var p := if s.Some? then FindPackage(db, s.value.packageId) else None;
    Row(u.id, u.username, u.name, u.email, u.phone, u.status, u.role, u.balance,
        if p.Some? && p.value.name != "" then p.value.name else NoPackage,
        if p.Some? then OrElse(p.value.speedLimit, NoSpeed) else NoSpeed,
        u.createdAt,
        if s.Some? then Some(s.value.endDate) else None,
        u.mikrotikId)
  }

  /** The package columns come from the newest active subscription and its
      package only, with `No Package`, `N/A` and no date standing in for
      what is missing or empty. */
  lemma LineShowsLatestActive(db: Db, u: User)
    ensures var r := RowOf(db, u);
            LatestActive(db, u.id).None? ==>
              r.packageName == NoPackage && r.speed == NoSpeed && r.subscriptionEndDate.None?
    ensures var r := RowOf(db, u);
            LatestActive(db, u.id).Some? ==>
              var s := LatestActive(db, u.id).value;
              var p := FindPackage(db, s.packageId);
              && r.subscriptionEndDate == Some(s.endDate)
              && (r.packageName != NoPackage ==> p.Some? && p.value.name == r.packageName)
              && (p.Some? && p.value.name != "" ==> r.packageName == p.value.name)
              && (r.speed != NoSpeed ==> p.Some? && p.value.speedLimit == Some(r.speed))
              && (p.Some? && Truthy(p.value.speedLimit) ==> r.speed == p.value.speedLimit.value)
  {
  }

  /** A user without an active subscription shows the placeholders, however
      many pending or expired subscriptions they have. */
  lemma NoActiveShowsPlaceholders(db: Db, u: User)
    requires forall s :: s in db.subscriptions && s.userId == u.id ==> s.status != SubscriptionStatus.Active
    ensures RowOf(db, u).packageName == NoPackage && RowOf(db, u).speed == NoSpeed
    ensures RowOf(db, u).subscriptionEndDate.None?
  {
    assert LatestActive(db, u.id).None?;
  }

  /** `orderBy: { createdAt: 'desc' }` on users. */
  function NewestUsersFirst(users: seq<User>): (r: seq<User>)
    ensures multiset(r) == multiset(users)
    ensures forall i :: 0 < i < |r| ==> r[i - 1].createdAt >= r[i].createdAt
  {
    var newestFirst := (a: User, b: User) => a.createdAt >= b.createdAt;
    assert Total(newestFirst);
    SortBy(users, newestFirst)
  }

  /** The directory: one line per user, newest account first. */
  function Directory(db: Db): (r: seq<Row>)
    ensures |r| == |db.users|
    ensures forall i :: 0 < i < |r| ==> r[i - 1].createdAt >= r[i].createdAt
  {
    var sorted := NewestUsersFirst(db.users);
    assert |sorted| == |multiset(sorted)| == |db.users|;
    RowsOf(db, sorted)
  }

  /** The lines for `users`, in the same order. */
  function RowsOf(db: Db, users: seq<User>): (r: seq<Row>)
    ensures |r| == |users|
    ensures forall i :: 0 <= i < |r| ==> r[i] == RowOf(db, users[i])
  {
    MapSeq(users, (u: User) => RowOf(db, u))
  }

  /** The directory holds each user's line exactly as often as the user
      occurs: a reordering of the users' lines, nothing added, nothing
      lost. */
  lemma DirectoryIsEveryUserOnce(db: Db)
    ensures multiset(Directory(db)) == multiset(RowsOf(db, db.users))
  {
    var sorted := NewestUsersFirst(db.users);
    MapPermutation(db.users, sorted, (u: User) => RowOf(db, u));
  }

  function ListHandler(db: Db): (resp: Response<Row>)
    ensures resp.status == 200 && resp.body.Listing?
    ensures resp.body.items == Directory(db)
  {
    Response(200, Listing(Directory(db)))
  }

  /** No two users share an id. */
  predicate UniqueUserIds(users: seq<User>) {
    forall i, j :: 0 <= i < j < |users| ==> users[i].id != users[j].id
  }

  /** With distinct user ids, no user appears on two lines: each user has
      exactly one line. */
  lemma OneRowPerUser(db: Db)
    requires UniqueUserIds(db.users)
    ensures var r := Directory(db);
            forall i, j :: 0 <= i < |r| && 0 <= j < |r| && r[i].id == r[j].id ==> i == j
  {
    var sorted := NewestUsersFirst(db.users);
    PermutationKeepsIdsUnique(db.users, sorted);
    var r := Directory(db);
    forall i, j | 0 <= i < |r| && 0 <= j < |r| && r[i].id == r[j].id ensures i == j {
      assert r[i] == RowOf(db, sorted[i]) && r[j] == RowOf(db, sorted[j]);
    }
  }

  /** Reordering users keeps their ids distinct. */
  lemma PermutationKeepsIdsUnique(users: seq<User>, sorted: seq<User>)
    requires UniqueUserIds(users)
    requires multiset(sorted) == multiset(users)
    ensures UniqueUserIds(sorted)
  {
    DistinctCountsOne(users);
    forall i, j | 0 <= i < j < |sorted| ensures sorted[i].id != sorted[j].id {
      if sorted[i].id == sorted[j].id {
        assert sorted[i] in multiset(users) && sorted[j] in multiset(users);
        SameIdSameUser(users, sorted[i], sorted[j]);
        TwiceCountsTwo(sorted, i, j);
        assert false;
      }
    }
  }

  lemma SameIdSameUser(users: seq<User>, a: User, b: User)
    requires UniqueUserIds(users)
    requires a in users && b in users && a.id == b.id
    ensures a == b
  {
    var i :| 0 <= i < |users| && users[i] == a;
    var j :| 0 <= j < |users| && users[j] == b;
  }

  /** With distinct ids, every user occurs at most once. */
  lemma {:induction false} DistinctCountsOne(users: seq<User>)
    requires UniqueUserIds(users)
    ensures forall u :: multiset(users)[u] <= 1
  {
    if |users| > 0 {
      var rest := users[1..];
      assert UniqueUserIds(rest) by {
        forall i, j | 0 <= i < j < |rest| ensures rest[i].id != rest[j].id {
          assert rest[i] == users[i + 1] && rest[j] == users[j + 1];
        }
      }
      DistinctCountsOne(rest);
      assert users == [users[0]] + rest;
      assert multiset(users) == multiset{users[0]} + multiset(rest);
      forall k | 0 <= k < |rest| ensures rest[k] != users[0] {
        assert rest[k] == users[k + 1];
      }
      assert multiset(rest)[users[0]] == 0;
    }
  }

  /** An element at two positions occurs at least twice. */
  lemma TwiceCountsTwo<T>(s: seq<T>, i: nat, j: nat)
    requires i < |s| && j < |s| && i != j && s[i] == s[j]
    ensures multiset(s)[s[i]] >= 2
  {
    var lo := if i < j then i else j;
    var hi := if i < j then j else i;
    assert s == s[..hi] + [s[hi]] + s[hi + 1..];
    assert s[lo] in s[..hi];
    assert multiset(s) == multiset(s[..hi]) + multiset{s[hi]} + multiset(s[hi + 1..]);
  }
}

=== FILE: auth.dfy ===
/** The credentials login (`src/lib/auth.ts`): the `authorize` decision that
    turns a username and password into a signed-in identity, and the `jwt`
    and `session` callbacks that carry that identity into the token and the
    client session. Password hashing is an oracle: `verify(plain, hash)`
    answers whether the plaintext matches the stored hash. */
module Auth {
  import opened Base
  import opened Store

  /** `bcrypt.compare(plain, hash)`. */
  type Verifier = (string, string) -> bool

  /** The submitted form; `None` when no credentials were sent at all. */
  datatype Credentials = Credentials(username: Option<string>, password: Option<string>)

  /** What a successful login returns: the user's identity and contact
      fields. It has no password field. */
  datatype Identity = Identity(
    id: Id,
    username: string,
    email: Option<string>,
    name: string,
    role: Role,
    phone: Option<string>)

  function IdentityOf(u: User): (i: Identity)
    ensures i.id == u.id && i.username == u.username && i.name == u.name
    ensures i.email == u.email && i.role == u.role && i.phone == u.phone
  {
    Identity(u.id, u.username, u.email, u.name, u.role, u.phone)
  }

  /** The account with this username, if there is one; usernames are
      unique in the store. */
  function FindUsername(users: seq<User>, username: string): (r: Option<User>)
    ensures r.Some? ==> r.value in users && r.value.username == username
    ensures r.None? <==> forall u :: u in users ==> u.username != username
  {
    First(users, (u: User) => u.username == username)
  }

  /** The `authorize` callback: `None` is the `null` that refuses the
      login. */
  function Authorize(db: Db, creds: Option<Credentials>, verify: Verifier): (r: Option<Identity>)
    ensures creds.None? || !Truthy(creds.value.username) || !Truthy(creds.value.password) ==> r.None?
    ensures creds.Some? && Truthy(creds.value.username) && FindUsername(db.users, creds.value.username.value).None? ==> r.None?
    ensures r.Some? ==>
              && creds.Some? && Truthy(creds.value.username) && Truthy(creds.value.password)
              && var u := FindUsername(db.users, creds.value.username.value);
              && u.Some? && u.value.status == UserStatus.Active && verify(creds.value.password.value, u.value.passwordHash)
              && r.value == IdentityOf(u.value)
    ensures creds.Some? && Truthy(creds.value.username) && Truthy(creds.value.password) ==>
              var u := FindUsername(db.users, creds.value.username.value);
              (r.Some? <==> u.Some? && u.value.status == UserStatus.Active && verify(creds.value.password.value, u.value.passwordHash))
  {
    if creds.None? || !Truthy(creds.value.username) || !Truthy(creds.value.password) then None
    else
      match FindUsername(db.users, creds.value.username.value)
      case None => None
      case Some(u) =>
        if u.status != UserStatus.Active then None
        else if !verify(creds.value.password.value, u.passwordHash) then None
        else Some(IdentityOf(u))
  }

  /** An account that is not `ACTIVE` cannot sign in, whatever password is
      given and however the hash check answers. */
  lemma InactiveCannotSignIn(db: Db, username: string, password: string, verify: Verifier)
    requires FindUsername(db.users, username).Some?
    requires FindUsername(db.users, username).value.status != UserStatus.Active
    ensures Authorize(db, Some(Credentials(Some(username), Some(password))), verify).None?
  {
  }

  // ---------------------------------------------------------------------
  // Token and session
  // ---------------------------------------------------------------------

  /** The JWT claims the callbacks read and write; `name` and `email` are
      filled in by the library and left alone here. */
  datatype Token = Token(
    sub: Option<Id>,
    role: Option<Role>,
    phone: Option<string>,
    username: Option<string>,
    name: Option<string>,
    email: Option<string>)

  /** The `jwt` callback: on sign-in (`user` present) the identity's id,
      role, phone and username are copied into the token; on every later
      request the token passes through unchanged. */
  function Jwt(token: Token, user: Option<Identity>): (t: Token)
    ensures user.None? ==> t == token
    ensures user.Some? ==>
              && t.sub == Some(user.value.id) && t.role == Some(user.value.role)
              && t.phone == user.value.phone && t.username == Some(user.value.username)
    ensures t.name == token.name && t.email == token.email
  {
    match user
    case None => token
    case Some(u) => token.(sub := Some(u.id), role := Some(u.role), phone := u.phone, username := Some(u.username))
  }

  datatype SessionUser = SessionUser(
    name: Option<string>,
    email: Option<string>,
    id: Option<Id>,
    role: Option<Role>,
    phone: Option<string>,
    username: Option<string>)

  datatype Session = Session(user: Option<SessionUser>, expires: string)

  /** The `session` callback: when there is a token and a session user,
      the token's id, role, phone and username are copied onto the user. */
  function SessionOf(session: Session, token: Option<Token>): (r: Session)
    ensures token.None? || session.user.None? ==> r == session
    ensures r.expires == session.expires && r.user.Some? == session.user.Some?
    ensures token.Some? && session.user.Some? ==>
              && r.user.value.id == token.value.sub && r.user.value.role == token.value.role
              && r.user.value.phone == token.value.phone && r.user.value.username == token.value.username
              && r.user.value.name == session.user.value.name && r.user.value.email == session.user.value.email
  {
    if token.Some? && session.user.Some? then
      session.(user := Some(session.user.value.(id := token.value.sub, role := token.value.role,
                                                phone := token.value.phone, username := token.value.username)))
    else session
  }

  /** The identity a login produced reaches the client session intact,
      through the token, on the sign-in request and on every later one. */
  lemma SignInReachesSession(db: Db, creds: Option<Credentials>, verify: Verifier, token: Token, session: Session)
    requires Authorize(db, creds, verify).Some?
    requires session.user.Some?
    ensures var i := Authorize(db, creds, verify).value;
            var t := Jwt(Jwt(token, Some(i)), None);
            var s := SessionOf(session, Some(t)).user.value;
            && s.id == Some(i.id) && s.role == Some(i.role) && s.phone == i.phone && s.username == Some(i.username)
            && exists u :: u in db.users && u.id == i.id && u.role == i.role && u.status == UserStatus.Active
  {
    var u := FindUsername(db.users, creds.value.username.value).value;
    assert u in db.users && u.id == Authorize(db, creds, verify).value.id;
  }
}

=== FILE: base.dfy ===
/** Shared vocabulary of the model: optional and fallible values, the thrown
    JavaScript error, the JavaScript string and number conversions the
    handlers rely on, and small generic sequence utilities (first match,
    filter, in-place update, insertion sort). */
module Base {

  datatype Option<+T> = None | Some(value: T) {
    /** The value, or `default` when absent. */
    function GetOr(default: T): T {
      match this
      case Some(v) => v
      case None => default
    }
  }

  datatype Result<+T, +E> = Ok(value: T) | Err(error: E)

  /** A thrown JavaScript `Error`: its `name` and its `message`. */
  datatype Error = Error(name: string, message: string)

  function Min(a: int, b: int): int { if a <= b then a else b }
  function Max(a: int, b: int): int { if a <= b then b else a }

  // ---------------------------------------------------------------------
  // JavaScript truthiness of optional strings
  // ---------------------------------------------------------------------

  /** `!!x` for a string field that may be absent: absent and "" are falsy. */
  predicate Truthy(o: Option<string>) {
    o.Some? && o.value != ""
  }

  /** `x || fallback` for an optional string field. */
  function OrElse(o: Option<string>, fallback: string): (r: string)
    ensures Truthy(o) ==> r == o.value
    ensures !Truthy(o) ==> r == fallback
  {
    if Truthy(o) then o.value else fallback
  }

  /** `String.prototype.length`: the number of UTF-16 code units, so a
      character outside the Basic Multilingual Plane counts twice. */
  function Utf16Length(s: string): (n: nat)
    ensures |s| <= n <= 2 * |s|
    ensures (forall i :: 0 <= i < |s| ==> s[i] as int <= 0xFFFF) ==> n == |s|
    ensures (forall i :: 0 <= i < |s| ==> s[i] as int > 0xFFFF) ==> n == 2 * |s|
  {
    if |s| == 0 then 0 else (if s[0] as int > 0xFFFF then 2 else 1) + Utf16Length(s[1..])
  }

  // ---------------------------------------------------------------------
  // Characters and case mapping (ASCII letters only)
  // ---------------------------------------------------------------------

  predicate IsLowerLetter(c: char) { 'a' <= c <= 'z' }
  predicate IsUpperLetter(c: char) { 'A' <= c <= 'Z' }
  predicate IsDigit(c: char) { '0' <= c <= '9' }

  function UpperChar(c: char): char {
    if IsLowerLetter(c) then (c as int - 32) as char else c
  }

  function LowerChar(c: char): char {
    if IsUpperLetter(c) then (c as int + 32) as char else c
  }

  /** `String.prototype.toUpperCase` restricted to ASCII letters: same
      length, no lower-case letter survives, and every other character is
      kept. */
  function ToUpper(s: string): (r: string)
    ensures |r| == |s|
    ensures forall i :: 0 <= i < |r| ==> !IsLowerLetter(r[i])
    ensures forall i :: 0 <= i < |s| && !IsLowerLetter(s[i]) ==> r[i] == s[i]
    ensures forall i :: 0 <= i < |s| ==> LowerChar(r[i]) == LowerChar(s[i])
  {
    if |s| == 0 then "" else [UpperChar(s[0])] + ToUpper(s[1..])
  }

  /** `String.prototype.toLowerCase` restricted to ASCII letters. */
  function ToLower(s: string): (r: string)
    ensures |r| == |s|
    ensures forall i :: 0 <= i < |r| ==> !IsUpperLetter(r[i])
    ensures forall i :: 0 <= i < |s| && !IsUpperLetter(s[i]) ==> r[i] == s[i]
    ensures forall i :: 0 <= i < |s| ==> UpperChar(r[i]) == UpperChar(s[i])
  {
    if |s| == 0 then "" else [LowerChar(s[0])] + ToLower(s[1..])
  }

  /** Upper-casing twice is upper-casing once. */
  lemma {:induction false} ToUpperIdempotent(s: string)
    ensures ToUpper(ToUpper(s)) == ToUpper(s)
  {
    if |s| > 0 {
      ToUpperIdempotent(s[1..]);
      assert ToUpper(s)[1..] == ToUpper(s[1..]);
    }
  }

  /** Two strings that differ only in the case of ASCII letters have the
      same upper-case form. */
  lemma {:induction false} ToUpperIgnoresCase(a: string, b: string)
    requires |a| == |b|
    requires forall i :: 0 <= i < |a| ==> LowerChar(a[i]) == LowerChar(b[i])
    ensures ToUpper(a) == ToUpper(b)
  {
    if |a| > 0 {
      ToUpperIgnoresCase(a[1..], b[1..]);
    }
  }

  // ---------------------------------------------------------------------
  // Whitespace (the JavaScript regular-expression class \s)
  // ---------------------------------------------------------------------

  /** The characters matched by `\s` in a JavaScript regular expression:
      the white-space and line-terminator characters of ECMAScript. */
  predicate IsJsWhitespace(c: char) {
    || c == ' ' || c == '\t' || c == '\n' || c == '\r'
    || c == '\U{000B}' || c == '\U{000C}' || c == '\U{00A0}' || c == '\U{1680}'
    || ('\U{2000}' <= c <= '\U{200A}')
    || c == '\U{2028}' || c == '\U{2029}' || c == '\U{202F}' || c == '\U{205F}'
    || c == '\U{3000}' || c == '\U{FEFF}'
  }

  /** `s.replace(/\s+/g, '')`: every white-space character is removed and
      every other character is kept, in order. */
  function StripWhitespace(s: string): (r: string)
    ensures |r| <= |s|
    ensures forall i :: 0 <= i < |r| ==> !IsJsWhitespace(r[i])
    ensures forall c :: c in r <==> c in s && !IsJsWhitespace(c)
    ensures (forall i :: 0 <= i < |s| ==> !IsJsWhitespace(s[i])) ==> r == s
  {
    if |s| == 0 then ""
    else if IsJsWhitespace(s[0]) then StripWhitespace(s[1..])
    else [s[0]] + StripWhitespace(s[1..])
  }

  /** Stripping distributes over concatenation. */
  lemma {:induction false} StripWhitespaceConcat(a: string, b: string)
    ensures StripWhitespace(a + b) == StripWhitespace(a) + StripWhitespace(b)
  {
    if |a| > 0 {
      assert (a + b)[1..] == a[1..] + b;
      StripWhitespaceConcat(a[1..], b);
    } else {
      assert a + b == b;
    }
  }

  // ---------------------------------------------------------------------
  // Substrings
  // ---------------------------------------------------------------------

  predicate StartsWith(s: string, prefix: string) {
    |prefix| <= |s| && s[..|prefix|] == prefix
  }

  lemma PrefixStarts(prefix: string, rest: string)
    ensures StartsWith(prefix + rest, prefix)
  {
    assert (prefix + rest)[..|prefix|] == prefix;
  }

  predicate OccursAt(s: string, sub: string, i: int) {
    0 <= i && i + |sub| <= |s| && s[i..i + |sub|] == sub
  }

  /** `s.includes(sub)`. */
  predicate Contains(s: string, sub: string) {
    exists i :: 0 <= i <= |s| && OccursAt(s, sub, i)
  }

  /** `String.prototype.substring(start, end)`: both bounds are clamped to
      `[0, |s|]` and swapped when out of order. */
  function Substring(s: string, start: int, end: int): (r: string)
    ensures |r| <= |s|
    ensures 0 <= start <= end ==> |r| <= end - start
    ensures 0 <= start <= end <= |s| ==> r == s[start..end]
    ensures forall c :: c in r ==> c in s
  {
    var a := Min(Max(start, 0), |s|);
    var b := Min(Max(end, 0), |s|);
    s[Min(a, b)..Max(a, b)]
  }

  /** `parts.join(sep)`. */
  function Join(parts: seq<string>, sep: string): (r: string)
    ensures |parts| == 0 ==> r == ""
    ensures |parts| == 1 ==> r == parts[0]
  {
    if |parts| == 0 then ""
    else if |parts| == 1 then parts[0]
    else parts[0] + sep + Join(parts[1..], sep)
  }

  // ---------------------------------------------------------------------
  // Decimal and radix-36 numerals
  // ---------------------------------------------------------------------

  function DigitChar(d: nat): (c: char)
    requires d < 10
    ensures IsDigit(c)
  {
    ('0' as int + d) as char
  }

  function DigitValue(c: char): (d: nat)
    requires IsDigit(c)
    ensures d < 10
  {
    c as int - '0' as int
  }

  predicate AllDigits(s: string) {
    forall i :: 0 <= i < |s| ==> IsDigit(s[i])
  }

  /** The value of a string of decimal digits, most significant first. */
  function DecimalValue(s: string): nat
    requires AllDigits(s)
  {
    if |s| == 0 then 0
    else DecimalValue(s[..|s| - 1]) * 10 + DigitValue(s[|s| - 1])
  }

  /** `String(n)` for a non-negative integer: a non-empty digit string
      without leading zeros whose value is `n`. */
  function NatToDecimal(n: nat): (r: string)
    ensures |r| >= 1
    ensures AllDigits(r)
    ensures DecimalValue(r) == n
    ensures r[0] == '0' ==> n == 0
  {
    if n < 10 then [DigitChar(n)]
    else
      var prefix := NatToDecimal(n / 10);
      var r := prefix + [DigitChar(n % 10)];
      assert r[..|r| - 1] == prefix;
      r
  }

  /** `String(i)` for any integer. */
  function IntToDecimal(i: int): (r: string)
    ensures |r| >= 1
    ensures i >= 0 ==> r == NatToDecimal(i)
    ensures i < 0 ==> r == "-" + NatToDecimal(-i)
  {
    if i < 0 then "-" + NatToDecimal(-i) else NatToDecimal(i)
  }

  /** A digit of radix 36, as `Number.prototype.toString(36)` prints it. */
  type Digit36 = d: nat | d < 36

  function Digit36Char(d: Digit36): (c: char)
    ensures IsDigit(c) || IsLowerLetter(c)
  {
    if d < 10 then DigitChar(d) else ('a' as int + (d - 10)) as char
  }

  predicate IsBase36Char(c: char) { IsDigit(c) || IsLowerLetter(c) }

  /** `Math.random().toString(36)`: the draw is given as the radix-36 digits
      printed after the point; a draw of zero prints as `"0"`. */
  function RandomToBase36(fraction: seq<Digit36>): (r: string)
    ensures |fraction| == 0 ==> r == "0"
    ensures |fraction| > 0 ==> |r| == |fraction| + 2 && r[..2] == "0."
    ensures forall i :: 2 <= i < |r| ==> IsBase36Char(r[i])
  {
    if |fraction| == 0 then "0"
    else "0." + seq(|fraction|, i requires 0 <= i < |fraction| => Digit36Char(fraction[i]))
  }

  /** `Math.random().toString(36).substring(2, 2 + n)`: at most `n`
      radix-36 characters, all taken from after the point. */
  function RandomToken(fraction: seq<Digit36>, n: nat): (r: string)
    ensures |r| <= n
    ensures forall i :: 0 <= i < |r| ==> IsBase36Char(r[i])
    ensures |fraction| >= n ==> |r| == n
  {
    var s := RandomToBase36(fraction);
    var r := Substring(s, 2, 2 + n);
    assert |s| >= 2 ==> r == s[2..Min(2 + n, |s|)];
    r
  }

  // ---------------------------------------------------------------------
  // parseInt with no radix argument
  // ---------------------------------------------------------------------

  predicate IsHexDigit(c: char) { IsDigit(c) || 'a' <= c <= 'f' || 'A' <= c <= 'F' }

  function HexValue(c: char): (d: nat)
    requires IsHexDigit(c)
    ensures d < 16
  {
    if IsDigit(c) then DigitValue(c)
    else if 'a' <= c <= 'f' then c as int - 'a' as int + 10
    else c as int - 'A' as int + 10
  }

  /** The longest prefix of `s` whose characters all satisfy `ok`. */
  function TakeWhile(s: string, ok: char -> bool): (r: string)
    ensures |r| <= |s| && r == s[..|r|]
    ensures forall i :: 0 <= i < |r| ==> ok(r[i])
    ensures |r| < |s| ==> !ok(s[|r|])
  {
    if |s| == 0 || !ok(s[0]) then ""
    else
      var rest := TakeWhile(s[1..], ok);
      assert [s[0]] + rest == s[..|rest| + 1];
      [s[0]] + rest
  }

  function DropWhitespace(s: string): (r: string)
    ensures |r| <= |s| && r == s[|s| - |r|..]
    ensures |r| > 0 ==> !IsJsWhitespace(r[0])
    ensures (|s| == 0 || !IsJsWhitespace(s[0])) ==> r == s
  {
    if |s| == 0 || !IsJsWhitespace(s[0]) then s else DropWhitespace(s[1..])
  }

  function HexNumeralValue(s: string): nat
    requires forall i :: 0 <= i < |s| ==> IsHexDigit(s[i])
  {
    if |s| == 0 then 0
    else HexNumeralValue(s[..|s| - 1]) * 16 + HexValue(s[|s| - 1])
  }

  /** The magnitude `parseInt` reads after the sign: a `0x`/`0X` prefix
      switches to radix 16, otherwise the longest run of decimal digits is
      read; no digit at all is `NaN` (`None`). */
  function ParseMagnitude(s: string): (r: Option<nat>)
    ensures AllDigits(s) && |s| > 0 && (|s| < 2 || s[1] != 'x') && (|s| < 2 || s[1] != 'X')
            ==> r == Some(DecimalValue(s))
  {
    if |s| >= 2 && s[0] == '0' && (s[1] == 'x' || s[1] == 'X') then
      var hex := TakeWhile(s[2..], IsHexDigit);
      if |hex| == 0 then None else Some(HexNumeralValue(hex))
    else
      var digits := TakeWhile(s, IsDigit);
      assert AllDigits(s) ==> digits == s;
      if |digits| == 0 then None else Some(DecimalValue(digits))
  }

  /** JavaScript `parseInt(s)` without a radix; `None` stands for `NaN`. */
  function ParseInt(s: string): (r: Option<int>)
    ensures |s| == 0 ==> r == None
  {
    var t := DropWhitespace(s);
    if |t| > 0 && t[0] == '-' then
      match ParseMagnitude(t[1..])
      case None => None
      case Some(m) => Some(0 - m as int)
    else if |t| > 0 && t[0] == '+' then
      match ParseMagnitude(t[1..])
      case None => None
      case Some(m) => Some(m)
    else
      match ParseMagnitude(t)
      case None => None
      case Some(m) => Some(m)
  }

  /** `parseInt(String(i)) == i`: printing an integer and parsing it back
      is the identity. */
  lemma ParseIntOfDecimal(i: int)
    ensures ParseInt(IntToDecimal(i)) == Some(i)
  {
    var s := IntToDecimal(i);
    assert DropWhitespace(s) == s;
    if i < 0 {
      ParseNegativeDecimal(-i);
    } else {
      NoHexPrefix(i);
    }
  }

  lemma ParseNegativeDecimal(n: nat)
    requires n > 0
    ensures ParseInt(IntToDecimal(0 - n)) == Some(0 - n)
  {
    var d := NatToDecimal(n);
    var s := IntToDecimal(0 - n);
    assert s == "-" + d && s[0] == '-' && s[1..] == d;
    assert DropWhitespace(s) == s;
    NoHexPrefix(n);
    assert ParseMagnitude(d) == Some(n);
  }

  /** A JSON request field that clients send either as a number or as its
      text, or leave out. Only integral numbers are modelled. */
  datatype Numeric = Missing | Number(n: int) | Text(s: string)

  /** JavaScript truthiness of such a field: absent, 0 and "" are falsy. */
  predicate NumericTruthy(v: Numeric) {
    match v
    case Missing => false
    case Number(n) => n != 0
    case Text(s) => s != ""
  }

  /** `parseInt(v)`: a number is printed and read back, so it parses to
      itself; text is read as `ParseInt` reads it; an absent field is `NaN`. */
  function ParseIntOf(v: Numeric): (r: Option<int>)
    ensures v.Missing? ==> r.None?
    ensures v.Number? ==> r == Some(v.n)
  {
    match v
    case Missing => None
    case Number(n) => ParseIntOfDecimal(n); ParseInt(IntToDecimal(n))
    case Text(s) => ParseInt(s)
  }

  /** A JSON request field read with `parseFloat`: a number, its text, or
      nothing. */
  datatype FloatField = NoFloat | Float(x: real) | FloatText(s: string)

  /** JavaScript truthiness: absent, 0 and "" are falsy, so the text "0" is
      truthy. */
  predicate FloatTruthy(v: FloatField) {
    match v
    case NoFloat => false
    case Float(x) => x != 0.0
    case FloatText(s) => s != ""
  }

  /** `parseFloat(v)`: a number reads back as itself; text is read by
      `ParseFloat`; an absent field is `NaN` (`None`). */
  function ParseFloatOf(v: FloatField): (r: Option<real>)
    ensures v.NoFloat? ==> r.None?
    ensures v.Float? ==> r == Some(v.x)
  {
    match v
    case NoFloat => None
    case Float(x) => Some(x)
    case FloatText(s) => ParseFloat(s)
  }

  lemma NoHexPrefix(n: nat)
    ensures |NatToDecimal(n)| < 2 || NatToDecimal(n)[1] != 'x'
    ensures |NatToDecimal(n)| < 2 || NatToDecimal(n)[1] != 'X'
  {
  }

  // ---------------------------------------------------------------------
  // parseFloat
  // ---------------------------------------------------------------------

  /** `m` times ten to the power `e`, one factor of ten at a time. */
  function Shift(m: real, e: int): (r: real)
    ensures m >= 0.0 ==> r >= 0.0
    ensures e == 0 ==> r == m
    decreases if e < 0 then -e else e
  {
    if e == 0 then m
    else if e > 0 then Shift(m * 10.0, e - 1)
    else Shift(m / 10.0, e + 1)
  }

  /** The value of the digits after a decimal point: `0.d1d2...`. */
  function FractionValue(d: string): (x: real)
    requires AllDigits(d)
    ensures 0.0 <= x
  {
    if |d| == 0 then 0.0
    else (DigitValue(d[0]) as real + FractionValue(d[1..])) / 10.0
  }

  /** The power of ten an exponent part (`e` or `E`, an optional sign,
      digits) applies; text that does not start with one applies none. */
  function ExponentOf(s: string): (e: int)
    ensures |s| == 0 || (s[0] != 'e' && s[0] != 'E') ==> e == 0
  {
    if |s| == 0 || (s[0] != 'e' && s[0] != 'E') then 0
    else
      var signed := |s| > 1 && (s[1] == '+' || s[1] == '-');
      var digits := TakeWhile(s[if signed then 2 else 1..], IsDigit);
      if |digits| == 0 then 0
      else if signed && s[1] == '-' then -(DecimalValue(digits) as int)
      else DecimalValue(digits)
  }

  /** A numeral starts here: a digit, or a point followed by a digit. */
  predicate StartsUnsignedNumeral(s: string) {
    (|s| > 0 && IsDigit(s[0])) || (|s| > 1 && s[0] == '.' && IsDigit(s[1]))
  }

  /** The two digit runs of a numeral at the front of `s`: the whole part,
      and the fraction after a point (empty without one); then the rest. */
  function NumeralParts(s: string): (r: (string, string, string))
    ensures AllDigits(r.0) && AllDigits(r.1)
    ensures |r.0| == 0 && |r.1| == 0 <==> !StartsUnsignedNumeral(s)
  {
    var whole := TakeWhile(s, IsDigit);
    var rest := s[|whole|..];
    if |rest| > 0 && rest[0] == '.' then
      var frac := TakeWhile(rest[1..], IsDigit);
      assert |whole| == 0 ==> rest == s;
      (whole, frac, rest[1 + |frac|..])
    else
      assert |whole| == 0 ==> rest == s;
      (whole, "", rest)
  }

  /** The longest prefix of `s` that reads as an unsigned decimal numeral:
      digits, optionally a point and more digits, optionally an exponent.
      `None` when no digit comes before the exponent. */
  function ParseUnsignedFloat(s: string): (r: Option<real>)
    ensures r.None? <==> !StartsUnsignedNumeral(s)
    ensures r.Some? ==> r.value >= 0.0
  {
    var parts := NumeralParts(s);
    if |parts.0| == 0 && |parts.1| == 0 then None
    else Some(Shift(DecimalValue(parts.0) as real + FractionValue(parts.1), ExponentOf(parts.2)))
  }

  /** JavaScript `parseFloat(s)`: leading white space skipped, an optional
      sign, then the longest decimal numeral; `None` stands for `NaN`. The
      words `Infinity` and `-Infinity` are not read. */
  function ParseFloat(s: string): (r: Option<real>)
    ensures var t := DropWhitespace(s);
            r.None? <==> !StartsUnsignedNumeral(t)
                         && !(|t| > 0 && (t[0] == '-' || t[0] == '+') && StartsUnsignedNumeral(t[1..]))
    ensures var t := DropWhitespace(s);
            r.Some? && r.value < 0.0 ==> |t| > 0 && t[0] == '-'
  {
    var t := DropWhitespace(s);
    if |t| > 0 && t[0] == '-' then
      match ParseUnsignedFloat(t[1..])
      case None => None
      case Some(x) => Some(-x)
    else if |t| > 0 && t[0] == '+' then ParseUnsignedFloat(t[1..])
    else ParseUnsignedFloat(t)
  }

  /** The digit run at the front of `a + b`, when `b` does not go on with a
      digit, is `a`. */
  lemma TakeDigits(a: string, b: string)
    requires AllDigits(a)
    requires |b| == 0 || !IsDigit(b[0])
    ensures TakeWhile(a + b, IsDigit) == a
  {
    var s := a + b;
    assert s[..|a|] == a;
  }

  lemma PartsOfDigitsThenJunk(d: string, junk: string)
    requires |d| > 0 && AllDigits(d)
    requires |junk| == 0 || (!IsDigit(junk[0]) && junk[0] != '.')
    ensures NumeralParts(d + junk) == (d, "", junk)
  {
    TakeDigits(d, junk);
    assert (d + junk)[|d|..] == junk;
  }

  lemma PartsOfFraction(w: string, f: string)
    requires |w| > 0 && AllDigits(w) && AllDigits(f)
    ensures NumeralParts(w + ("." + f)) == (w, f, "")
  {
    var s := w + ("." + f);
    TakeDigits(w, "." + f);
    var rest := s[|w|..];
    assert rest == "." + f && rest[1..] == f;
    TakeDigits(f, "");
    assert f + "" == f;
  }

  /** What `ParseUnsignedFloat` reads, given the parts of the numeral. */
  lemma UnsignedOfParts(s: string, w: string, f: string, t: string)
    requires NumeralParts(s) == (w, f, t) && |w| > 0
    ensures AllDigits(w) && AllDigits(f)
    ensures ParseUnsignedFloat(s) == Some(Shift(DecimalValue(w) as real + FractionValue(f), ExponentOf(t)))
  {
  }

  /** Text that starts with a digit has no white space or sign to skip. */
  lemma DigitFirstIsUnsigned(s: string)
    requires |s| > 0 && IsDigit(s[0])
    ensures ParseFloat(s) == ParseUnsignedFloat(s)
  {
    DigitIsNotWhitespace(s[0]);
    assert DropWhitespace(s) == s;
    assert s[0] != '-' && s[0] != '+';
  }

  lemma DigitIsNotWhitespace(c: char)
    requires IsDigit(c)
    ensures !IsJsWhitespace(c)
  {
  }

  lemma WholeOnly(d: string, junk: string)
    requires |d| > 0 && AllDigits(d)
    requires NumeralParts(d + junk) == (d, "", junk)
    ensures ParseUnsignedFloat(d + junk) == Some(Shift(DecimalValue(d) as real + FractionValue(""), ExponentOf(junk)))
  {
    UnsignedOfParts(d + junk, d, "", junk);
  }

  lemma UnsignedStopsAtJunk(d: string, junk: string)
    requires |d| > 0 && AllDigits(d)
    requires |junk| == 0 || (!IsDigit(junk[0]) && junk[0] != '.' && junk[0] != 'e' && junk[0] != 'E')
    ensures ParseUnsignedFloat(d + junk) == Some(DecimalValue(d) as real)
  {
    PartsOfDigitsThenJunk(d, junk);
    WholeOnly(d, junk);
    assert FractionValue("") == 0.0 && ExponentOf(junk) == 0;
  }

  lemma UnsignedReadsFraction(w: string, f: string)
    requires |w| > 0 && AllDigits(w) && AllDigits(f)
    ensures ParseUnsignedFloat(w + ("." + f)) == Some(DecimalValue(w) as real + FractionValue(f))
  {
    PartsOfFraction(w, f);
    UnsignedOfParts(w + ("." + f), w, f, "");
  }

  /** A run of digits followed by text that cannot continue a numeral is
      read as the digits: `parseFloat("12abc")` is 12, and
      `parseFloat("0")` is 0. */
  lemma ParseFloatStopsAtJunk(d: string, junk: string)
    requires |d| > 0 && AllDigits(d)
    requires |junk| == 0 || (!IsDigit(junk[0]) && junk[0] != '.' && junk[0] != 'e' && junk[0] != 'E')
    ensures ParseFloat(d + junk) == Some(DecimalValue(d) as real)
  {
    assert (d + junk)[0] == d[0];
    DigitFirstIsUnsigned(d + junk);
    UnsignedStopsAtJunk(d, junk);
  }

  /** The same, for a request field sent as that text. */
  lemma FloatTextStopsAtJunk(d: string, junk: string)
    requires |d| > 0 && AllDigits(d)
    requires |junk| == 0 || (!IsDigit(junk[0]) && junk[0] != '.' && junk[0] != 'e' && junk[0] != 'E')
    ensures FloatTruthy(FloatText(d + junk))
    ensures ParseFloatOf(FloatText(d + junk)) == Some(DecimalValue(d) as real)
  {
    ParseFloatStopsAtJunk(d, junk);
  }

  /** Digits, a point and more digits are read as the whole part plus the
      fraction. */
  lemma ParseFloatReadsFraction(w: string, f: string)
    requires |w| > 0 && AllDigits(w) && AllDigits(f)
    ensures ParseFloat(w + "." + f) == Some(DecimalValue(w) as real + FractionValue(f))
  {
    assert w + "." + f == w + ("." + f);
    assert (w + ("." + f))[0] == w[0];
    DigitFirstIsUnsigned(w + ("." + f));
    UnsignedReadsFraction(w, f);
  }

  // ---------------------------------------------------------------------
  // Generic sequence utilities (the shapes of the store's queries)
  // ---------------------------------------------------------------------

  /** The index of the first element satisfying `p`. */
  function FindFirst<T>(s: seq<T>, p: T -> bool): (r: Option<nat>)
    ensures r.Some? ==> r.value < |s| && p(s[r.value])
    ensures r.Some? ==> forall j :: 0 <= j < r.value ==> !p(s[j])
    ensures r.None? <==> forall j :: 0 <= j < |s| ==> !p(s[j])
  {
    if |s| == 0 then None
    else if p(s[0]) then Some(0)
    else
      match FindFirst(s[1..], p)
      case None => None
      case Some(k) => Some(k + 1)
  }

  /** Two sequences on which `p` agrees position by position have their
      first match at the same position. */
  lemma {:induction false} FindFirstAgrees<T>(a: seq<T>, b: seq<T>, p: T -> bool)
    requires |a| == |b| && forall i :: 0 <= i < |a| ==> p(a[i]) == p(b[i])
    ensures FindFirst(a, p) == FindFirst(b, p)
  {
    if |a| > 0 {
      FindFirstAgrees(a[1..], b[1..], p);
    }
  }

  /** When no element before position `n` matches and the one at `n` does,
      the first match is at `n`. */
  lemma FirstAfterMisses<T>(s: seq<T>, n: nat, p: T -> bool)
    requires n < |s| && FindFirst(s[..n], p).None? && p(s[n])
    ensures FindFirst(s, p) == Some(n)
  {
    assert forall j :: 0 <= j < n ==> s[..n][j] == s[j];
  }

  /** The first element satisfying `p`, if any. */
  function First<T>(s: seq<T>, p: T -> bool): (r: Option<T>)
    ensures r.Some? ==> r.value in s && p(r.value)
    ensures r.None? <==> forall x :: x in s ==> !p(x)
  {
    match FindFirst(s, p)
    case None => None
    case Some(i) => Some(s[i])
  }

  /** What `First` finds sits at a position no earlier element satisfying
      `p` precedes. */
  lemma FirstIsEarliest<T>(s: seq<T>, p: T -> bool)
    ensures First(s, p).Some? ==>
              exists i :: 0 <= i < |s| && s[i] == First(s, p).value && forall j :: 0 <= j < i ==> !p(s[j])
  {
    if First(s, p).Some? {
      var i := FindFirst(s, p).value;
      assert s[i] == First(s, p).value;
    }
  }

  /** The elements satisfying `p`, in their original order. */
  function Filter<T>(s: seq<T>, p: T -> bool): (r: seq<T>)
    ensures |r| <= |s|
    ensures forall i :: 0 <= i < |r| ==> p(r[i])
    ensures forall x :: x in r ==> x in s && p(x)
    ensures forall x :: x in s && p(x) ==> x in r
    ensures (forall x :: x in s ==> p(x)) ==> r == s
  {
    if |s| == 0 then []
    else if p(s[0]) then [s[0]] + Filter(s[1..], p)
    else Filter(s[1..], p)
  }

  /** Filtering keeps every element satisfying `p` exactly as often as it
      occurs, and drops every other. */
  lemma {:induction false} FilterCounts<T>(s: seq<T>, p: T -> bool)
    ensures forall x :: multiset(Filter(s, p))[x] == if p(x) then multiset(s)[x] else 0
  {
    if |s| > 0 {
      FilterCounts(s[1..], p);
      assert s == [s[0]] + s[1..];
      assert multiset(s) == multiset{s[0]} + multiset(s[1..]);
      if p(s[0]) {
        assert Filter(s, p) == [s[0]] + Filter(s[1..], p);
        assert multiset(Filter(s, p)) == multiset{s[0]} + multiset(Filter(s[1..], p));
      }
    }
  }

  /** No two positions of `s` carry the same key. */
  predicate DistinctKeys<T>(s: seq<T>, key: T -> int) {
    forall i, j :: 0 <= i < j < |s| ==> key(s[i]) != key(s[j])
  }

  /** Filtering a sequence whose elements have distinct keys keeps the keys
      distinct. */
  lemma {:induction false} FilterKeepsDistinct<T>(s: seq<T>, p: T -> bool, key: T -> int)
    requires DistinctKeys(s, key)
    ensures DistinctKeys(Filter(s, p), key)
  {
    if |s| > 0 {
      var tail := s[1..];
      TailKeepsDistinct(s, key);
      FilterKeepsDistinct(tail, p, key);
      if p(s[0]) {
        var rest := Filter(tail, p);
        forall y | y in rest ensures key(y) != key(s[0]) {
          HeadKeyUnique(s, key, y);
        }
        ConsKeepsDistinct(s[0], rest, key);
        assert Filter(s, p) == [s[0]] + rest;
      } else {
        assert Filter(s, p) == Filter(tail, p);
      }
    }
  }

  lemma TailKeepsDistinct<T>(s: seq<T>, key: T -> int)
    requires |s| > 0 && DistinctKeys(s, key)
    ensures DistinctKeys(s[1..], key)
  {
    var tail := s[1..];
    forall i, j | 0 <= i < j < |tail| ensures key(tail[i]) != key(tail[j]) {
      assert tail[i] == s[i + 1] && tail[j] == s[j + 1];
    }
  }

  /** No later element shares the head's key. */
  lemma HeadKeyUnique<T>(s: seq<T>, key: T -> int, y: T)
    requires |s| > 0 && DistinctKeys(s, key) && y in s[1..]
    ensures key(y) != key(s[0])
  {
    var m :| 0 <= m < |s| - 1 && s[1..][m] == y;
    assert s[m + 1] == y;
  }

  lemma ConsKeepsDistinct<T>(x: T, rest: seq<T>, key: T -> int)
    requires DistinctKeys(rest, key)
    requires forall y :: y in rest ==> key(y) != key(x)
    ensures DistinctKeys([x] + rest, key)
  {
    var r := [x] + rest;
    forall i, j | 0 <= i < j < |r| ensures key(r[i]) != key(r[j]) {
      assert r[j] == rest[j - 1] && rest[j - 1] in rest;
      if i > 0 {
        assert r[i] == rest[i - 1];
      }
    }
  }

  /** Every element satisfying `p` is replaced by `f` of it; the others
      are left alone, and the order is kept. */
  function UpdateWhere<T>(s: seq<T>, p: T -> bool, f: T -> T): (r: seq<T>)
    ensures |r| == |s|
    ensures forall i :: 0 <= i < |s| && p(s[i]) ==> r[i] == f(s[i])
    ensures forall i :: 0 <= i < |s| && !p(s[i]) ==> r[i] == s[i]
  {
    if |s| == 0 then []
    else [if p(s[0]) then f(s[0]) else s[0]] + UpdateWhere(s[1..], p, f)
  }

  /** At most one position of `s` holds an element satisfying `q`. */
  predicate AtMostOneWhere<T>(s: seq<T>, q: T -> bool) {
    forall i, j :: 0 <= i < |s| && 0 <= j < |s| && q(s[i]) && q(s[j]) ==> i == j
  }

  /** Filtering cannot create a second position satisfying `q`. */
  lemma {:induction false} FilterKeepsAtMostOne<T>(s: seq<T>, p: T -> bool, q: T -> bool)
    requires AtMostOneWhere(s, q)
    ensures AtMostOneWhere(Filter(s, p), q)
  {
    if |s| > 0 {
      var rest := Filter(s[1..], p);
      AtMostOneInTail(s, q);
      FilterKeepsAtMostOne(s[1..], p, q);
      if p(s[0]) {
        var r := Filter(s, p);
        assert r == [s[0]] + rest;
        if q(s[0]) {
          OnlyHeadMatches(s, q);
          forall i | 0 < i < |r| ensures !q(r[i]) {
            assert r[i] == rest[i - 1] && rest[i - 1] in s[1..];
          }
        } else {
          forall i, j | 0 <= i < |r| && 0 <= j < |r| && q(r[i]) && q(r[j]) ensures i == j {
            assert r[i] == rest[i - 1] && r[j] == rest[j - 1];
          }
        }
      }
    }
  }

  lemma AtMostOneInTail<T>(s: seq<T>, q: T -> bool)
    requires |s| > 0 && AtMostOneWhere(s, q)
    ensures AtMostOneWhere(s[1..], q)
  {
    forall i, j | 0 <= i < |s| - 1 && 0 <= j < |s| - 1 && q(s[1..][i]) && q(s[1..][j]) ensures i == j {
      assert s[1..][i] == s[i + 1] && s[1..][j] == s[j + 1];
    }
  }

  /** When the head satisfies `q`, nothing after it does. */
  lemma OnlyHeadMatches<T>(s: seq<T>, q: T -> bool)
    requires |s| > 0 && AtMostOneWhere(s, q) && q(s[0])
    ensures forall x :: x in s[1..] ==> !q(x)
  {
    forall x | x in s[1..] ensures !q(x) {
      var m :| 0 <= m < |s| - 1 && s[1..][m] == x;
      assert s[m + 1] == x;
    }
  }

  /** Filtering a sequence whose elements all pass gives it back. */
  lemma {:induction false} FilterKeepsAll<T>(s: seq<T>, p: T -> bool)
    requires forall i :: 0 <= i < |s| ==> p(s[i])
    ensures Filter(s, p) == s
  {
    if |s| > 0 {
      FilterKeepsAll(s[1..], p);
      assert s == [s[0]] + s[1..];
    }
  }

  /** Filtering out an element appended to a sequence whose elements all
      pass gives the sequence back. */
  lemma {:induction false} FilterDropsAppended<T>(s: seq<T>, x: T, p: T -> bool)
    requires forall i :: 0 <= i < |s| ==> p(s[i])
    requires !p(x)
    ensures Filter(s + [x], p) == s
  {
    if |s| == 0 {
      assert [x][1..] == [];
    } else {
      assert (s + [x])[1..] == s[1..] + [x];
      FilterDropsAppended(s[1..], x, p);
      assert s == [s[0]] + s[1..];
    }
  }

  /** The element with the largest key, the earliest one among equals. */
  function MaxBy<T>(s: seq<T>, key: T -> int): (r: Option<T>)
    ensures r.None? <==> |s| == 0
    ensures r.Some? ==> r.value in s
    ensures r.Some? ==> forall i :: 0 <= i < |s| ==> key(s[i]) <= key(r.value)
  {
    if |s| == 0 then None
    else
      match MaxBy(s[1..], key)
      case None => Some(s[0])
      case Some(m) => if key(s[0]) >= key(m) then Some(s[0]) else Some(m)
  }

  /** An update that never changes whether an element satisfies `p` does
      not move the first element satisfying `p`. */
  lemma FindFirstAfterUpdate<T>(s: seq<T>, q: T -> bool, f: T -> T, p: T -> bool)
    requires forall x :: p(f(x)) == p(x)
    ensures FindFirst(UpdateWhere(s, q, f), p) == FindFirst(s, p)
  {
    var r := UpdateWhere(s, q, f);
    assert forall j :: 0 <= j < |s| ==> p(r[j]) == p(s[j]) by {
      forall j | 0 <= j < |s| ensures p(r[j]) == p(s[j]) {
        if q(s[j]) { assert r[j] == f(s[j]); } else { assert r[j] == s[j]; }
      }
    }
    match FindFirst(s, p)
    case None =>
    case Some(k) =>
      var k' := FindFirst(r, p).value;
      assert !(k' < k) && !(k < k');
  }

  function MapSeq<T, U>(s: seq<T>, f: T -> U): (r: seq<U>)
    ensures |r| == |s|
    ensures forall i :: 0 <= i < |s| ==> r[i] == f(s[i])
  {
    if |s| == 0 then [] else [f(s[0])] + MapSeq(s[1..], f)
  }

  /** Dropping position `k` removes one occurrence of its element. */
  lemma RemoveAt<T>(t: seq<T>, k: nat)
    requires k < |t|
    ensures multiset(t) == multiset(t[..k] + t[k + 1..]) + multiset{t[k]}
  {
    assert t == t[..k] + [t[k]] + t[k + 1..];
  }

  /** Mapping commutes with dropping a position. */
  lemma MapRemoveAt<T, U>(t: seq<T>, k: nat, f: T -> U)
    requires k < |t|
    ensures MapSeq(t[..k] + t[k + 1..], f) == MapSeq(t, f)[..k] + MapSeq(t, f)[k + 1..]
  {
    var l, r := MapSeq(t[..k] + t[k + 1..], f), MapSeq(t, f)[..k] + MapSeq(t, f)[k + 1..];
    assert |l| == |r|;
    forall i | 0 <= i < |l| ensures l[i] == r[i] {
      if i < k {
        assert (t[..k] + t[k + 1..])[i] == t[i];
      } else {
        assert (t[..k] + t[k + 1..])[i] == t[i + 1];
      }
    }
  }

  lemma MultisetCancel<T>(a: multiset<T>, b: multiset<T>, x: T)
    requires a + multiset{x} == b + multiset{x}
    ensures a == b
  {
    forall y ensures a[y] == b[y] {
      assert (a + multiset{x})[y] == (b + multiset{x})[y];
    }
  }

  /** Mapping two reorderings of the same elements gives reorderings of
      the same images: each element's image appears as often as the
      element. */
  lemma {:induction false} MapPermutation<T, U>(s: seq<T>, t: seq<T>, f: T -> U)
    requires multiset(t) == multiset(s)
    ensures multiset(MapSeq(t, f)) == multiset(MapSeq(s, f))
    decreases |s|
  {
    if |s| == 0 {
      assert |t| == |multiset(t)| == 0;
    } else {
      var x := s[0];
      assert x in multiset(t);
      var k :| 0 <= k < |t| && t[k] == x;
      var rest := t[..k] + t[k + 1..];
      RemoveAt(t, k);
      assert s == [x] + s[1..];
      MultisetCancel(multiset(rest), multiset(s[1..]), x);
      MapPermutation(s[1..], rest, f);
      var mt := MapSeq(t, f);
      MapRemoveAt(t, k, f);
      RemoveAt(mt, k);
      assert multiset(mt) == multiset(MapSeq(rest, f)) + multiset{f(x)};
      assert MapSeq(s, f) == [f(x)] + MapSeq(s[1..], f);
    }
  }

  // ---------------------------------------------------------------------
  // Sorting by a total preorder (the store's `orderBy`)
  // ---------------------------------------------------------------------

  ghost predicate Total<T(!new)>(leq: (T, T) -> bool) {
    forall x, y :: leq(x, y) || leq(y, x)
  }

  /** Neighbours are in order. */
  predicate SortedBy<T>(s: seq<T>, leq: (T, T) -> bool) {
    forall i :: 0 < i < |s| ==> leq(s[i - 1], s[i])
  }

  function Insert<T(!new)>(x: T, s: seq<T>, leq: (T, T) -> bool): (r: seq<T>)
    ensures |r| == |s| + 1
    ensures multiset(r) == multiset(s) + multiset{x}
    ensures r[0] == x || (|s| > 0 && r[0] == s[0])
    ensures Total(leq) && SortedBy(s, leq) ==> SortedBy(r, leq)
  {
    if |s| == 0 then [x]
    else if leq(x, s[0]) then [x] + s
    else
      var rest := Insert(x, s[1..], leq);
      assert s == [s[0]] + s[1..];
      [s[0]] + rest
  }

  /** Insertion sort: a permutation of `s`, in order when `leq` is total. */
  function SortBy<T(!new)>(s: seq<T>, leq: (T, T) -> bool): (r: seq<T>)
    ensures |r| == |s|
    ensures multiset(r) == multiset(s)
    ensures Total(leq) ==> SortedBy(r, leq)
  {
    if |s| == 0 then []
    else
      assert s == [s[0]] + s[1..];
      Insert(s[0], SortBy(s[1..], leq), leq)
  }
}

=== FILE: callback.dfy ===
/** The payment notification handler (`POST /api/payments/xendit/callback`):
    authenticate the notification, locate the transaction by the gateway's
    invoice id, settle it as SUCCESS or FAILED, and for a paid subscription
    create the router accounts its package needs, activating the
    subscription only when every one of them was created. */
module Callback {
  import opened Base
  import opened Store
  import opened Http
  import opened Runtime
  import Xendit
  import Mikrotik

  const InvalidTokenMessage: string := "Invalid callback token"
  const NotFoundMessage: string := "Transaction not found"
  const ProcessedMessage: string := "Callback processed successfully"
  const FallbackMessage: string := "Failed to process callback"

  /** The TypeError raised by `status.toUpperCase()` when the notification
      has no status. */
  const MissingStatusMessage: string := "Cannot read properties of undefined (reading 'toUpperCase')"

  /** An incoming notification: its JSON body, or the parser's error
      message when the body is not JSON, and its `x-callback-token` header. */
  datatype Notification = Notification(body: Result<Xendit.CallbackData, string>, token: Option<string>)

  /** What the handler produces: the response, the process state after it,
      and the router requests it sent, in order. */
  datatype Outcome = Outcome(response: Response<()>, world: World, calls: seq<Mikrotik.Request>)

  predicate IsPaid(status: string) {
    ToUpper(status) == "PAID"
  }

  /** The token gate: a non-empty header that the gateway client accepts. */
  predicate Admitted(token: Option<string>, configured: Option<string>) {
    Truthy(token) && Xendit.VerifyCallbackToken(configured, token.value)
  }

  /** The lookup filter `{ externalId: id }`. Without an `id` the filter is
      empty, and every transaction matches it. */
  predicate MatchesInvoice(t: Transaction, id: Option<string>) {
    id.None? || t.externalId == id
  }

  /** `findFirst`: the position of the first transaction whose stored
      external id is the notification's invoice `id`. */
  function Locate(txs: seq<Transaction>, id: Option<string>): (r: Option<nat>)
    ensures r.Some? ==> r.value < |txs| && MatchesInvoice(txs[r.value], id)
    ensures r.Some? ==> forall k :: 0 <= k < r.value ==> !MatchesInvoice(txs[k], id)
    ensures r.None? <==> forall k :: 0 <= k < |txs| ==> !MatchesInvoice(txs[k], id)
  {
    FindFirst(txs, (t: Transaction) => MatchesInvoice(t, id))
  }

  /** The transaction as the handler rewrites it: SUCCESS exactly when the
      upper-cased status is PAID and FAILED otherwise, the payment method
      and channel replaced when the notification carries them, the raw
      notification as metadata, and every other column kept. */
  function Settle(t: Transaction, data: Xendit.CallbackData, status: string): (s: Transaction)
    ensures s.status == Success <==> IsPaid(status)
    ensures s.status == Failed <==> !IsPaid(status)
    ensures data.paymentMethod.Some? ==> s.paymentMethod == data.paymentMethod
    ensures data.paymentMethod.None? ==> s.paymentMethod == t.paymentMethod
    ensures data.paymentChannel.Some? ==> s.paymentChannel == data.paymentChannel
    ensures data.paymentChannel.None? ==> s.paymentChannel == t.paymentChannel
    ensures s.metadata == GatewayNotification(data.raw)
    ensures s.(status := t.status, paymentMethod := t.paymentMethod,
               paymentChannel := t.paymentChannel, metadata := t.metadata) == t
  {
    t.(status := if IsPaid(status) then Success else Failed,
       paymentMethod := if data.paymentMethod.Some? then data.paymentMethod else t.paymentMethod,
       paymentChannel := if data.paymentChannel.Some? then data.paymentChannel else t.paymentChannel,
       metadata := GatewayNotification(data.raw))
  }

  /** The store after the status update of the transaction with id `id`. */
  function SettleIn(db: Db, id: Id, data: Xendit.CallbackData, status: string): Db {
    db.(transactions := UpdateTransaction(db.transactions, id, (x: Transaction) => Settle(x, data, status)))
  }

  // ---------------------------------------------------------------------
  // Provisioning
  // ---------------------------------------------------------------------

  /** The router profile: the package's, or `default` when it has none. */
  function Profile(p: Package): (r: string)
    ensures Truthy(p.mikrotikProfile) ==> r == p.mikrotikProfile.value
    ensures !Truthy(p.mikrotikProfile) ==> r == "default"
  {
    OrElse(p.mikrotikProfile, "default")
  }

  function AccountComment(payerName: string, packageName: string): string {
    "User: " + payerName + " | Package: " + packageName
  }

  function PppoeRequest(c: Mikrotik.Client, sub: Subscription, pkg: Package, comment: string): Mikrotik.Request {
    Mikrotik.CreateRequestFor(c, Mikrotik.SecretSpec(sub.mikrotikName, sub.mikrotikPassword, "pppoe", Profile(pkg), Some(comment)))
  }

  function HotspotRequest(c: Mikrotik.Client, sub: Subscription, pkg: Package, comment: string): Mikrotik.Request {
    Mikrotik.Request(Mikrotik.Post, Mikrotik.RequestUrl(c, Mikrotik.HotspotUserPath), c.config.username, c.config.password,
                     Mikrotik.NewHotspotUser(sub.mikrotikName, sub.mikrotikPassword, Profile(pkg), Some(comment)))
  }

  /** The account name and password a create request carries. */
  function Credentials(b: Mikrotik.Body): Option<(string, string)> {
    match b
    case NewSecret(name, password, _, _, _) => Some((name, password))
    case NewHotspotUser(name, password, _, _) => Some((name, password))
    case _ => None
  }

  /** The requests that provision a paid subscription, in the order they are
      sent: a PPPoE secret exactly when the package type is PPPOE or BOTH,
      then a Hotspot user exactly when it is HOTSPOT or BOTH. Both carry the
      subscription's stored name and password and the package's profile. */
  function ProvisioningPlan(c: Mikrotik.Client, sub: Subscription, pkg: Package, comment: string)
    : (plan: seq<Mikrotik.Request>)
    ensures 1 <= |plan| <= 2
    ensures |plan| == 2 <==> pkg.kind == Both
    ensures NeedsPppoe(pkg.kind) <==> plan[0] == PppoeRequest(c, sub, pkg, comment)
    ensures NeedsHotspot(pkg.kind) <==> plan[|plan| - 1] == HotspotRequest(c, sub, pkg, comment)
    ensures forall q :: q in plan ==> Credentials(q.body) == Some((sub.mikrotikName, sub.mikrotikPassword))
    ensures forall q :: q in plan ==> q.verb == Mikrotik.Post
  {
    (if NeedsPppoe(pkg.kind) then [PppoeRequest(c, sub, pkg, comment)] else [])
      + (if NeedsHotspot(pkg.kind) then [HotspotRequest(c, sub, pkg, comment)] else [])
  }

  /** The i-th request of a handler got a 2xx reply from the router. */
  predicate Answered(dev: Mikrotik.Device, calls: seq<Mikrotik.Request>, i: nat)
    requires i < |calls|
  {
    dev(i, calls[i]).Reply? && Mikrotik.IsOkStatus(dev(i, calls[i]).status)
  }

  /** The whole plan was sent and its last request, hence every request,
      was answered. */
  predicate Completed(dev: Mikrotik.Device, calls: seq<Mikrotik.Request>, plan: seq<Mikrotik.Request>) {
    calls == plan && |calls| >= 1 && Answered(dev, calls, |calls| - 1)
  }

  /** Sends the plan in order and stops at the first request that fails.
      The result is true exactly when the whole plan was sent and every
      request was answered. */
  function SendAccounts(dev: Mikrotik.Device, c: Mikrotik.Client, sub: Subscription, pkg: Package, comment: string)
    : (r: (bool, seq<Mikrotik.Request>))
    ensures 1 <= |r.1| && r.1 <= ProvisioningPlan(c, sub, pkg, comment)
    ensures forall i :: 0 <= i < |r.1| - 1 ==> Answered(dev, r.1, i)
    ensures r.0 <==> Completed(dev, r.1, ProvisioningPlan(c, sub, pkg, comment))
  {
    var profile := Profile(pkg);
    if NeedsPppoe(pkg.kind) then
      var (first, log1) := Mikrotik.CreatePppoeUser(dev, [], c,
        Mikrotik.SecretSpec(sub.mikrotikName, sub.mikrotikPassword, "pppoe", profile, Some(comment)));
      if first.Err? then (false, log1)
      else if NeedsHotspot(pkg.kind) then
        var (second, log2) := Mikrotik.CreateHotspotUser(dev, log1, c, sub.mikrotikName, sub.mikrotikPassword, profile, Some(comment));
        (second.Ok?, log2)
      else (true, log1)
    else
      var (only, log1) := Mikrotik.CreateHotspotUser(dev, [], c, sub.mikrotikName, sub.mikrotikPassword, profile, Some(comment));
      (only.Ok?, log1)
  }

  /** The two writes after a successful provisioning: the subscription
      becomes ACTIVE, renewed now, and the payer's router id becomes the
      subscription's account name. Nothing else in the store changes. */
  function Activate(db: Db, sub: Subscription, payerId: Id, now: Millis): (db': Db)
    ensures |db'.subscriptions| == |db.subscriptions| && |db'.users| == |db.users|
    ensures forall i :: 0 <= i < |db.subscriptions| && db.subscriptions[i].id == sub.id ==>
              db'.subscriptions[i] == db.subscriptions[i].(status := SubscriptionStatus.Active, lastRenewal := Some(now))
    ensures forall i :: 0 <= i < |db.subscriptions| && db.subscriptions[i].id != sub.id ==>
              db'.subscriptions[i] == db.subscriptions[i]
    ensures forall i :: 0 <= i < |db.users| && db.users[i].id == payerId ==>
              db'.users[i] == db.users[i].(mikrotikId := Some(sub.mikrotikName))
    ensures forall i :: 0 <= i < |db.users| && db.users[i].id != payerId ==> db'.users[i] == db.users[i]
    ensures db'.(subscriptions := db.subscriptions, users := db.users) == db
  {
    db.(subscriptions := UpdateSubscription(db.subscriptions, sub.id,
                           (s: Subscription) => s.(status := SubscriptionStatus.Active, lastRenewal := Some(now))),
        users := UpdateUser(db.users, payerId, (u: User) => u.(mikrotikId := Some(sub.mikrotikName))))
  }

  /** The provisioning block: obtain the router connection, create the
      accounts, then activate. Every failure inside (no active router
      configuration, a missing package or payer, a refused request) is
      swallowed: the store is then left as it was. */
  function Provision(db: Db, cache: Option<Mikrotik.Client>, sub: Subscription, payerId: Id, now: Millis, dev: Mikrotik.Device)
    : (r: (Db, Option<Mikrotik.Client>, seq<Mikrotik.Request>))
    ensures r.1 == Mikrotik.GetConnection(cache, db.configs).1
    ensures r.0 == db || r.0 == Activate(db, sub, payerId, now)
    ensures r.2 != [] ==> Mikrotik.GetConnection(cache, db.configs).0.Ok?
                          && FindPackage(db, sub.packageId).Some? && FindUser(db, payerId).Some?
  {
    var (conn, cache') := Mikrotik.GetConnection(cache, db.configs);
    if conn.Err? then (db, cache', [])
    else
      match (FindPackage(db, sub.packageId), FindUser(db, payerId))
      case (Some(pkg), Some(payer)) =>
        var (ok, log) := SendAccounts(dev, conn.value, sub, pkg, AccountComment(payer.name, pkg.name));
        (if ok then Activate(db, sub, payerId, now) else db, cache', log)
      case _ => (db, cache', [])
  }

  // ---------------------------------------------------------------------
  // The handler
  // ---------------------------------------------------------------------

  /** The subscription a transaction is linked to, if the link resolves. */
  function LinkedSubscription(db: Db, t: Transaction): Option<Subscription> {
    if t.subscriptionId.Some? then FindSubscription(db, t.subscriptionId.value) else None
  }

  function Processed(): Response<()> {
    Response(200, Done(ProcessedMessage, ()))
  }

  /** The handler. The gateway client is obtained before the token is
      looked at, so a missing API key answers 500 even to a forged
      notification. Only a 200 changes the store or reaches the router. */
  function Reconcile(w: World, env: Env, n: Notification, now: Millis, dev: Mikrotik.Device): (o: Outcome)
    ensures o.response.status in {200, 401, 404, 500}
    ensures o.response.status == 401 <==>
              && n.body.Ok?
              && Xendit.GetInstance(w.gateway, env.xenditApiKey, env.nodeEnv).0.Ok?
              && !Admitted(n.token, env.xenditCallbackToken)
    ensures o.response.status == 404 <==>
              && n.body.Ok?
              && Xendit.GetInstance(w.gateway, env.xenditApiKey, env.nodeEnv).0.Ok?
              && Admitted(n.token, env.xenditCallbackToken)
              && Locate(w.db.transactions, n.body.value.id).None?
    ensures o.response.status != 200 ==> o.world.db == w.db && o.calls == []
    ensures o.response.status == 200 ==> o.response == Processed()
    ensures o.world.gateway == Xendit.GetInstance(w.gateway, env.xenditApiKey, env.nodeEnv).1 || n.body.Err?
  {
    match n.body
    case Err(m) => Outcome(Fail(500, if m != "" then m else FallbackMessage), w, [])
    case Ok(data) =>
      var (instance, gatewayCache) := Xendit.GetInstance(w.gateway, env.xenditApiKey, env.nodeEnv);
      var w1 := w.(gateway := gatewayCache);
      if instance.Err? then Outcome(Fail(500, MessageOr(instance.error, FallbackMessage)), w1, [])
      else if !Admitted(n.token, env.xenditCallbackToken) then Outcome(Fail(401, InvalidTokenMessage), w1, [])
      else
        match Locate(w.db.transactions, data.id)
        case None => Outcome(Fail(404, NotFoundMessage), w1, [])
        case Some(k) =>
          var t := w.db.transactions[k];
          match data.status
          case None => Outcome(Fail(500, MissingStatusMessage), w1, [])
          case Some(status) =>
            var db1 := SettleIn(w.db, t.id, data, status);
            var linked := LinkedSubscription(w.db, t);
            if IsPaid(status) && linked.Some? then
              var (db2, routerCache, calls) := Provision(db1, w.router, linked.value, t.userId, now, dev);
              Outcome(Processed(), World(db2, routerCache, gatewayCache), calls)
            else
              Outcome(Processed(), w1.(db := db1), [])
  }

  // ---------------------------------------------------------------------
  // Properties of the handler
  // ---------------------------------------------------------------------

  /** The notifications the handler gets past authentication, lookup and the
      status read with: the located transaction and the status. */
  predicate Accepted(w: World, env: Env, n: Notification) {
    && n.body.Ok?
    && Xendit.GetInstance(w.gateway, env.xenditApiKey, env.nodeEnv).0.Ok?
    && Admitted(n.token, env.xenditCallbackToken)
    && Locate(w.db.transactions, n.body.value.id).Some?
    && n.body.value.status.Some?
  }

  function Located(w: World, n: Notification): Transaction
    requires n.body.Ok? && Locate(w.db.transactions, n.body.value.id).Some?
  {
    w.db.transactions[Locate(w.db.transactions, n.body.value.id).value]
  }

  /** A notification gets a 200 exactly when it is accepted, and then the
      located transaction is settled: SUCCESS iff the status is PAID, the
      method, channel and metadata written, every other transaction left as
      it was, and the packages and router configurations untouched. */
  lemma AcceptedSettles(w: World, env: Env, n: Notification, now: Millis, dev: Mikrotik.Device)
    ensures Reconcile(w, env, n, now, dev).response.status == 200 <==> Accepted(w, env, n)
    ensures Accepted(w, env, n) ==>
              var o := Reconcile(w, env, n, now, dev);
              var k := Locate(w.db.transactions, n.body.value.id).value;
              var t := w.db.transactions[k];
              && o.world.db.transactions == UpdateTransaction(w.db.transactions, t.id,
                   (x: Transaction) => Settle(x, n.body.value, n.body.value.status.value))
              && o.world.db.transactions[k] == Settle(t, n.body.value, n.body.value.status.value)
              && (o.world.db.transactions[k].status == Success <==> IsPaid(n.body.value.status.value))
              && o.world.db.packages == w.db.packages
              && o.world.db.configs == w.db.configs
              && o.world.db.nextId == w.db.nextId
  {
    if Accepted(w, env, n) {
      var data := n.body.value;
      var status := data.status.value;
      var t := Located(w, n);
      var db1 := SettleIn(w.db, t.id, data, status);
      var linked := LinkedSubscription(w.db, t);
      if IsPaid(status) && linked.Some? {
        var r := Provision(db1, w.router, linked.value, t.userId, now, dev);
        assert r.0 == db1 || r.0 == Activate(db1, linked.value, t.userId, now);
      }
    }
  }

  /** The gateway client's own reading of a notification agrees with the
      handler on an authenticated notification whose transaction exists:
      it succeeds exactly when the handler answers 200, and it reports PAID
      exactly when the handler settles the transaction as SUCCESS. */
  lemma ProcessedStatusDecidesSettlement(w: World, env: Env, n: Notification, now: Millis, dev: Mikrotik.Device)
    requires n.body.Ok?
    requires Xendit.GetInstance(w.gateway, env.xenditApiKey, env.nodeEnv).0.Ok?
    requires Admitted(n.token, env.xenditCallbackToken)
    requires Locate(w.db.transactions, n.body.value.id).Some?
    ensures var p := Xendit.ProcessCallback(n.body.value);
            p.success <==> Reconcile(w, env, n, now, dev).response.status == 200
    ensures var p := Xendit.ProcessCallback(n.body.value);
            var k := Locate(w.db.transactions, n.body.value.id).value;
            var txs := Reconcile(w, env, n, now, dev).world.db.transactions;
            p.success ==> k < |txs| && (p.status == "PAID" <==> txs[k].status == Success)
  {
    AcceptedSettles(w, env, n, now, dev);
  }

  /** The status is read only after the token check and the lookup: an
      authenticated notification for a known transaction that has no status
      fails with the TypeError's 500 and writes nothing. */
  lemma MissingStatusFailsUnwritten(w: World, env: Env, n: Notification, now: Millis, dev: Mikrotik.Device)
    requires n.body.Ok? && n.body.value.status.None?
    requires Xendit.GetInstance(w.gateway, env.xenditApiKey, env.nodeEnv).0.Ok?
    requires Admitted(n.token, env.xenditCallbackToken)
    requires Locate(w.db.transactions, n.body.value.id).Some?
    ensures var o := Reconcile(w, env, n, now, dev);
            o.response == Fail(500, MissingStatusMessage) && o.world.db == w.db && o.calls == []
  {
  }

  /** The router is reached only for a PAID notification whose transaction
      is linked to an existing subscription, and only with that
      subscription's credentials. */
  lemma ProvisionsOnlyPaidSubscriptions(w: World, env: Env, n: Notification, now: Millis, dev: Mikrotik.Device)
    ensures var o := Reconcile(w, env, n, now, dev);
            o.calls != [] ==>
              && Accepted(w, env, n)
              && IsPaid(n.body.value.status.value)
              && LinkedSubscription(w.db, Located(w, n)).Some?
              && forall q :: q in o.calls ==>
                   Credentials(q.body) == Some((LinkedSubscription(w.db, Located(w, n)).value.mikrotikName,
                                                LinkedSubscription(w.db, Located(w, n)).value.mikrotikPassword))
  {
    var o := Reconcile(w, env, n, now, dev);
    if o.calls != [] {
      var data := n.body.value;
      var t := Located(w, n);
      var status := data.status.value;
      var sub := LinkedSubscription(w.db, t).value;
      var db1 := SettleIn(w.db, t.id, data, status);
      var (conn, _) := Mikrotik.GetConnection(w.router, db1.configs);
      var pkg := FindPackage(db1, sub.packageId).value;
      var payer := FindUser(db1, t.userId).value;
      var plan := ProvisioningPlan(conn.value, sub, pkg, AccountComment(payer.name, pkg.name));
      assert o.calls <= plan;
      forall q | q in o.calls
        ensures Credentials(q.body) == Some((sub.mikrotikName, sub.mikrotikPassword))
      {
        assert q in plan;
      }
    }
  }

  /** The provisioning requests a PAID notification leads to, when its
      subscription, package, payer and router connection all exist: the
      accounts the package type calls for, in order, up to the first refusal,
      and the response is 200 whatever the router answers. */
  lemma PaidSubscriptionCalls(w: World, env: Env, n: Notification, now: Millis, dev: Mikrotik.Device,
                              sub: Subscription, pkg: Package, payer: User, c: Mikrotik.Client)
    requires Accepted(w, env, n) && IsPaid(n.body.value.status.value)
    requires LinkedSubscription(w.db, Located(w, n)) == Some(sub)
    requires FindPackage(w.db, sub.packageId) == Some(pkg)
    requires FindUser(w.db, Located(w, n).userId) == Some(payer)
    requires Mikrotik.GetConnection(w.router, w.db.configs).0 == Ok(c)
    ensures var o := Reconcile(w, env, n, now, dev);
            var plan := ProvisioningPlan(c, sub, pkg, AccountComment(payer.name, pkg.name));
            && o.response == Processed()
            && 1 <= |o.calls| && o.calls <= plan
            && (forall i :: 0 <= i < |o.calls| - 1 ==> Answered(dev, o.calls, i))
            && o.world.router == Some(c)
  {
    PaidProvisioning(w, env, n, now, dev, sub, pkg, payer, c);
  }

  /** Under the same conditions, the subscription is activated (and the
      payer's router id set) exactly when every planned request was
      answered; otherwise the store is the settled store and nothing more. */
  lemma PaidSubscriptionActivation(w: World, env: Env, n: Notification, now: Millis, dev: Mikrotik.Device,
                                   sub: Subscription, pkg: Package, payer: User, c: Mikrotik.Client)
    requires Accepted(w, env, n) && IsPaid(n.body.value.status.value)
    requires LinkedSubscription(w.db, Located(w, n)) == Some(sub)
    requires FindPackage(w.db, sub.packageId) == Some(pkg)
    requires FindUser(w.db, Located(w, n).userId) == Some(payer)
    requires Mikrotik.GetConnection(w.router, w.db.configs).0 == Ok(c)
    ensures var o := Reconcile(w, env, n, now, dev);
            var plan := ProvisioningPlan(c, sub, pkg, AccountComment(payer.name, pkg.name));
            var settled := SettleIn(w.db, Located(w, n).id, n.body.value, n.body.value.status.value);
            && (Completed(dev, o.calls, plan) ==> o.world.db == Activate(settled, sub, Located(w, n).userId, now))
            && (!Completed(dev, o.calls, plan) ==> o.world.db == settled)
  {
    PaidProvisioning(w, env, n, now, dev, sub, pkg, payer, c);
  }

  /** The handler's outcome for a PAID notification, in terms of the
      requests `SendAccounts` sends. */
  lemma PaidProvisioning(w: World, env: Env, n: Notification, now: Millis, dev: Mikrotik.Device,
                         sub: Subscription, pkg: Package, payer: User, c: Mikrotik.Client)
    requires Accepted(w, env, n) && IsPaid(n.body.value.status.value)
    requires LinkedSubscription(w.db, Located(w, n)) == Some(sub)
    requires FindPackage(w.db, sub.packageId) == Some(pkg)
    requires FindUser(w.db, Located(w, n).userId) == Some(payer)
    requires Mikrotik.GetConnection(w.router, w.db.configs).0 == Ok(c)
    ensures var sent := SendAccounts(dev, c, sub, pkg, AccountComment(payer.name, pkg.name));
            var settled := SettleIn(w.db, Located(w, n).id, n.body.value, n.body.value.status.value);
            Reconcile(w, env, n, now, dev)
              == Outcome(Processed(),
                         World(if sent.0 then Activate(settled, sub, Located(w, n).userId, now) else settled,
                               Some(c), Xendit.GetInstance(w.gateway, env.xenditApiKey, env.nodeEnv).1),
                         sent.1)
  {
    var data := n.body.value;
    var t := Located(w, n);
    var settled := SettleIn(w.db, t.id, data, data.status.value);
    assert FindPackage(settled, sub.packageId) == Some(pkg) by { assert settled.packages == w.db.packages; }
    assert FindUser(settled, t.userId) == Some(payer) by { assert settled.users == w.db.users; }
    assert Mikrotik.GetConnection(w.router, settled.configs).0 == Ok(c) by { assert settled.configs == w.db.configs; }
    PaidReconcileProvisions(w, env, n, now, dev, sub);
    ProvisionWith(settled, w.router, sub, t.userId, now, dev, pkg, payer, c);
  }

  /** An accepted PAID notification with a linked subscription answers 200
      and leaves the store as the provisioning block leaves the settled
      store. */
  lemma PaidReconcileProvisions(w: World, env: Env, n: Notification, now: Millis, dev: Mikrotik.Device, sub: Subscription)
    requires Accepted(w, env, n) && IsPaid(n.body.value.status.value)
    requires LinkedSubscription(w.db, Located(w, n)) == Some(sub)
    ensures var settled := SettleIn(w.db, Located(w, n).id, n.body.value, n.body.value.status.value);
            var r := Provision(settled, w.router, sub, Located(w, n).userId, now, dev);
            Reconcile(w, env, n, now, dev)
              == Outcome(Processed(), World(r.0, r.1, Xendit.GetInstance(w.gateway, env.xenditApiKey, env.nodeEnv).1), r.2)
  {
  }

  /** Provisioning with the connection, package and payer at hand: the
      accounts are sent, and the store is activated exactly when they all
      were created. */
  lemma ProvisionWith(db: Db, cache: Option<Mikrotik.Client>, sub: Subscription, payerId: Id, now: Millis,
                      dev: Mikrotik.Device, pkg: Package, payer: User, c: Mikrotik.Client)
    requires Mikrotik.GetConnection(cache, db.configs).0 == Ok(c)
    requires FindPackage(db, sub.packageId) == Some(pkg)
    requires FindUser(db, payerId) == Some(payer)
    ensures var sent := SendAccounts(dev, c, sub, pkg, AccountComment(payer.name, pkg.name));
            Provision(db, cache, sub, payerId, now, dev)
              == (if sent.0 then Activate(db, sub, payerId, now) else db, Some(c), sent.1)
  {
  }

  /** A notification whose transaction is not linked to an existing
      subscription, or whose status is not PAID, only settles the
      transaction: no router request, no activation. */
  lemma UnpaidOnlySettles(w: World, env: Env, n: Notification, now: Millis, dev: Mikrotik.Device)
    requires Accepted(w, env, n)
    requires !IsPaid(n.body.value.status.value) || LinkedSubscription(w.db, Located(w, n)).None?
    ensures var o := Reconcile(w, env, n, now, dev);
            && o.calls == []
            && o.world.db == SettleIn(w.db, Located(w, n).id, n.body.value, n.body.value.status.value)
            && o.world.router == w.router
  {
  }

  // ---------------------------------------------------------------------
  // A repeated delivery
  // ---------------------------------------------------------------------

  /** Settling keeps every external id, so the same notification locates
      the same transaction again afterwards. */
  lemma LocateAfterSettle(txs: seq<Transaction>, id: Id, data: Xendit.CallbackData, status: string, invoice: Option<string>)
    ensures Locate(UpdateTransaction(txs, id, (x: Transaction) => Settle(x, data, status)), invoice) == Locate(txs, invoice)
  {
    var r := UpdateTransaction(txs, id, (x: Transaction) => Settle(x, data, status));
    assert forall j :: 0 <= j < |txs| ==> r[j].externalId == txs[j].externalId;
    assert forall j :: 0 <= j < |txs| ==> MatchesInvoice(r[j], invoice) == MatchesInvoice(txs[j], invoice);
    match Locate(txs, invoice)
    case None =>
    case Some(k) =>
      var k' := Locate(r, invoice).value;
      assert !(k' < k) && !(k < k');
  }

  /** With unique subscription ids, activation keeps a subscription
      findable, with the same account credentials and package. */
  lemma SubscriptionAfterActivate(db: Db, sub: Subscription, payerId: Id, now: Millis, sid: Id, s0: Subscription)
    requires forall i, j :: 0 <= i < j < |db.subscriptions| ==> db.subscriptions[i].id != db.subscriptions[j].id
    requires FindSubscription(db, sid) == Some(s0)
    ensures var s1 := FindSubscription(Activate(db, sub, payerId, now), sid);
            && s1.Some?
            && s1.value.mikrotikName == s0.mikrotikName
            && s1.value.mikrotikPassword == s0.mikrotikPassword
            && s1.value.packageId == s0.packageId
  {
    var after := Activate(db, sub, payerId, now).subscriptions;
    assert forall j :: 0 <= j < |after| ==> SameAccount(after[j], db.subscriptions[j]);
    var i0 :| 0 <= i0 < |db.subscriptions| && db.subscriptions[i0] == s0;
    assert after[i0] in after;
    AccountKeptById(db.subscriptions, after, i0, FindSubscription(Activate(db, sub, payerId, now), sid).value);
  }

  /** Two subscription rows carry the same id, account credentials and
      package. */
  predicate SameAccount(a: Subscription, b: Subscription) {
    a.id == b.id && a.mikrotikName == b.mikrotikName && a.mikrotikPassword == b.mikrotikPassword
    && a.packageId == b.packageId
  }

  lemma AccountKeptById(subs: seq<Subscription>, after: seq<Subscription>, i0: nat, s1: Subscription)
    requires forall i, j :: 0 <= i < j < |subs| ==> subs[i].id != subs[j].id
    requires |after| == |subs| && forall j :: 0 <= j < |after| ==> SameAccount(after[j], subs[j])
    requires i0 < |subs| && s1 in after && s1.id == subs[i0].id
    ensures SameAccount(s1, subs[i0])
  {
    var j :| 0 <= j < |after| && after[j] == s1;
    assert SameAccount(after[j], subs[j]);
    assert j == i0;
  }

  /** With unique user ids, activation keeps the payer findable under the
      same name. */
  lemma PayerAfterActivate(db: Db, sub: Subscription, payerId: Id, now: Millis, payer: User)
    requires forall i, j :: 0 <= i < j < |db.users| ==> db.users[i].id != db.users[j].id
    requires FindUser(db, payerId) == Some(payer)
    ensures var p1 := FindUser(Activate(db, sub, payerId, now), payerId);
            p1.Some? && p1.value.name == payer.name
  {
    var db' := Activate(db, sub, payerId, now);
    var after := db'.users;
    forall j | 0 <= j < |after| ensures SameName(after[j], db.users[j]) {
      if db.users[j].id == payerId {
        assert after[j] == db.users[j].(mikrotikId := Some(sub.mikrotikName));
      }
    }
    assert payer in db.users;
    var i0 :| 0 <= i0 < |db.users| && db.users[i0] == payer;
    assert after[i0] in db'.users && after[i0].id == payerId;
    var p1 := FindUser(db', payerId);
    assert p1.Some?;
    NameKeptById(db.users, after, i0, p1.value);
  }

  /** Two user rows carry the same id and name. */
  predicate SameName(a: User, b: User) {
    a.id == b.id && a.name == b.name
  }

  lemma NameKeptById(users: seq<User>, after: seq<User>, i0: nat, u1: User)
    requires forall i, j :: 0 <= i < j < |users| ==> users[i].id != users[j].id
    requires |after| == |users| && forall j :: 0 <= j < |after| ==> SameName(after[j], users[j])
    requires i0 < |users| && u1 in after && u1.id == users[i0].id
    ensures SameName(u1, users[i0])
  {
    var j :| 0 <= j < |after| && after[j] == u1;
    assert SameName(after[j], users[j]);
    assert j == i0;
  }

  /** There is no terminal-state guard: after a PAID notification has been
      processed, delivering it again is accepted again and sends the same
      first account request to the router again, whether or not the first
      delivery managed to activate the subscription. */
  lemma RepeatedPaidNotificationProvisionsAgain(w: World, env: Env, n: Notification, now1: Millis, now2: Millis,
                                                dev: Mikrotik.Device, sub: Subscription, pkg: Package, payer: User,
                                                c: Mikrotik.Client)
    requires WellFormed(w.db)
    requires Accepted(w, env, n) && IsPaid(n.body.value.status.value)
    requires LinkedSubscription(w.db, Located(w, n)) == Some(sub)
    requires FindPackage(w.db, sub.packageId) == Some(pkg)
    requires FindUser(w.db, Located(w, n).userId) == Some(payer)
    requires Mikrotik.GetConnection(w.router, w.db.configs).0 == Ok(c)
    ensures var o1 := Reconcile(w, env, n, now1, dev);
            var o2 := Reconcile(o1.world, env, n, now2, dev);
            && o2.response == Processed()
            && o2.calls != [] && o1.calls != []
            && o2.calls[0] == o1.calls[0]
  {
    var data := n.body.value;
    var status := data.status.value;
    var t := Located(w, n);
    var k := Locate(w.db.transactions, data.id).value;
    var settled := SettleIn(w.db, t.id, data, status);
    var o1 := Reconcile(w, env, n, now1, dev);
    PaidProvisioning(w, env, n, now1, dev, sub, pkg, payer, c);
    PaidSubscriptionCalls(w, env, n, now1, dev, sub, pkg, payer, c);
    var comment := AccountComment(payer.name, pkg.name);
    var w1 := o1.world;
    assert w1.db == settled || w1.db == Activate(settled, sub, t.userId, now1);
    assert w1.db.transactions == settled.transactions;

    // The second delivery gets past the gate and finds the same row.
    LocateAfterSettle(w.db.transactions, t.id, data, status, data.id);
    assert Locate(w1.db.transactions, data.id) == Some(k);
    var t1 := Located(w1, n);
    assert t1 == Settle(t, data, status);
    assert Accepted(w1, env, n);

    // It finds the same subscription credentials, package and payer name.
    var sid := t.subscriptionId.value;
    RowsSurviveActivation(settled, w1.db, sub, t.userId, now1, sid, pkg, payer);
    var sub2 := FindSubscription(w1.db, sid).value;
    var payer2 := FindUser(w1.db, t1.userId).value;
    assert Mikrotik.GetConnection(w1.router, w1.db.configs).0 == Ok(c);

    // Its plan is the first delivery's plan.
    PaidSubscriptionCalls(w1, env, n, now2, dev, sub2, pkg, payer2, c);
    assert AccountComment(payer2.name, pkg.name) == comment;
    assert ProvisioningPlan(c, sub2, pkg, comment) == ProvisioningPlan(c, sub, pkg, comment);
  }

  /** Whether or not the subscription was activated, the rows a paid
      notification reads are found again, with the same credentials,
      package and payer name. */
  lemma RowsSurviveActivation(db: Db, db1: Db, sub: Subscription, payerId: Id, now: Millis, sid: Id,
                              pkg: Package, payer: User)
    requires forall i, j :: 0 <= i < j < |db.subscriptions| ==> db.subscriptions[i].id != db.subscriptions[j].id
    requires forall i, j :: 0 <= i < j < |db.users| ==> db.users[i].id != db.users[j].id
    requires db1 == db || db1 == Activate(db, sub, payerId, now)
    requires FindSubscription(db, sid) == Some(sub)
    requires FindPackage(db, sub.packageId) == Some(pkg)
    requires FindUser(db, payerId) == Some(payer)
    ensures var s1 := FindSubscription(db1, sid);
            && s1.Some? && s1.value.mikrotikName == sub.mikrotikName
            && s1.value.mikrotikPassword == sub.mikrotikPassword && s1.value.packageId == sub.packageId
    ensures FindPackage(db1, sub.packageId) == Some(pkg)
    ensures FindUser(db1, payerId).Some? && FindUser(db1, payerId).value.name == payer.name
  {
    if db1 != db {
      SubscriptionAfterActivate(db, sub, payerId, now, sid, sub);
      PayerAfterActivate(db, sub, payerId, now, payer);
    }
  }
}

=== FILE: middleware.dfy ===
/** The admin area's gate (`middleware.ts`). The site is wrapped in the
    authentication library's `withAuth`: for a request whose path the
    `matcher` selects, the `authorized` callback decides first; a request it
    refuses is sent to the library's sign-in page, and only a request it
    accepts reaches the `middleware` function, which has redirects of its
    own. Tokens are those the `jwt` callback writes. */
module AdminGate {
  import opened Base
  import opened Store
  import opened Auth

  const AdminPrefix: string := "/admin"
  const AdminLogin: string := "/admin/login"
  const CustomerLogin: string := "/login"

  /** The library's sign-in page when its own options name none (the
      callback URL it appends is not modelled). */
  const SignInPage: string := "/api/auth/signin"

  predicate IsAdminPage(path: string) { StartsWith(path, AdminPrefix) }
  predicate IsAuthPage(path: string) { StartsWith(path, AdminLogin) }

  /** The session has a token whose role is ADMIN. */
  predicate IsAdmin(token: Option<Token>) {
    token.Some? && token.value.role == Some(Admin)
  }

  /** The `authorized` callback. */
  function Authorized(token: Option<Token>, path: string): (ok: bool)
    ensures !IsAdminPage(path) ==> ok
    ensures IsAuthPage(path) ==> ok
    ensures IsAdminPage(path) && !IsAuthPage(path) ==> (ok <==> IsAdmin(token))
  {
    if IsAdminPage(path) && !IsAuthPage(path) then IsAdmin(token) else true
  }

  datatype Verdict = Next | Redirect(location: string)

  /** The `middleware` function. */
  function Middleware(token: Option<Token>, path: string): (v: Verdict)
    ensures IsAdminPage(path) && !IsAuthPage(path) && token.None? ==> v == Redirect(AdminLogin)
    ensures IsAdminPage(path) && !IsAuthPage(path) && token.Some? && token.value.role != Some(Admin) ==>
              v == Redirect(CustomerLogin)
    ensures v == Next <==> !IsAdminPage(path) || IsAuthPage(path) || IsAdmin(token)
  {
    if IsAdminPage(path) && !IsAuthPage(path) then
      if token.None? then Redirect(AdminLogin)
      else if token.value.role != Some(Admin) then Redirect(CustomerLogin)
      else Next
    else Next
  }

  /** The paths the gate runs on: `/admin` itself and everything below
      it. */
  predicate Matched(path: string) {
    path == AdminPrefix || StartsWith(path, AdminPrefix + "/")
  }

  /** The whole gate: what a request to `path` meets. */
  function Gate(token: Option<Token>, path: string): (v: Verdict)
    ensures !Matched(path) ==> v == Next
    ensures Matched(path) && !Authorized(token, path) ==> v == Redirect(SignInPage)
    ensures Matched(path) && Authorized(token, path) ==> v == Middleware(token, path)
  {
    if !Matched(path) then Next
    else if !Authorized(token, path) then Redirect(SignInPage)
    else Middleware(token, path)
  }

  lemma MatchedIsAdminPage(path: string)
    requires Matched(path)
    ensures IsAdminPage(path)
  {
    if path != AdminPrefix {
      assert path[..|AdminPrefix|] == (path[..|AdminPrefix| + 1])[..|AdminPrefix|];
    }
  }

  /** Behind `authorized`, the middleware's own redirects never fire: every
      request either passes or goes to the sign-in page, and it passes
      exactly when it is outside the matched area, is the login page, or
      carries an administrator's token. */
  lemma GateDecidesByAuthorized(token: Option<Token>, path: string)
    ensures Gate(token, path) == Next || Gate(token, path) == Redirect(SignInPage)
    ensures Gate(token, path) == Next <==> !Matched(path) || IsAuthPage(path) || IsAdmin(token)
  {
    if Matched(path) {
      MatchedIsAdminPage(path);
    }
  }

  /** A customer's token never opens an admin page other than the login
      page. */
  lemma CustomerKeptOut(token: Token, path: string)
    requires token.role != Some(Admin)
    requires Matched(path) && !IsAuthPage(path)
    ensures Gate(Some(token), path) == Redirect(SignInPage)
  {
    MatchedIsAdminPage(path);
  }
}

=== FILE: mikrotik.dfy ===
/** The router client (`src/lib/mikrotik.ts`): the REST base URL, the
    request rule (a status outside 200-299 throws), the account operations
    the handlers use, the batch create and the database-to-router sync, and
    the process-wide cached connection. The router is an oracle from (call
    index, request) to reply, and every operation returns the log of the
    requests it sent. */
module Mikrotik {
  import opened Base
  import opened Store

  const NoActiveConfigMessage: string := "No active Mikrotik configuration found"

  const SecretPath: string := "/ppp/secret"
  const PppActivePath: string := "/ppp/active"
  const HotspotUserPath: string := "/ip/hotspot/user"
  const SystemResourcePath: string := "/system/resource"

  /** A constructed `MikrotikAPI`: the configuration it was built from and
      its base URL. */
  datatype Client = Client(config: RouterConfig, baseUrl: string)

  /** The constructor: `<http|https>://<host>:<port>`. */
  function NewClient(config: RouterConfig): (c: Client)
    ensures c.config == config
    ensures c.baseUrl == (if config.useSSL then "https" else "http") + "://" + config.host + ":" + IntToDecimal(config.port)
  {
    Client(config, (if config.useSSL then "https" else "http") + "://" + config.host + ":" + IntToDecimal(config.port))
  }

  /** The base URL is an `https` URL exactly when the configuration asks for
      SSL, and it names the configured host. */
  lemma BaseUrlScheme(config: RouterConfig)
    ensures StartsWith(NewClient(config).baseUrl, "https://") <==> config.useSSL
    ensures StartsWith(NewClient(config).baseUrl, "http://") <==> !config.useSSL
    ensures var scheme := if config.useSSL then "https://" else "http://";
            NewClient(config).baseUrl[|scheme|..|scheme| + |config.host|] == config.host
  {
    var scheme := if config.useSSL then "https://" else "http://";
    var rest := config.host + ":" + IntToDecimal(config.port);
    assert rest[..|config.host|] == config.host;
    SchemeThenRest(scheme, rest, |config.host|);
    var url := NewClient(config).baseUrl;
    var word := if config.useSSL then "https" else "http";
    assert word + "://" == scheme;
    Regroup(word, "://", config.host, ":", IntToDecimal(config.port));
    if config.useSSL {
      assert url[4] == 's' && "http://"[4] == ':';
    } else {
      assert url[4] == ':' && "https://"[4] == 's';
    }
  }

  lemma Regroup(a: string, b: string, c: string, d: string, e: string)
    ensures a + b + c + d + e == (a + b) + (c + d + e)
  {
  }

  lemma SchemeThenRest(scheme: string, rest: string, n: nat)
    requires n <= |rest|
    ensures StartsWith(scheme + rest, scheme)
    ensures forall i :: 0 <= i < |scheme| ==> (scheme + rest)[i] == scheme[i]
    ensures (scheme + rest)[|scheme|..|scheme| + n] == rest[..n]
  {
    assert (scheme + rest)[..|scheme|] == scheme;
  }

  /** Every request goes to `<baseUrl>/rest<path>`. */
  function RequestUrl(c: Client, path: string): (url: string)
    ensures StartsWith(url, c.baseUrl + "/rest")
    ensures url[|c.baseUrl| + 5..] == path
  {
    var url := c.baseUrl + "/rest" + path;
    assert url[..|c.baseUrl + "/rest"|] == c.baseUrl + "/rest";
    url
  }

  // ---------------------------------------------------------------------
  // The router as an oracle
  // ---------------------------------------------------------------------

  datatype Verb = Get | Post | Patch | Delete

  /** The JSON bodies the client sends. */
  datatype Body =
    | NoBody
    | NewSecret(name: string, password: string, service: string, profile: string, comment: Option<string>)
    | NewHotspotUser(name: string, password: string, profile: string, comment: Option<string>)
    | SecretPatch(password: string, profile: string, disabled: bool)

  /** One HTTP request, with the Basic-auth credentials it carries. */
  datatype Request = Request(verb: Verb, url: string, username: string, password: string, body: Body)

  /** An account as the router lists it; `rid` is its `.id`. */
  datatype RouterUser = RouterUser(rid: string, name: string, profile: string, disabled: bool)

  /** The decoded JSON of a reply: a list of records, one record, or
      anything else. */
  datatype Payload = UserList(users: seq<RouterUser>) | Record(user: RouterUser) | OtherJson

  datatype Reply =
    | Reply(status: int, statusText: string, payload: Payload)
    | Thrown(error: Error)

  /** The remote router: the reply to the n-th request of a handler. */
  type Device = (nat, Request) -> Reply

  predicate IsOkStatus(status: int) { 200 <= status <= 299 }

  function ApiErrorMessage(status: int, statusText: string): string {
    "Mikrotik API error: " + IntToDecimal(status) + " " + statusText
  }

  /** The message of the error `makeRequest` throws for a reply that is not
      2xx: the transport error's own message, or the API error text. */
  function FailureMessage(reply: Reply): (m: string)
    ensures reply.Thrown? ==> m == reply.error.message
    ensures reply.Reply? ==> StartsWith(m, "Mikrotik API error: ")
  {
    match reply
    case Thrown(e) => e.message
    case Reply(status, text, _) => ApiErrorMessage(status, text)
  }

  /** `makeRequest(path, method, data)`: sends one request (appended to
      `log`, the device answering it as the `|log|`-th call); a transport
      error is rethrown, a non-2xx status throws `Mikrotik API error:
      <status> <text>`, and otherwise the decoded body is returned. */
  function MakeRequest(dev: Device, log: seq<Request>, c: Client, path: string, verb: Verb, body: Body)
    : (r: (Result<Payload, Error>, seq<Request>))
    ensures |r.1| == |log| + 1 && r.1[..|log|] == log
    ensures r.1[|log|] == Request(verb, RequestUrl(c, path), c.config.username, c.config.password, body)
    ensures r.0.Ok? <==> dev(|log|, r.1[|log|]).Reply? && IsOkStatus(dev(|log|, r.1[|log|]).status)
    ensures r.0.Ok? ==> r.0.value == dev(|log|, r.1[|log|]).payload
    ensures dev(|log|, r.1[|log|]).Thrown? ==> r.0 == Err(dev(|log|, r.1[|log|]).error)
    ensures dev(|log|, r.1[|log|]).Reply? && !IsOkStatus(dev(|log|, r.1[|log|]).status) ==>
              r.0 == Err(Error("Error", ApiErrorMessage(dev(|log|, r.1[|log|]).status, dev(|log|, r.1[|log|]).statusText)))
  {
    var request := Request(verb, RequestUrl(c, path), c.config.username, c.config.password, body);
    var log' := log + [request];
    assert log'[..|log|] == log;
    match dev(|log|, request)
    case Thrown(e) => (Err(e), log')
    case Reply(status, text, payload) =>
      if IsOkStatus(status) then (Ok(payload), log')
      else (Err(Error("Error", ApiErrorMessage(status, text))), log')
  }

  /** `testConnection()`: true exactly when reading the system resource
      succeeds; an error is turned into false instead of being thrown. */
  function TestConnection(dev: Device, log: seq<Request>, c: Client): (r: (bool, seq<Request>))
    ensures |r.1| == |log| + 1
    ensures r.1[|log|] == Request(Get, RequestUrl(c, SystemResourcePath), c.config.username, c.config.password, NoBody)
    ensures r.0 <==> dev(|log|, r.1[|log|]).Reply? && IsOkStatus(dev(|log|, r.1[|log|]).status)
  {
    var (res, log') := MakeRequest(dev, log, c, SystemResourcePath, Get, NoBody);
    (res.Ok?, log')
  }

  function GetPppoeUsers(dev: Device, log: seq<Request>, c: Client): (Result<Payload, Error>, seq<Request>) {
    MakeRequest(dev, log, c, SecretPath, Get, NoBody)
  }

  function GetHotspotUsers(dev: Device, log: seq<Request>, c: Client): (Result<Payload, Error>, seq<Request>) {
    MakeRequest(dev, log, c, HotspotUserPath, Get, NoBody)
  }

  function GetPppoeActive(dev: Device, log: seq<Request>, c: Client): (Result<Payload, Error>, seq<Request>) {
    MakeRequest(dev, log, c, PppActivePath, Get, NoBody)
  }

  /** The account a PPPoE create sends. */
  datatype SecretSpec = SecretSpec(name: string, password: string, service: string, profile: string, comment: Option<string>)

  function SecretBody(u: SecretSpec): Body {
    NewSecret(u.name, u.password, u.service, u.profile, u.comment)
  }

  function CreatePppoeUser(dev: Device, log: seq<Request>, c: Client, u: SecretSpec): (Result<Payload, Error>, seq<Request>) {
    MakeRequest(dev, log, c, SecretPath, Post, SecretBody(u))
  }

  function CreateHotspotUser(dev: Device, log: seq<Request>, c: Client, name: string, password: string,
                             profile: string, comment: Option<string>): (Result<Payload, Error>, seq<Request>) {
    MakeRequest(dev, log, c, HotspotUserPath, Post, NewHotspotUser(name, password, profile, comment))
  }

  function UpdatePppoeUser(dev: Device, log: seq<Request>, c: Client, rid: string, patch: Body): (Result<Payload, Error>, seq<Request>) {
    MakeRequest(dev, log, c, SecretPath + "/" + rid, Patch, patch)
  }

  /** The path `getLogs(topics)` reads: with topics (even an empty array)
      `/log?topics=` and the topics joined by commas, without them `/log`. */
  function LogsPath(topics: Option<seq<string>>): (path: string)
    ensures topics.None? ==> path == "/log"
    ensures topics.Some? ==> StartsWith(path, "/log?topics=") && path[12..] == Join(topics.value, ",")
  {
    if topics.Some? then
      var path := "/log?topics=" + Join(topics.value, ",");
      assert path[..12] == "/log?topics=";
      path
    else "/log"
  }

  /** The path `getInterfaceTraffic(name)` reads; an empty name counts as
      no name. */
  function TrafficPath(interfaceName: Option<string>): (path: string)
    ensures !Truthy(interfaceName) ==> path == "/interface/traffic"
    ensures Truthy(interfaceName) ==> path == "/interface/traffic?id=" + interfaceName.value
  {
    if Truthy(interfaceName) then "/interface/traffic?id=" + interfaceName.value else "/interface/traffic"
  }

  // ---------------------------------------------------------------------
  // Batch create
  // ---------------------------------------------------------------------

  /** One result of `createMultipleUsers`: the created record, or the error
      message and the name of the account that failed. */
  datatype BatchEntry = Created(payload: Payload) | CreateFailed(error: string, user: string)

  /** The request the batch sends for one account. */
  function CreateRequestFor(c: Client, u: SecretSpec): Request {
    Request(Post, RequestUrl(c, SecretPath), c.config.username, c.config.password, SecretBody(u))
  }

  /** `createMultipleUsers(users)`: one create per account, in order, and
      exactly one result per account at the same position; a failed create
      becomes an error entry naming that account and the batch goes on. */
  method CreateMultipleUsers(dev: Device, log0: seq<Request>, c: Client, users: seq<SecretSpec>)
    returns (results: seq<BatchEntry>, log: seq<Request>)
    ensures |results| == |users|
    ensures |log| == |log0| + |users| && log[..|log0|] == log0
    ensures forall i :: 0 <= i < |users| ==> log[|log0| + i] == CreateRequestFor(c, users[i])
    ensures forall i :: 0 <= i < |users| ==>
              (results[i].Created? <==> dev(|log0| + i, log[|log0| + i]).Reply? && IsOkStatus(dev(|log0| + i, log[|log0| + i]).status))
    ensures forall i :: 0 <= i < |users| && results[i].CreateFailed? ==> results[i].user == users[i].name
    ensures forall i :: 0 <= i < |users| && results[i].Created? ==> results[i].payload == dev(|log0| + i, log[|log0| + i]).payload
    ensures forall i :: 0 <= i < |users| && results[i].CreateFailed? ==>
              results[i].error == FailureMessage(dev(|log0| + i, log[|log0| + i]))
  {
    results := [];
    log := log0;
    var k := 0;
    while k < |users|
      invariant 0 <= k <= |users|
      invariant |results| == k
      invariant |log| == |log0| + k && log[..|log0|] == log0
      invariant forall i :: 0 <= i < k ==> log[|log0| + i] == CreateRequestFor(c, users[i])
      invariant forall i :: 0 <= i < k ==>
                  (results[i].Created? <==> dev(|log0| + i, log[|log0| + i]).Reply? && IsOkStatus(dev(|log0| + i, log[|log0| + i]).status))
      invariant forall i :: 0 <= i < k && results[i].CreateFailed? ==> results[i].user == users[i].name
      invariant forall i :: 0 <= i < k && results[i].Created? ==> results[i].payload == dev(|log0| + i, log[|log0| + i]).payload
      invariant forall i :: 0 <= i < k && results[i].CreateFailed? ==>
                  results[i].error == FailureMessage(dev(|log0| + i, log[|log0| + i]))
    {
      var (res, log') := CreatePppoeUser(dev, log, c, users[k]);
      assert log'[..|log|] == log;
      match res {
        case Ok(p) => results := results + [Created(p)];
        case Err(e) => results := results + [CreateFailed(e.message, users[k].name)];
      }
      log := log';
      k := k + 1;
    }
  }

  // ---------------------------------------------------------------------
  // Sync from the database
  // ---------------------------------------------------------------------

  /** One account `syncUsers` pushes to the router. */
  datatype SyncSpec = SyncSpec(mikrotikName: string, mikrotikPassword: string, profile: string, disabled: bool)

  function SyncErrorMessage(name: string, message: string): string {
    "Failed to sync user " + name + ": " + message
  }

  const NotAListMessage: string := "existingUsers.find is not a function"

  /** One step of `syncUsers`: list the PPPoE secrets; if one has the
      account's name, patch its password, profile and disabled flag,
      otherwise create it with service `pppoe`. The result is `None` on
      success and the error message otherwise. */
  function SyncOne(dev: Device, log: seq<Request>, c: Client, u: SyncSpec): (r: (Option<string>, seq<Request>))
    ensures |log| + 1 <= |r.1| <= |log| + 2 && r.1[..|log|] == log
    ensures r.1[|log|] == Request(Get, RequestUrl(c, SecretPath), c.config.username, c.config.password, NoBody)
    ensures |r.1| == |log| + 2 <==>
              var listing := dev(|log|, r.1[|log|]);
              listing.Reply? && IsOkStatus(listing.status) && listing.payload.UserList?
    ensures |r.1| == |log| + 2 ==>
              var found := First(dev(|log|, r.1[|log|]).payload.users, (x: RouterUser) => x.name == u.mikrotikName);
              && (found.Some? ==>
                    r.1[|log| + 1] == Request(Patch, RequestUrl(c, SecretPath + "/" + found.value.rid), c.config.username,
                                              c.config.password, SecretPatch(u.mikrotikPassword, u.profile, u.disabled)))
              && (found.None? ==>
                    r.1[|log| + 1] == CreateRequestFor(c, SecretSpec(u.mikrotikName, u.mikrotikPassword, "pppoe", u.profile, None)))
    ensures r.0.None? <==>
              |r.1| == |log| + 2 && dev(|log| + 1, r.1[|log| + 1]).Reply? && IsOkStatus(dev(|log| + 1, r.1[|log| + 1]).status)
  {
    var (listing, log1) := GetPppoeUsers(dev, log, c);
    match listing
    case Err(e) => (Some(e.message), log1)
    case Ok(OtherJson) => (Some(NotAListMessage), log1)
    case Ok(Record(_)) => (Some(NotAListMessage), log1)
    case Ok(UserList(existing)) =>
      var found := First(existing, (x: RouterUser) => x.name == u.mikrotikName);
      var (res, log2) :=
        if found.Some? then
          UpdatePppoeUser(dev, log1, c, found.value.rid, SecretPatch(u.mikrotikPassword, u.profile, u.disabled))
        else
          CreatePppoeUser(dev, log1, c, SecretSpec(u.mikrotikName, u.mikrotikPassword, "pppoe", u.profile, None));
      assert log2[..|log|] == log by {
        assert log2[..|log1|] == log1;
        assert log1[..|log|] == log;
      }
      match res
      case Ok(_) => (None, log2)
      case Err(e) => (Some(e.message), log2)
  }

  /** The running totals of `syncUsers` and the requests sent so far. */
  datatype SyncTally = SyncTally(success: nat, failed: nat, errors: seq<string>, log: seq<Request>)

  /** The tally after one more account: a success is counted, a failure is
      counted and its message recorded, and the step's requests are
      appended. */
  function SyncStep(dev: Device, c: Client, t: SyncTally, u: SyncSpec): (r: SyncTally)
    ensures r.success + r.failed == t.success + t.failed + 1
    ensures |r.errors| - |t.errors| == r.failed - t.failed
    ensures forall e :: e in r.errors ==> e in t.errors || StartsWith(e, "Failed to sync user ")
    ensures |t.log| + 1 <= |r.log| <= |t.log| + 2 && r.log[..|t.log|] == t.log
  {
    var (outcome, log) := SyncOne(dev, t.log, c, u);
    match outcome
    case None => t.(success := t.success + 1, log := log)
    case Some(message) =>
      var line := SyncErrorMessage(u.mikrotikName, message);
      assert line[..20] == "Failed to sync user ";
      t.(failed := t.failed + 1, errors := t.errors + [line], log := log)
  }

  /** The reference definition of the loop: `SyncOne` for each account in
      turn, the router's replies threaded through the growing log. */
  function SyncFrom(dev: Device, c: Client, t: SyncTally, users: seq<SyncSpec>): (r: SyncTally)
    decreases |users|
  {
    if |users| == 0 then t else SyncFrom(dev, c, SyncStep(dev, c, t, users[0]), users[1..])
  }

  /** `syncUsers(users)`: the totals, messages and requests are exactly
      those of running `SyncOne` on every account in order; successes and
      failures add up to the number of accounts, there is one message per
      failure, and each account costs one or two requests. */
  method SyncUsers(dev: Device, log0: seq<Request>, c: Client, users: seq<SyncSpec>)
    returns (success: nat, failed: nat, errors: seq<string>, log: seq<Request>)
    ensures SyncTally(success, failed, errors, log) == SyncFrom(dev, c, SyncTally(0, 0, [], log0), users)
    ensures success + failed == |users|
    ensures |errors| == failed
    ensures forall e :: e in errors ==> StartsWith(e, "Failed to sync user ")
    ensures |log0| + |users| <= |log| <= |log0| + 2 * |users| && log[..|log0|] == log0
  {
    success, failed, errors, log := 0, 0, [], log0;
    var k := 0;
    while k < |users|
      invariant 0 <= k <= |users|
      invariant SyncFrom(dev, c, SyncTally(success, failed, errors, log), users[k..])
                  == SyncFrom(dev, c, SyncTally(0, 0, [], log0), users)
      invariant success + failed == k
      invariant |errors| == failed
      invariant forall e :: e in errors ==> StartsWith(e, "Failed to sync user ")
      invariant |log0| + k <= |log| <= |log0| + 2 * k && log[..|log0|] == log0
    {
      var t := SyncStep(dev, c, SyncTally(success, failed, errors, log), users[k]);
      assert t.log[..|log0|] == log0 by {
        assert t.log[..|log|] == log;
      }
      assert users[k..][1..] == users[k + 1..];
      success, failed, errors, log := t.success, t.failed, t.errors, t.log;
      k := k + 1;
    }
    assert users[k..] == [];
  }

  // ---------------------------------------------------------------------
  // The cached connection
  // ---------------------------------------------------------------------

  /** The first active configuration in table order, as the store's
      first-match lookup returns it. */
  function ActiveConfig(configs: seq<RouterConfig>): (r: Option<RouterConfig>)
    ensures r.Some? ==> r.value in configs && r.value.isActive
    ensures r.Some? ==>
              exists i :: 0 <= i < |configs| && configs[i] == r.value && forall j :: 0 <= j < i ==> !configs[j].isActive
    ensures r.None? <==> forall k :: k in configs ==> !k.isActive
  {
    FirstIsEarliest(configs, (k: RouterConfig) => k.isActive);
    First(configs, (k: RouterConfig) => k.isActive)
  }

  /** `getMikrotikConnection()`: the cached client when there is one, without
      reading the configurations; otherwise a client for the first active
      configuration, which becomes the cached one, or the `No active
      Mikrotik configuration found` error with nothing cached. */
  function GetConnection(cache: Option<Client>, configs: seq<RouterConfig>): (r: (Result<Client, Error>, Option<Client>))
    ensures cache.Some? ==> r.0 == Ok(cache.value) && r.1 == cache
    ensures cache.None? && ActiveConfig(configs).None? ==>
              r.0.Err? && r.0.error.message == NoActiveConfigMessage && r.1.None?
    ensures cache.None? && ActiveConfig(configs).Some? ==>
              r.0 == Ok(NewClient(ActiveConfig(configs).value)) && r.1 == Some(r.0.value)
    ensures cache.None? && r.0.Ok? ==>
              exists i :: 0 <= i < |configs| && configs[i].isActive && r.0.value == NewClient(configs[i])
                          && forall j :: 0 <= j < i ==> !configs[j].isActive
  {
    if cache.Some? then (Ok(cache.value), cache)
    else
      match ActiveConfig(configs)
      case None => (Err(Error("Error", NoActiveConfigMessage)), None)
      case Some(config) =>
        var c := NewClient(config);
        (Ok(c), Some(c))
  }

  /** `resetMikrotikConnection()`: forget the cached client. */
  function ResetConnection(): Option<Client> {
    None
  }

  /** Once a connection is cached, every later call returns that same client
      whatever the configurations have become, and only a reset makes the
      next call read the configurations again. */
  lemma CachedConnectionIsStable(cache: Option<Client>, before: seq<RouterConfig>, after: seq<RouterConfig>)
    requires GetConnection(cache, before).0.Ok?
    ensures GetConnection(GetConnection(cache, before).1, after) == GetConnection(cache, before)
    ensures GetConnection(ResetConnection(), after).0.Ok? <==> ActiveConfig(after).Some?
  {
  }
}

=== FILE: mikrotik_users.dfy ===
/** The router-accounts endpoint (`/api/mikrotik/users`): lists the
    router's PPPoE secrets, hotspot users or active sessions, and creates
    one account, through the cached router client. Router failures are
    sorted into HTTP statuses by what their message says. */
module RouterUsers {
  import opened Base
  import opened Store
  import opened Runtime
  import Mikrotik

  const NotConfiguredError: string := "Mikrotik not configured"
  const NotConfiguredMessage: string :=
    "No active Mikrotik configuration found. Please configure Mikrotik settings in the admin panel."
  const NotConfiguredCode: string := "MIKROTIK_NOT_CONFIGURED"
  const ConnectionFailedError: string := "Mikrotik connection failed"
  const ConnectionFailedMessage: string :=
    "Unable to connect to Mikrotik device. Please check your configuration and network connectivity."
  const ConnectionFailedCode: string := "MIKROTIK_CONNECTION_FAILED"
  const AuthFailedError: string := "Mikrotik authentication failed"
  const AuthFailedMessage: string := "Invalid Mikrotik credentials. Please check your username and password."
  const AuthFailedCode: string := "MIKROTIK_AUTH_FAILED"
  const FetchFailedError: string := "Failed to fetch Mikrotik users"
  const UnexpectedMessage: string := "An unexpected error occurred while fetching users."
  const RouterErrorCode: string := "MIKROTIK_ERROR"
  const InvalidListTypeMessage: string := "Invalid type. Use pppoe, hotspot, or active"
  const InvalidCreateTypeMessage: string := "Invalid type. Use pppoe or hotspot"
  const MissingFieldsMessage: string := "Name, password, and profile are required"
  const CreateFallbackMessage: string := "Failed to create user"
  const DefaultType: string := "pppoe"

  /** The phrases that mark a failure to reach the router. */
  predicate Unreachable(e: Error) {
    || Contains(e.message, "Connection refused")
    || Contains(e.message, "Connection timed out")
    || Contains(e.message, "Host/hostname not found")
    || e.name == "TimeoutError"
    || e.name == "AbortError"
  }

  /** The responses of this endpoint. */
  datatype Answer =
    /** `{ success: true, data, count }` or `{ success: true, message, data }` */
    | Served(status: nat, data: Mikrotik.Payload)
    /** `{ success: false, error, message, code }` */
    | Problem(status: nat, error: string, message: string, code: string)
    /** `{ error }` */
    | Rejected(status: nat, error: string)

  /** The GET handler's catch block: a missing configuration is 400, an
      unreachable router 503, refused credentials 401, anything else 500,
      checked in that order. */
  function Classify(e: Error): (a: Answer)
    ensures a.Problem?
    ensures a.status == 400 <==> Contains(e.message, Mikrotik.NoActiveConfigMessage)
    ensures a.status == 503 <==> !Contains(e.message, Mikrotik.NoActiveConfigMessage) && Unreachable(e)
    ensures a.status == 401 <==>
              !Contains(e.message, Mikrotik.NoActiveConfigMessage) && !Unreachable(e)
              && Contains(e.message, "Authentication failed")
    ensures a.status in {400, 401, 500, 503}
    ensures a.status == 500 ==> a.message == OrElse(Some(e.message), UnexpectedMessage) && a.code == RouterErrorCode
  {
    if Contains(e.message, Mikrotik.NoActiveConfigMessage) then
      Problem(400, NotConfiguredError, NotConfiguredMessage, NotConfiguredCode)
    else if Unreachable(e) then
      Problem(503, ConnectionFailedError, ConnectionFailedMessage, ConnectionFailedCode)
    else if Contains(e.message, "Authentication failed") then
      Problem(401, AuthFailedError, AuthFailedMessage, AuthFailedCode)
    else
      Problem(500, FetchFailedError, OrElse(Some(e.message), UnexpectedMessage), RouterErrorCode)
  }

  /** A router that answers 401 itself produces `Mikrotik API error: 401
      Unauthorized`, which names none of the phrases the handler looks for:
      the refusal is reported as a 500, not as failed authentication. */
  lemma RouterRefusalIsUnexpected()
    ensures Classify(Error("Error", Mikrotik.ApiErrorMessage(401, "Unauthorized"))).status == 500
  {
    RefusalText();
    RefusalNamesNoPhrase();
  }

  const RefusalMessage: string := "Mikrotik API error: 401 Unauthorized"

  lemma RefusalText()
    ensures Mikrotik.ApiErrorMessage(401, "Unauthorized") == RefusalMessage
  {
    assert NatToDecimal(401) == "401" by {
      assert NatToDecimal(4) == "4";
      assert NatToDecimal(40) == "40";
    }
  }

  lemma RefusalNamesNoPhrase()
    ensures !Contains(RefusalMessage, Mikrotik.NoActiveConfigMessage)
    ensures !Unreachable(Error("Error", RefusalMessage))
    ensures !Contains(RefusalMessage, "Authentication failed")
  {
    assert 'N' !in RefusalMessage;
    Absent(RefusalMessage, Mikrotik.NoActiveConfigMessage);
    RefusalIsNoConnectionFailure();
    RefusalIsNoAuthFailure();
  }

  lemma RefusalIsNoConnectionFailure()
    ensures !Unreachable(Error("Error", RefusalMessage))
  {
    assert 'C' !in RefusalMessage && 'H' !in RefusalMessage;
    Absent(RefusalMessage, "Connection refused");
    Absent(RefusalMessage, "Connection timed out");
    Absent(RefusalMessage, "Host/hostname not found");
  }

  lemma RefusalIsNoAuthFailure()
    ensures !Contains(RefusalMessage, "Authentication failed")
  {
    RefusalHasOneA();
    LoneFirstChar("Mikrotik ", "PI error: 401 Unauthorized", "Authentication failed");
  }

  /** The refusal has exactly one `A`, the one in `API`. */
  lemma RefusalHasOneA()
    ensures RefusalMessage == "Mikrotik " + "A" + "PI error: 401 Unauthorized"
    ensures 'A' !in "Mikrotik " && 'A' !in "PI error: 401 Unauthorized"
  {
  }

  lemma LoneFirstChar(before: string, after: string, sub: string)
    requires |sub| >= 2 && |after| > 0 && sub[0] !in before && sub[0] !in after && after[0] != sub[1]
    requires sub[0] == 'A'
    ensures !Contains(before + "A" + after, sub)
  {
    var s := before + "A" + after;
    var k := |before|;
    assert s[..k] == before && s[k + 1..] == after;
    AbsentAfterLone(s, sub, k);
  }

  /** A string without the first character of `sub` does not contain it. */
  lemma Absent(s: string, sub: string)
    requires |sub| > 0 && sub[0] !in s
    ensures !Contains(s, sub)
  {
    forall i | 0 <= i && i + |sub| <= |s| ensures !OccursAt(s, sub, i) {
      assert s[i..i + |sub|][0] == s[i];
    }
  }

  /** A string whose only occurrence of the first character of `sub`, at
      `k`, is followed by something other than its second, does not contain
      `sub`. */
  lemma AbsentAfterLone(s: string, sub: string, k: nat)
    requires |sub| >= 2 && k + 1 < |s|
    requires sub[0] !in s[..k] && sub[0] !in s[k + 1..] && s[k + 1] != sub[1]
    ensures !Contains(s, sub)
  {
    forall i | 0 <= i && i + |sub| <= |s| ensures !OccursAt(s, sub, i) {
      assert s[i..i + |sub|][0] == s[i];
      if i < k {
        assert s[i] == s[..k][i];
      } else if i == k {
        assert s[i..i + |sub|][1] == s[k + 1];
      } else {
        assert s[i] == s[k + 1..][i - k - 1];
      }
    }
  }

  // ---------------------------------------------------------------------
  // GET
  // ---------------------------------------------------------------------

  datatype Outcome = Outcome(answer: Answer, world: World, calls: seq<Mikrotik.Request>)

  /** The router path each listing type reads. */
  function ListingPath(kind: string): Option<string> {
    if kind == "pppoe" then Some(Mikrotik.SecretPath)
    else if kind == "hotspot" then Some(Mikrotik.HotspotUserPath)
    else if kind == "active" then Some(Mikrotik.PppActivePath)
    else None
  }

  /** The GET handler; `kind` is the `type` query parameter. */
  function List(w: World, dev: Mikrotik.Device, kind: Option<string>): (o: Outcome)
    ensures o.world.db == w.db && o.world.gateway == w.gateway
    ensures |o.calls| <= 1
    ensures Mikrotik.ActiveConfig(w.db.configs).None? ==>
              o == Outcome(Problem(400, NotConfiguredError, NotConfiguredMessage, NotConfiguredCode), w, [])
    ensures Mikrotik.ActiveConfig(w.db.configs).Some? && ListingPath(OrElse(kind, DefaultType)).None? ==>
              o.answer == Rejected(400, InvalidListTypeMessage) && o.calls == []
    ensures o.calls != [] <==>
              Mikrotik.ActiveConfig(w.db.configs).Some? && ListingPath(OrElse(kind, DefaultType)).Some?
    ensures o.calls != [] ==>
              var c := Mikrotik.GetConnection(w.router, w.db.configs).0.value;
              && o.calls[0] == Mikrotik.Request(Mikrotik.Get, Mikrotik.RequestUrl(c, ListingPath(OrElse(kind, DefaultType)).value),
                                                c.config.username, c.config.password, Mikrotik.NoBody)
              && o.world.router == Some(c)
              && (o.answer.Served? <==> dev(0, o.calls[0]).Reply? && Mikrotik.IsOkStatus(dev(0, o.calls[0]).status))
    ensures o.calls != [] ==>
              var c := Mikrotik.GetConnection(w.router, w.db.configs).0.value;
              var path := ListingPath(OrElse(kind, DefaultType)).value;
              var reply := Mikrotik.MakeRequest(dev, [], c, path, Mikrotik.Get, Mikrotik.NoBody).0;
              && (reply.Err? ==> o.answer == Classify(reply.error))
              && (reply.Ok? ==> o.answer == Served(200, reply.value))
    ensures Mikrotik.GetConnection(w.router, w.db.configs).0.Err? ==>
              o.answer == Classify(Mikrotik.GetConnection(w.router, w.db.configs).0.error) && o.calls == []
  {
    ConfigMessageClassified();
    if Mikrotik.ActiveConfig(w.db.configs).None? then
      Outcome(Problem(400, NotConfiguredError, NotConfiguredMessage, NotConfiguredCode), w, [])
    else
      var (conn, cache) := Mikrotik.GetConnection(w.router, w.db.configs);
      var w1 := w.(router := cache);
      match conn
      case Err(e) => Outcome(Classify(e), w1, [])
      case Ok(c) =>
        match ListingPath(OrElse(kind, DefaultType))
        case None => Outcome(Rejected(400, InvalidListTypeMessage), w1, [])
        case Some(path) =>
          var (reply, calls) := Mikrotik.MakeRequest(dev, [], c, path, Mikrotik.Get, Mikrotik.NoBody);
          match reply
          case Err(e) => Outcome(Classify(e), w1, calls)
          case Ok(payload) => Outcome(Served(200, payload), w1, calls)
  }

  /** The connection's own failure, a missing active configuration, is
      sorted into the same 400 the handler's first check answers. */
  lemma ConfigMessageClassified()
    ensures Classify(Error("Error", Mikrotik.NoActiveConfigMessage))
              == Problem(400, NotConfiguredError, NotConfiguredMessage, NotConfiguredCode)
  {
    var m := Mikrotik.NoActiveConfigMessage;
    assert OccursAt(m, m, 0) by {
      assert m[0..|m|] == m;
    }
  }

  /** The listing types are exactly `pppoe` (the default, also for an empty
      parameter), `hotspot` and `active`, and each reads its own path. */
  lemma ListingTypes(kind: Option<string>)
    ensures ListingPath(OrElse(kind, DefaultType)).Some? <==>
              !Truthy(kind) || kind.value in {"pppoe", "hotspot", "active"}
    ensures !Truthy(kind) ==> ListingPath(OrElse(kind, DefaultType)) == Some(Mikrotik.SecretPath)
  {
  }

  // ---------------------------------------------------------------------
  // POST
  // ---------------------------------------------------------------------

  /** The body; `service` and `kind` (`type`) default to `pppoe` only when
      absent. */
  datatype AccountForm = AccountForm(
    name: Option<string>,
    password: Option<string>,
    service: Option<string>,
    profile: Option<string>,
    comment: Option<string>,
    kind: Option<string>)

  predicate Complete(f: AccountForm) {
    Truthy(f.name) && Truthy(f.password) && Truthy(f.profile)
  }

  /** The request a valid form sends over the connection `c`, if its type
      is one the handler creates. */
  function CreationFor(c: Mikrotik.Client, f: AccountForm): Option<Mikrotik.Request>
    requires Complete(f)
  {
    var kind := f.kind.GetOr(DefaultType);
    if kind == "pppoe" then
      Some(Mikrotik.Request(Mikrotik.Post, Mikrotik.RequestUrl(c, Mikrotik.SecretPath), c.config.username, c.config.password,
                            Mikrotik.NewSecret(f.name.value, f.password.value, f.service.GetOr(DefaultType), f.profile.value, f.comment)))
    else if kind == "hotspot" then
      Some(Mikrotik.Request(Mikrotik.Post, Mikrotik.RequestUrl(c, Mikrotik.HotspotUserPath), c.config.username, c.config.password,
                            Mikrotik.NewHotspotUser(f.name.value, f.password.value, f.profile.value, f.comment)))
    else None
  }

  /** The POST handler. `body` is the parsed JSON, or the parser's message. */
  function Create(w: World, dev: Mikrotik.Device, body: Result<AccountForm, string>): (o: Outcome)
    ensures o.world.db == w.db && o.world.gateway == w.gateway
    ensures |o.calls| <= 1
    ensures body.Ok? && !Complete(body.value) ==> o == Outcome(Rejected(400, MissingFieldsMessage), w, [])
    ensures o.calls != [] ==>
              && body.Ok? && Complete(body.value) && Mikrotik.GetConnection(w.router, w.db.configs).0.Ok?
              && var c := Mikrotik.GetConnection(w.router, w.db.configs).0.value;
                 && Some(o.calls[0]) == CreationFor(c, body.value)
                 && (o.answer.Served? <==> dev(0, o.calls[0]).Reply? && Mikrotik.IsOkStatus(dev(0, o.calls[0]).status))
                 && (o.answer.Rejected? ==> o.answer.status == 500)
    ensures body.Ok? && Complete(body.value) && Mikrotik.GetConnection(w.router, w.db.configs).0.Ok? ==>
              (o.calls == [] <==> CreationFor(Mikrotik.GetConnection(w.router, w.db.configs).0.value, body.value).None?)
    ensures Mikrotik.GetConnection(w.router, w.db.configs).0.Err? && body.Ok? && Complete(body.value) ==>
              o == Outcome(Rejected(500, Mikrotik.NoActiveConfigMessage), w, [])
    ensures body.Err? ==> o == Outcome(Rejected(500, OrElse(Some(body.error), CreateFallbackMessage)), w, [])
    ensures body.Ok? && Complete(body.value) && Mikrotik.GetConnection(w.router, w.db.configs).0.Ok?
            && body.value.kind.GetOr(DefaultType) !in {"pppoe", "hotspot"} ==>
              o.answer == Rejected(400, InvalidCreateTypeMessage) && o.calls == [] && o.world.db == w.db
  {
    match body
    case Err(m) => Outcome(Rejected(500, OrElse(Some(m), CreateFallbackMessage)), w, [])
    case Ok(f) =>
      if !Complete(f) then Outcome(Rejected(400, MissingFieldsMessage), w, [])
      else
        var (conn, cache) := Mikrotik.GetConnection(w.router, w.db.configs);
        match conn
        case Err(e) => Outcome(Rejected(500, OrElse(Some(e.message), CreateFallbackMessage)), w.(router := cache), [])
        case Ok(c) =>
          var w1 := w.(router := cache);
          var kind := f.kind.GetOr(DefaultType);
          if kind != "pppoe" && kind != "hotspot" then Outcome(Rejected(400, InvalidCreateTypeMessage), w1, [])
          else
            var (reply, calls) :=
              if kind == "pppoe" then
                Mikrotik.CreatePppoeUser(dev, [], c, Mikrotik.SecretSpec(f.name.value, f.password.value,
                                                                         f.service.GetOr(DefaultType), f.profile.value, f.comment))
              else Mikrotik.CreateHotspotUser(dev, [], c, f.name.value, f.password.value, f.profile.value, f.comment);
            match reply
            case Err(e) => Outcome(Rejected(500, OrElse(Some(e.message), CreateFallbackMessage)), w1, calls)
            case Ok(payload) => Outcome(Served(200, payload), w1, calls)
  }
}

=== FILE: packages.dfy ===
/** The package catalogue endpoint (`/api/packages`): listing with optional
    type and availability filters, ordered by type then price, and creating
    a package from a validated, normalised form. */
module Packages {
  import opened Base
  import opened Store
  import opened Http

  const MissingFieldsMessage: string := "Name, type, price, and duration are required"
  const BadTypeMessage: string := "Type must be PPPOE, HOTSPOT, or BOTH"
  const CreatedMessage: string := "Package created successfully"

  /** The stored type name read back: the inverse of `ServiceTypeName`. */
  function ParseServiceType(s: string): (r: Option<ServiceType>)
    ensures r.Some? <==> s in {"PPPOE", "HOTSPOT", "BOTH"}
    ensures r.Some? ==> ServiceTypeName(r.value) == s
  {
    if s == "PPPOE" then Some(Pppoe)
    else if s == "HOTSPOT" then Some(Hotspot)
    else if s == "BOTH" then Some(Both)
    else None
  }

  lemma ServiceTypeRoundTrip(t: ServiceType)
    ensures ParseServiceType(ServiceTypeName(t)) == Some(t)
  {
  }

  // ---------------------------------------------------------------------
  // GET
  // ---------------------------------------------------------------------

  /** The `type` and `active` query parameters (`None` when absent). */
  datatype Query = Query(kind: Option<string>, active: Option<string>)

  /** The `where` object: a type name and an availability flag, each
      optional. */
  datatype Where = Where(kind: Option<string>, isActive: Option<bool>)

  /** The type filter is set for a non-empty type other than `all`, upper-
      cased; the availability filter is set whenever `active` is present,
      and asks for active packages exactly when it is `true`. */
  function BuildWhere(q: Query): (f: Where)
    ensures f.kind.Some? <==> Truthy(q.kind) && q.kind.value != "all"
    ensures f.kind.Some? ==> f.kind.value == ToUpper(q.kind.value)
    ensures f.isActive.Some? <==> q.active.Some?
    ensures f.isActive.Some? ==> (f.isActive.value <==> q.active.value == "true")
  {
    Where(if Truthy(q.kind) && q.kind.value != "all" then Some(ToUpper(q.kind.value)) else None,
          if q.active.Some? then Some(q.active.value == "true") else None)
  }

  predicate Matches(f: Where, p: Package) {
    && (f.kind.Some? ==> ServiceTypeName(p.kind) == f.kind.value)
    && (f.isActive.Some? ==> p.isActive == f.isActive.value)
  }

  /** The position of a type when the type column is sorted ascending:
      `BOTH` < `HOTSPOT` < `PPPOE`. */
  function TypeRank(t: ServiceType): nat {
    match t
    case Both => 0
    case Hotspot => 1
    case Pppoe => 2
  }

  /** Ascending string order. */
  predicate LexLess(a: string, b: string) {
    if |a| == 0 then |b| > 0
    else if |b| == 0 then false
    else if a[0] != b[0] then a[0] < b[0]
    else LexLess(a[1..], b[1..])
  }

  /** The rank orders types as their stored names sort. */
  lemma TypeRankIsNameOrder(a: ServiceType, b: ServiceType)
    ensures TypeRank(a) < TypeRank(b) <==> LexLess(ServiceTypeName(a), ServiceTypeName(b))
  {
    if a == b {
      LexLessIrreflexive(ServiceTypeName(a));
    }
  }

  lemma {:induction false} LexLessIrreflexive(s: string)
    ensures !LexLess(s, s)
  {
    if |s| > 0 {
      LexLessIrreflexive(s[1..]);
    }
  }

  /** The catalogue order: by service type first, then by ascending price. */
  predicate CatalogueOrder(a: Package, b: Package) {
    TypeRank(a.kind) < TypeRank(b.kind) || (a.kind == b.kind && a.price <= b.price)
  }

  /** The packages a `where` object selects, ordered by type and, within a
      type, by price. */
  function Select(db: Db, f: Where): (r: seq<Package>)
    ensures forall p :: p in r <==> p in db.packages && Matches(f, p)
    ensures forall p :: multiset(r)[p] == if Matches(f, p) then multiset(db.packages)[p] else 0
    ensures forall i :: 0 < i < |r| ==> CatalogueOrder(r[i - 1], r[i])
  {
    var selected := Filter(db.packages, (p: Package) => Matches(f, p));
    FilterCounts(db.packages, (p: Package) => Matches(f, p));
    assert Total(CatalogueOrder);
    var r := SortBy(selected, CatalogueOrder);
    assert forall p :: p in r <==> p in selected by {
      forall p ensures p in r <==> p in selected {
        assert p in r <==> p in multiset(r);
        assert p in selected <==> p in multiset(selected);
      }
    }
    r
  }

  /** The listing: exactly the packages the query selects, ordered by type
      and, within a type, by price. */
  function List(db: Db, q: Query): (r: seq<Package>)
    ensures forall p :: p in r <==> p in db.packages && Matches(BuildWhere(q), p)
    ensures forall p :: multiset(r)[p] == if Matches(BuildWhere(q), p) then multiset(db.packages)[p] else 0
    ensures forall i :: 0 < i < |r| ==> CatalogueOrder(r[i - 1], r[i])
  {
    Select(db, BuildWhere(q))
  }

  function ListHandler(db: Db, q: Query): (resp: Response<Package>)
    ensures resp.status == 200 && resp.body.Listing?
    ensures resp.body.items == List(db, q)
  {
    Response(200, Listing(List(db, q)))
  }

  /** `type=all` lists the same packages as no `type` at all. */
  lemma AllMeansNoTypeFilter(db: Db, active: Option<string>)
    ensures List(db, Query(Some("all"), active)) == List(db, Query(None, active))
  {
    assert BuildWhere(Query(Some("all"), active)) == BuildWhere(Query(None, active));
  }

  /** The type filter ignores case (`pppoe` lists what `PPPOE` lists),
      except for the word `all` itself, which is compared before upper-
      casing. */
  lemma TypeFilterIgnoresCase(db: Db, active: Option<string>, kind: string)
    requires kind != "all"
    ensures List(db, Query(Some(kind), active)) == List(db, Query(Some(ToUpper(kind)), active))
  {
    ToUpperIdempotent(kind);
    assert BuildWhere(Query(Some(kind), active)) == BuildWhere(Query(Some(ToUpper(kind)), active));
  }

  /** `type=ALL` is not the word `all`: it becomes a filter on a type named
      `ALL`, which no package has, so nothing is listed. */
  lemma UpperCaseAllListsNothing(db: Db, active: Option<string>)
    ensures List(db, Query(Some("ALL"), active)) == []
  {
    var q := Query(Some("ALL"), active);
    UpperCaseAllIsItself();
    assert BuildWhere(q).kind == Some("ALL");
    forall p: Package ensures !Matches(BuildWhere(q), p) {
      NoTypeNamedAll(p.kind);
    }
    NothingMatchedListsNothing(db, q);
  }

  lemma NoTypeNamedAll(t: ServiceType)
    ensures ServiceTypeName(t) != "ALL"
  {
    assert ServiceTypeName(t)[0] != 'A' || |ServiceTypeName(t)| != 3;
  }

  /** A filter no package meets lists nothing. */
  lemma NothingMatchedListsNothing(db: Db, q: Query)
    requires forall p: Package :: !Matches(BuildWhere(q), p)
    ensures List(db, q) == []
  {
  }

  lemma UpperCaseAllIsItself()
    ensures ToUpper("ALL") == "ALL"
  {
    var s := "ALL";
    var r := ToUpper(s);
    assert !IsLowerLetter(s[0]) && !IsLowerLetter(s[1]) && !IsLowerLetter(s[2]);
    assert r[0] == s[0] && r[1] == s[1] && r[2] == s[2];
  }

  // ---------------------------------------------------------------------
  // POST
  // ---------------------------------------------------------------------

  /** The body; `price` is a JSON number or its text. */
  datatype PackageForm = PackageForm(
    name: Option<string>,
    description: Option<string>,
    kind: Option<string>,
    price: FloatField,
    duration: Numeric,
    dataLimit: Numeric,
    speedLimit: Option<string>,
    mikrotikProfile: Option<string>)

  /** The form names a type and a name and gives a truthy price and
      duration; any other form is refused. */
  predicate Complete(f: PackageForm) {
    Truthy(f.name) && Truthy(f.kind) && FloatTruthy(f.price) && NumericTruthy(f.duration)
  }

  /** The data limit to store: none when the field is falsy, otherwise its
      integer parse; a parse that yields `NaN` is refused by the store
      (`Err`). */
  function DataLimitOf(v: Numeric): (r: Result<Option<int>, string>)
    ensures !NumericTruthy(v) ==> r == Ok(None)
    ensures NumericTruthy(v) && ParseIntOf(v).Some? ==> r == Ok(ParseIntOf(v))
    ensures r.Err? <==> NumericTruthy(v) && ParseIntOf(v).None?
  {
    if !NumericTruthy(v) then Ok(None)
    else match ParseIntOf(v)
      case None => Err(RejectedValueMessage)
      case Some(n) => Ok(Some(n))
  }

  datatype Outcome = Outcome(response: Response<Package>, db: Db)

  /** The POST handler. `body` is the parsed JSON, or the parser's message. */
  function Create(db: Db, body: Result<PackageForm, string>, now: Millis): (o: Outcome)
    ensures o.response.status in {200, 400, 500}
    ensures o.response.status == 400 <==>
              body.Ok? && (!Complete(body.value) || ParseServiceType(ToUpper(body.value.kind.value)).None?)
    ensures o.response.status != 200 ==> o.db == db
    ensures body.Err? ==> o.response == Fail(500, OrElse(Some(body.error), "Failed to create package"))
    ensures body.Ok? && Complete(body.value) && ParseServiceType(ToUpper(body.value.kind.value)).Some? ==>
              var f := body.value;
              var unstorable := ParseFloatOf(f.price).None? || ParseIntOf(f.duration).None? || DataLimitOf(f.dataLimit).Err?;
              && (o.response.status == 500 <==> unstorable)
              && (unstorable ==> o.response == Fail(500, RejectedValueMessage))
    ensures o.response.status == 200 ==> body.Ok? && Complete(body.value) && o.response.body.Done?
    ensures o.response.status == 200 && body.Ok? && o.response.body.Done? ==>
              var f := body.value;
              var p := o.response.body.data;
              && o.db == db.(packages := db.packages + [p], nextId := db.nextId + 1)
              && p.id == db.nextId && p.createdAt == now && p.isActive
              && p.name == f.name.value && ServiceTypeName(p.kind) == ToUpper(f.kind.value)
              && Some(p.price) == ParseFloatOf(f.price) && Some(p.duration) == ParseIntOf(f.duration)
              && (NumericTruthy(f.dataLimit) ==> p.dataLimit == ParseIntOf(f.dataLimit))
              && (!NumericTruthy(f.dataLimit) ==> p.dataLimit.None?)
              && p.description == f.description && p.speedLimit == f.speedLimit
              && p.mikrotikProfile == f.mikrotikProfile
  {
    match body
    case Err(m) => Outcome(Fail(500, OrElse(Some(m), "Failed to create package")), db)
    case Ok(f) =>
      if !Complete(f) then Outcome(Fail(400, MissingFieldsMessage), db)
      else
        match ParseServiceType(ToUpper(f.kind.value))
        case None => Outcome(Fail(400, BadTypeMessage), db)
        case Some(kind) =>
          match (ParseFloatOf(f.price), ParseIntOf(f.duration), DataLimitOf(f.dataLimit))
          case (None, _, _) => Outcome(Fail(500, RejectedValueMessage), db)
          case (_, None, _) => Outcome(Fail(500, RejectedValueMessage), db)
          case (_, _, Err(m)) => Outcome(Fail(500, m), db)
          case (Some(price), Some(duration), Ok(limit)) =>
            var p := Package(db.nextId, f.name.value, f.description, kind, price, duration, limit,
                             f.speedLimit, f.mikrotikProfile, true, now);
            Outcome(Response(200, Done(CreatedMessage, p)), db.(packages := db.packages + [p], nextId := db.nextId + 1))
  }

  /** The type is checked without regard to case: forms that differ only in
      the case of the type get the same answer status and store the same
      type. */
  lemma TypeIgnoresCase(db: Db, f: PackageForm, kind: string, now: Millis)
    requires Truthy(f.kind)
    requires |kind| == |f.kind.value| && forall i :: 0 <= i < |kind| ==> LowerChar(kind[i]) == LowerChar(f.kind.value[i])
    ensures Create(db, Ok(f), now) == Create(db, Ok(f.(kind := Some(kind))), now)
  {
    ToUpperIgnoresCase(f.kind.value, kind);
  }

  /** A price sent as text is read the way `parseFloat` reads it: the
      leading digits count and what follows them is dropped, so "12abc"
      stores 12 and "0", which passes the required-field check because
      non-empty text is truthy, stores 0. */
  lemma TextPriceStoresLeadingNumber(db: Db, f: PackageForm, d: string, junk: string, now: Millis)
    requires |d| > 0 && AllDigits(d)
    requires |junk| == 0 || (!IsDigit(junk[0]) && junk[0] != '.' && junk[0] != 'e' && junk[0] != 'E')
    requires f.price == FloatText(d + junk)
    requires Truthy(f.name) && Truthy(f.kind) && NumericTruthy(f.duration)
    requires ParseServiceType(ToUpper(f.kind.value)).Some?
    requires ParseIntOf(f.duration).Some? && DataLimitOf(f.dataLimit).Ok?
    ensures var o := Create(db, Ok(f), now);
            o.response.status == 200 && o.response.body.Done? && o.response.body.data.price == DecimalValue(d) as real
  {
    FloatTextStopsAtJunk(d, junk);
    ReadableFormIsStored(db, f, DecimalValue(d) as real, now);
  }

  /** A complete form of a known type whose price, duration and data limit
      all read as numbers is stored, with the price read. */
  lemma ReadableFormIsStored(db: Db, f: PackageForm, price: real, now: Millis)
    requires Complete(f) && ParseServiceType(ToUpper(f.kind.value)).Some?
    requires ParseFloatOf(f.price) == Some(price)
    requires ParseIntOf(f.duration).Some? && DataLimitOf(f.dataLimit).Ok?
    ensures var o := Create(db, Ok(f), now);
            o.response.status == 200 && o.response.body.Done? && o.response.body.data.price == price
  {
  }

  /** Text with no numeral at its front reads as `NaN`, which the store
      refuses: 500, nothing written. */
  lemma NonNumericPriceRefused(db: Db, f: PackageForm, s: string, now: Millis)
    requires s != "" && f.price == FloatText(s)
    requires var t := DropWhitespace(s);
             !StartsUnsignedNumeral(t) && !(|t| > 0 && (t[0] == '-' || t[0] == '+') && StartsUnsignedNumeral(t[1..]))
    requires Truthy(f.name) && Truthy(f.kind) && NumericTruthy(f.duration)
    requires ParseServiceType(ToUpper(f.kind.value)).Some?
    ensures Create(db, Ok(f), now) == Outcome(Fail(500, RejectedValueMessage), db)
  {
  }

  /** Creating keeps the store well formed. */
  lemma CreatePreservesWellFormed(db: Db, body: Result<PackageForm, string>, now: Millis)
    requires WellFormed(db)
    ensures WellFormed(Create(db, body, now).db)
  {
    var o := Create(db, body, now);
    if o.response.status == 200 {
      AppendedPackageWellFormed(db, o.response.body.data);
    }
  }

  /** Appending a package under the counter, and advancing it, keeps the
      store well formed. */
  lemma AppendedPackageWellFormed(db: Db, p: Package)
    requires WellFormed(db) && p.id == db.nextId
    ensures WellFormed(db.(packages := db.packages + [p], nextId := db.nextId + 1))
  {
  }
}

=== FILE: register.dfy ===
/** Self-service sign-up (`/api/auth/register`): validate the form, refuse
    a taken username, and store a new active customer with the hash of the
    password, answering with a projection of the row that leaves the hash
    out. Hashing is an oracle. */
module Registration {
  import opened Base
  import opened Store
  import opened Http
  import opened Auth

  const MissingFieldsMessage: string := "Name, username, and password are required"
  const ShortPasswordMessage: string := "Password must be at least 6 characters long"
  const TakenMessage: string := "User with this username already exists"
  const CreatedMessage: string := "User created successfully"
  const InternalMessage: string := "Internal server error"

  const MinPasswordLength: nat := 6

  /** `hashPassword`. */
  type Hasher = string -> string

  datatype SignUp = SignUp(
    name: Option<string>,
    username: Option<string>,
    email: Option<string>,
    phone: Option<string>,
    password: Option<string>)

  /** The columns the creation `select`s: everything but the password. */
  datatype Profile = Profile(
    id: Id,
    name: string,
    username: string,
    email: Option<string>,
    phone: Option<string>,
    role: Role,
    status: UserStatus,
    createdAt: Millis)

  function ProfileOf(u: User): (p: Profile)
    ensures p.id == u.id && p.name == u.name && p.username == u.username && p.email == u.email
    ensures p.phone == u.phone && p.role == u.role && p.status == u.status && p.createdAt == u.createdAt
  {
    Profile(u.id, u.name, u.username, u.email, u.phone, u.role, u.status, u.createdAt)
  }

  /** The profile does not depend on the stored hash. */
  lemma ProfileHidesPassword(u: User, hash: string)
    ensures ProfileOf(u.(passwordHash := hash)) == ProfileOf(u)
  {
  }

  /** No two accounts share a username. */
  predicate UniqueUsernames(users: seq<User>) {
    forall i, j :: 0 <= i < j < |users| ==> users[i].username != users[j].username
  }

  datatype Outcome = Outcome(response: Response<Profile>, db: Db)

  /** The POST handler. `body` is the parsed JSON or the parser's message;
      `refused` is whether the store rejects the insert (another unique
      column); `now` stamps the row. */
  function Register(db: Db, body: Result<SignUp, string>, hash: Hasher, refused: bool, now: Millis): (o: Outcome)
    ensures o.response.status in {200, 400, 500}
    ensures o.response.status != 200 ==> o.db == db
    ensures body.Err? ==> o.response == Fail(500, InternalMessage)
    ensures body.Ok? && !(Truthy(body.value.name) && Truthy(body.value.username) && Truthy(body.value.password)) ==>
              o.response == Fail(400, MissingFieldsMessage)
    ensures body.Ok? && Truthy(body.value.name) && Truthy(body.value.username) && Truthy(body.value.password) ==>
              && (Utf16Length(body.value.password.value) < MinPasswordLength ==> o.response == Fail(400, ShortPasswordMessage))
              && (Utf16Length(body.value.password.value) >= MinPasswordLength && FindUsername(db.users, body.value.username.value).Some? ==>
                    o.response == Fail(400, TakenMessage))
    ensures body.Ok? && Truthy(body.value.name) && Truthy(body.value.username) && Truthy(body.value.password)
            && Utf16Length(body.value.password.value) >= MinPasswordLength
            && FindUsername(db.users, body.value.username.value).None? ==>
              && (o.response.status == 200 <==> !refused)
              && (refused ==> o.response == Fail(500, InternalMessage))
    ensures o.response.status == 200 ==>
              && body.Ok? && Truthy(body.value.name) && Truthy(body.value.username) && Truthy(body.value.password)
              && Utf16Length(body.value.password.value) >= MinPasswordLength
              && FindUsername(db.users, body.value.username.value).None? && !refused
    ensures o.response.status == 200 ==>
              var f := body.value;
              var u := User(db.nextId, f.name.value, f.username.value, f.email, f.phone, hash(f.password.value),
                            Customer, UserStatus.Active, 0.0, None, now);
              && o.db == db.(users := db.users + [u], nextId := db.nextId + 1)
              && o.response.body == Done(CreatedMessage, ProfileOf(u))
  {
    match body
    case Err(_) => Outcome(Fail(500, InternalMessage), db)
    case Ok(f) =>
      if !(Truthy(f.name) && Truthy(f.username) && Truthy(f.password)) then Outcome(Fail(400, MissingFieldsMessage), db)
      else if Utf16Length(f.password.value) < MinPasswordLength then Outcome(Fail(400, ShortPasswordMessage), db)
      else if FindUsername(db.users, f.username.value).Some? then Outcome(Fail(400, TakenMessage), db)
      else if refused then Outcome(Fail(500, InternalMessage), db)
      else
        var u := User(db.nextId, f.name.value, f.username.value, f.email, f.phone, hash(f.password.value),
                      Customer, UserStatus.Active, 0.0, None, now);
        Outcome(Response(200, Done(CreatedMessage, ProfileOf(u))), db.(users := db.users + [u], nextId := db.nextId + 1))
  }

  /** Registration never lets two accounts share a username. */
  lemma RegisterKeepsUsernamesUnique(db: Db, body: Result<SignUp, string>, hash: Hasher, refused: bool, now: Millis)
    requires UniqueUsernames(db.users)
    ensures UniqueUsernames(Register(db, body, hash, refused, now).db.users)
  {
    var o := Register(db, body, hash, refused, now);
    if o.response.status == 200 {
      var users := o.db.users;
      var added := users[|users| - 1];
      assert forall u :: u in db.users ==> u.username != added.username;
      forall i, j | 0 <= i < j < |users| ensures users[i].username != users[j].username {
        if j == |users| - 1 {
          assert users[i] in db.users;
        } else {
          assert users[i] == db.users[i] && users[j] == db.users[j];
        }
      }
    }
  }

  /** Registering the same username again is refused and changes nothing. */
  lemma SecondRegistrationRefused(db: Db, f: SignUp, g: SignUp, hash: Hasher, refused: bool, now: Millis,
                                  refused': bool, now': Millis)
    requires Register(db, Ok(f), hash, refused, now).response.status == 200
    requires Truthy(g.name) && g.username == f.username && Truthy(g.password) && Utf16Length(g.password.value) >= MinPasswordLength
    ensures var after := Register(db, Ok(f), hash, refused, now).db;
            Register(after, Ok(g), hash, refused', now') == Outcome(Fail(400, TakenMessage), after)
  {
    var after := Register(db, Ok(f), hash, refused, now).db;
    var u := after.users[|after.users| - 1];
    assert u in after.users && u.username == f.username.value;
  }

  /** A newly registered customer can sign in with the password they chose,
      as long as the hash check accepts a password against its own hash. */
  lemma RegisteredCanSignIn(db: Db, f: SignUp, hash: Hasher, refused: bool, now: Millis, verify: Verifier)
    requires Register(db, Ok(f), hash, refused, now).response.status == 200
    requires forall p :: verify(p, hash(p))
    ensures var o := Register(db, Ok(f), hash, refused, now);
            Authorize(o.db, Some(Credentials(f.username, f.password)), verify) ==
              Some(Identity(o.response.body.data.id, f.username.value, f.email, f.name.value, Customer, f.phone))
  {
    var o := Register(db, Ok(f), hash, refused, now);
    var users := o.db.users;
    var n := |db.users|;
    var named := (u: User) => u.username == f.username.value;
    assert users[..n] == db.users;
    assert FindFirst(users[..n], named).None?;
    FirstAfterMisses(users, n, named);
  }

  /** Registering keeps the store well formed. */
  lemma RegisterPreservesWellFormed(db: Db, body: Result<SignUp, string>, hash: Hasher, refused: bool, now: Millis)
    requires WellFormed(db)
    ensures WellFormed(Register(db, body, hash, refused, now).db)
  {
  }
}

=== FILE: runtime.dfy ===
/** What one server process holds between requests: the store and the two
    client singletons (`xenditInstance`, `mikrotikInstance`), plus the
    environment variables the handlers read. */
module Runtime {
  import opened Base
  import opened Store
  import Mikrotik
  import Xendit

  datatype World = World(db: Db, router: Option<Mikrotik.Client>, gateway: Option<Xendit.Client>)

  /** `XENDIT_API_KEY`, `XENDIT_CALLBACK_TOKEN`, `NODE_ENV` and
      `NEXT_PUBLIC_BASE_URL`. */
  datatype Env = Env(
    xenditApiKey: Option<string>,
    xenditCallbackToken: Option<string>,
    nodeEnv: Option<string>,
    publicBaseUrl: Option<string>)

  /** `error.message || '<fallback>'`: the message of a caught error, or the
      handler's fallback when the message is empty. */
  function MessageOr(e: Error, fallback: string): (m: string)
    ensures e.message != "" ==> m == e.message
    ensures e.message == "" ==> m == fallback
  {
    if e.message != "" then e.message else fallback
  }
}

=== FILE: setup.dfy ===
/** The one-off seeding endpoint (`/api/setup/packages`): on an empty
    catalogue it creates six default packages; otherwise it declines and
    changes nothing, so calling it again is harmless. */
module Seeding {
  import opened Base
  import opened Store
  import opened Http

  const ExistMessage: string := "Packages already exist"
  const SeededMessage: string := "Default packages created successfully"
  const FailedMessage: string := "Failed to setup packages"

  /** A default package before the store gives it an id and a creation
      time. */
  datatype Default = Default(
    name: string,
    description: string,
    kind: ServiceType,
    price: real,
    duration: int,
    dataLimit: Option<int>,
    speedLimit: string,
    profile: string)

  /** The catalogue the endpoint seeds, in the order it lists them. */
  const Defaults: seq<Default> := [
    Default("Basic Package", "Perfect for light internet usage", Pppoe, 50000.0, 30, None, "5Mbps/5Mbps", "basic"),
    Default("Home Package", "Great for families and regular usage", Pppoe, 100000.0, 30, None, "10Mbps/10Mbps", "home"),
    Default("Gaming Package", "Low latency for gaming enthusiasts", Pppoe, 200000.0, 30, None, "20Mbps/20Mbps", "gaming"),
    Default("Hotspot Package", "Flexible hotspot access", Hotspot, 25000.0, 7, Some(5000), "5Mbps/5Mbps", "hotspot"),
    Default("Family Package", "Multiple users with high speed", Both, 300000.0, 30, None, "50Mbps/50Mbps", "family"),
    Default("Enterprise Package", "Business grade internet solution", Pppoe, 1000000.0, 30, None, "100Mbps/100Mbps", "enterprise")
  ]

  /** The row the store creates from a default; packages start active. */
  function Stored(d: Default, id: Id, now: Millis): (p: Package)
    ensures p.id == id && p.createdAt == now && p.isActive
    ensures p.name == d.name && p.description == Some(d.description) && p.kind == d.kind
    ensures p.price == d.price && p.duration == d.duration && p.dataLimit == d.dataLimit
    ensures p.speedLimit == Some(d.speedLimit) && p.mikrotikProfile == Some(d.profile)
  {
    Package(id, d.name, Some(d.description), d.kind, d.price, d.duration, d.dataLimit,
            Some(d.speedLimit), Some(d.profile), true, now)
  }

  /** One row per default, with consecutive ids from `first`, in list
      order. */
  function StoreAll(ds: seq<Default>, first: Id, now: Millis): (r: seq<Package>)
    ensures |r| == |ds|
    ensures forall i :: 0 <= i < |r| ==> r[i] == Stored(ds[i], first + i, now)
  {
    if |ds| == 0 then [] else [Stored(ds[0], first, now)] + StoreAll(ds[1..], first + 1, now)
  }

  function PackageId(p: Package): int { p.id }

  /** `r` holds default `i`, stored under id `first + i`, exactly when its
      create is not refused. */
  predicate KeptExactly(ds: seq<Default>, first: Id, now: Millis, refused: set<int>, r: seq<Package>) {
    forall i :: 0 <= i < |ds| ==> (Stored(ds[i], first + i, now) in r <==> i !in refused)
  }

  /** The rows the creates of `ds` leave behind: default `i` is stored under
      id `first + i` unless its create is refused. The creates run side by
      side and independently, so a refused one undoes none of the others. */
  function Survivors(ds: seq<Default>, first: Id, now: Millis, refused: set<int>): (r: seq<Package>)
    ensures forall p :: p in r ==> p in StoreAll(ds, first, now)
    ensures KeptExactly(ds, first, now, refused, r)
    ensures forall i :: 0 <= i < |r| ==> first <= r[i].id < first + |ds|
    ensures DistinctKeys(r, PackageId)
    ensures (forall i :: 0 <= i < |ds| ==> i !in refused) ==> r == StoreAll(ds, first, now)
  {
    var all := StoreAll(ds, first, now);
    var keep := (p: Package) => p.id - first !in refused;
    StoredDistinct(ds, first, now);
    FilterKeepsDistinct(all, keep, PackageId);
    var r := Filter(all, keep);
    SurvivorsAreTheKept(ds, first, now, refused, keep, r);
    NothingRefusedKeepsAll(ds, first, now, refused, keep);
    r
  }

  lemma NothingRefusedKeepsAll(ds: seq<Default>, first: Id, now: Millis, refused: set<int>, keep: Package -> bool)
    requires forall p :: keep(p) == (p.id - first !in refused)
    ensures (forall i :: 0 <= i < |ds| ==> i !in refused) ==> Filter(StoreAll(ds, first, now), keep) == StoreAll(ds, first, now)
  {
    var all := StoreAll(ds, first, now);
    if forall i :: 0 <= i < |ds| ==> i !in refused {
      forall i | 0 <= i < |all| ensures keep(all[i]) {
        assert all[i].id - first == i;
      }
      FilterKeepsAll(all, keep);
    }
  }

  lemma StoredDistinct(ds: seq<Default>, first: Id, now: Millis)
    ensures DistinctKeys(StoreAll(ds, first, now), PackageId)
  {
    var all := StoreAll(ds, first, now);
    forall i, j | 0 <= i < j < |all| ensures PackageId(all[i]) != PackageId(all[j]) {
      assert all[i].id == first + i && all[j].id == first + j;
    }
  }

  lemma SurvivorsAreTheKept(ds: seq<Default>, first: Id, now: Millis, refused: set<int>, keep: Package -> bool,
                            r: seq<Package>)
    requires forall p :: keep(p) == (p.id - first !in refused)
    requires r == Filter(StoreAll(ds, first, now), keep)
    ensures KeptExactly(ds, first, now, refused, r)
    ensures forall i :: 0 <= i < |r| ==> first <= r[i].id < first + |ds|
  {
    forall i | 0 <= i < |ds| ensures Stored(ds[i], first + i, now) in r <==> i !in refused {
      KeptOne(ds, first, now, refused, keep, r, i);
    }
    forall i | 0 <= i < |r| ensures first <= r[i].id < first + |ds| {
      SurvivorInRange(ds, first, now, keep, r, i);
    }
  }

  lemma KeptOne(ds: seq<Default>, first: Id, now: Millis, refused: set<int>, keep: Package -> bool,
                r: seq<Package>, i: nat)
    requires forall p :: keep(p) == (p.id - first !in refused)
    requires r == Filter(StoreAll(ds, first, now), keep)
    requires i < |ds|
    ensures Stored(ds[i], first + i, now) in r <==> i !in refused
  {
    var all := StoreAll(ds, first, now);
    var p := all[i];
    assert p.id - first == i;
    if i in refused {
      assert !keep(p);
    } else {
      assert keep(p) && p in all;
    }
  }

  lemma SurvivorInRange(ds: seq<Default>, first: Id, now: Millis, keep: Package -> bool, r: seq<Package>, i: nat)
    requires r == Filter(StoreAll(ds, first, now), keep)
    requires i < |r|
    ensures first <= r[i].id < first + |ds|
  {
    var all := StoreAll(ds, first, now);
    assert r[i] in r;
    var k :| 0 <= k < |all| && all[k] == r[i];
  }

  /** At least one of the six creates is refused. */
  predicate Refuses(refused: set<int>) {
    exists i :: 0 <= i < |Defaults| && i in refused
  }

  datatype Outcome = Outcome(response: Response<seq<Package>>, db: Db)

  /** The POST handler. `refused` holds the positions of the defaults whose
      create the store rejects, and `message` is the message of the
      rejection that `Promise.all` reports (the first to settle). */
  function Seed(db: Db, refused: set<int>, message: string, now: Millis): (o: Outcome)
    ensures o.response.status in {200, 500}
    ensures |db.packages| > 0 ==> o == Outcome(Response(200, Declined(ExistMessage)), db)
    ensures o.response.status == 500 <==> |db.packages| == 0 && Refuses(refused)
    ensures o.response.status == 500 ==> o.response == Fail(500, OrElse(Some(message), FailedMessage))
    ensures |db.packages| == 0 ==>
              && o.db == db.(packages := o.db.packages, nextId := db.nextId + 6)
              && (forall p :: p in o.db.packages ==> p in StoreAll(Defaults, db.nextId, now))
              && KeptExactly(Defaults, db.nextId, now, refused, o.db.packages)
    ensures o.response.body.Done? <==> |db.packages| == 0 && !Refuses(refused)
    ensures o.response.body.Done? ==>
              var seeded := o.response.body.data;
              && |seeded| == |Defaults| == 6
              && o.db == db.(packages := seeded, nextId := db.nextId + 6)
              && (forall i :: 0 <= i < 6 ==> seeded[i].id == db.nextId + i && seeded[i].createdAt == now)
  {
    if |db.packages| > 0 then Outcome(Response(200, Declined(ExistMessage)), db)
    else
      var stored := Survivors(Defaults, db.nextId, now, refused);
      var db' := db.(packages := stored, nextId := db.nextId + 6);
      if Refuses(refused) then Outcome(Fail(500, OrElse(Some(message), FailedMessage)), db')
      else Outcome(Response(200, Done(SeededMessage, stored)), db')
  }

  /** Every default has a positive price and duration and names a router
      profile. */
  lemma DefaultsAreSellable()
    ensures forall i :: 0 <= i < |Defaults| ==>
              Defaults[i].price > 0.0 && Defaults[i].duration > 0 && |Defaults[i].profile| > 0
  {
  }

  /** Only the fourth default, the Hotspot one, carries a data limit. */
  lemma OneDefaultLimited()
    ensures forall i :: 0 <= i < |Defaults| ==> (Defaults[i].dataLimit.Some? <==> i == 3)
    ensures Defaults[3].kind == Hotspot && Defaults[3].dataLimit == Some(5000)
  {
  }

  /** Every seeded package is active, has a positive price and duration
      and names a router profile; exactly one, the Hotspot package, carries
      a data limit, of 5000. */
  lemma SeededCatalogue(db: Db, message: string, now: Millis)
    requires |db.packages| == 0
    ensures var seeded := Seed(db, {}, message, now).response.body.data;
            && |seeded| == 6
            && (forall i :: 0 <= i < 6 ==>
                  seeded[i].isActive && seeded[i].price > 0.0 && seeded[i].duration > 0
                  && seeded[i].mikrotikProfile.Some? && |seeded[i].mikrotikProfile.value| > 0)
            && (forall i :: 0 <= i < 6 ==> (seeded[i].dataLimit.Some? <==> i == 3))
            && seeded[3].kind == Hotspot && seeded[3].dataLimit == Some(5000)
  {
    var seeded := Seed(db, {}, message, now).response.body.data;
    assert seeded == StoreAll(Defaults, db.nextId, now);
    DefaultsAreSellable();
    OneDefaultLimited();
  }

  /** Seeding a second time, whatever happens to the store then, changes
      nothing once a first call has answered 200. */
  lemma SeedIsIdempotent(db: Db, refused: set<int>, message: string, now: Millis,
                         refused': set<int>, message': string, now': Millis)
    requires Seed(db, refused, message, now).response.status == 200
    ensures Seed(Seed(db, refused, message, now).db, refused', message', now').db == Seed(db, refused, message, now).db
    ensures Seed(Seed(db, refused, message, now).db, refused', message', now').response.body == Declined(ExistMessage)
  {
  }

  /** A run in which some creates are refused, but not all, answers 500 yet
      leaves the other defaults stored. From then on every run declines, so
      the refused defaults are never created. */
  lemma PartialSeedIsPermanent(db: Db, refused: set<int>, message: string, now: Millis,
                               refused': set<int>, message': string, now': Millis, kept: nat)
    requires |db.packages| == 0 && Refuses(refused)
    requires kept < |Defaults| && kept !in refused
    ensures var after := Seed(db, refused, message, now);
            && after.response.status == 500
            && Stored(Defaults[kept], db.nextId + kept, now) in after.db.packages
            && Seed(after.db, refused', message', now') == Outcome(Response(200, Declined(ExistMessage)), after.db)
  {
    var after := Seed(db, refused, message, now);
    KeptAt(Defaults, db.nextId, now, refused, after.db.packages, kept);
  }

  lemma KeptAt(ds: seq<Default>, first: Id, now: Millis, refused: set<int>, r: seq<Package>, k: nat)
    requires KeptExactly(ds, first, now, refused, r)
    requires k < |ds| && k !in refused
    ensures Stored(ds[k], first + k, now) in r
  {
  }

  /** A run in which every create is refused stores nothing, so a later
      run starts afresh. */
  lemma AllRefusedStoresNothing(db: Db, refused: set<int>, message: string, now: Millis)
    requires |db.packages| == 0
    requires forall i :: 0 <= i < |Defaults| ==> i in refused
    ensures Seed(db, refused, message, now).db.packages == []
    ensures Seed(Seed(db, refused, message, now).db, {}, message, now).response.body.Done?
  {
    var stored := Seed(db, refused, message, now).db.packages;
    NoneKept(Defaults, db.nextId, now, refused, stored);
  }

  lemma NoneKept(ds: seq<Default>, first: Id, now: Millis, refused: set<int>, r: seq<Package>)
    requires forall p :: p in r ==> p in StoreAll(ds, first, now)
    requires KeptExactly(ds, first, now, refused, r)
    requires forall i :: 0 <= i < |ds| ==> i in refused
    ensures r == []
  {
    if r != [] {
      NotKept(ds, first, now, refused, r, r[0]);
      assert false;
    }
  }

  lemma NotKept(ds: seq<Default>, first: Id, now: Millis, refused: set<int>, r: seq<Package>, p: Package)
    requires p in StoreAll(ds, first, now)
    requires KeptExactly(ds, first, now, refused, r)
    requires forall i :: 0 <= i < |ds| ==> i in refused
    ensures p !in r
  {
    var all := StoreAll(ds, first, now);
    var i :| 0 <= i < |all| && all[i] == p;
    assert Stored(ds[i], first + i, now) == p;
  }

  /** Seeding keeps the store well formed: the new ids are fresh and
      distinct. */
  lemma SeedPreservesWellFormed(db: Db, refused: set<int>, message: string, now: Millis)
    requires WellFormed(db)
    ensures WellFormed(Seed(db, refused, message, now).db)
  {
    if |db.packages| == 0 {
      var r := Seed(db, refused, message, now).db.packages;
      assert r == Survivors(Defaults, db.nextId, now, refused);
      forall i, j | 0 <= i < j < |r| ensures r[i].id != r[j].id {
        assert PackageId(r[i]) != PackageId(r[j]);
      }
    }
  }
}

=== FILE: store.dfy ===
/** The billing store: the five tables the handlers read and write, each a
    sequence of rows in insertion order (so that a query without `orderBy`
    returns the first matching row), and the row-level queries the handlers
    issue. Identifiers come from a counter, so a new row's id is fresh. */
module Store {
  import opened Base

  type Id = nat

  /** A `Date`, as milliseconds since the epoch. */
  type Millis = int

  const DayMillis: int := 86_400_000

  /** The store's error when an `update` names no row. */
  const MissingRecordMessage: string := "Record to update not found."

  /** The store's error when a `delete` names no row. */
  const MissingDeleteMessage: string := "Record to delete does not exist."

  /** The store's validation error for a value its column cannot hold (a
      `NaN` in an integer column); a `NaN` price is refused with it too. */
  const RejectedValueMessage: string := "Invalid value provided. Expected Int, provided Float."

  datatype Role = Admin | Customer

  function RoleName(r: Role): string {
    match r
    case Admin => "ADMIN"
    case Customer => "CUSTOMER"
  }

  datatype UserStatus = Active | Inactive | Suspended

  /** The service types a package provisions: a persistent PPPoE account, a
      Hotspot (session) account, or both. */
  datatype ServiceType = Pppoe | Hotspot | Both

  function ServiceTypeName(t: ServiceType): string {
    match t
    case Pppoe => "PPPOE"
    case Hotspot => "HOTSPOT"
    case Both => "BOTH"
  }

  predicate NeedsPppoe(t: ServiceType) { t == Pppoe || t == Both }
  predicate NeedsHotspot(t: ServiceType) { t == Hotspot || t == Both }

  datatype SubscriptionStatus = Pending | Active | Expired

  function SubscriptionStatusName(s: SubscriptionStatus): string {
    match s
    case Pending => "PENDING"
    case Active => "ACTIVE"
    case Expired => "EXPIRED"
  }

  /** `SUBSCRIPTION` or `TOPUP`. */
  datatype TransactionType = SubscriptionCharge | TopupCharge

  datatype TransactionStatus = Pending | Success | Failed

  /** What the opaque `metadata` column holds: nothing yet, the raw gateway
      notification, or the invoice link stored at creation (whose fields are
      absent when the gateway's reply did not carry them). */
  datatype Metadata =
    | NoMetadata
    | GatewayNotification(raw: string)
    | InvoiceLink(invoiceUrl: Option<string>, expiryDate: Option<string>)

  datatype User = User(
    id: Id,
    name: string,
    username: string,
    email: Option<string>,
    phone: Option<string>,
    passwordHash: string,
    role: Role,
    status: UserStatus,
    balance: real,
    mikrotikId: Option<string>,
    createdAt: Millis)

  datatype Package = Package(
    id: Id,
    name: string,
    description: Option<string>,
    kind: ServiceType,
    price: real,
    duration: int,
    dataLimit: Option<int>,
    speedLimit: Option<string>,
    mikrotikProfile: Option<string>,
    isActive: bool,
    createdAt: Millis)

  /** A subscription carries the router credentials generated when it was
      created; reconciliation provisions exactly these. */
  datatype Subscription = Subscription(
    id: Id,
    userId: Id,
    packageId: Id,
    status: SubscriptionStatus,
    startDate: Millis,
    endDate: Millis,
    mikrotikName: string,
    mikrotikPassword: string,
    lastRenewal: Option<Millis>,
    createdAt: Millis)

  /** `externalId` holds the gateway's invoice id once the invoice exists. */
  datatype Transaction = Transaction(
    id: Id,
    userId: Id,
    subscriptionId: Option<Id>,
    kind: TransactionType,
    amount: real,
    status: TransactionStatus,
    paymentMethod: Option<string>,
    paymentChannel: Option<string>,
    externalId: Option<string>,
    metadata: Metadata,
    description: Option<string>,
    createdAt: Millis)

  /** A saved router connection; at most one is meant to be active. */
  datatype RouterConfig = RouterConfig(
    id: Id,
    name: string,
    host: string,
    port: int,
    username: string,
    password: string,
    useSSL: bool,
    isActive: bool,
    createdAt: Millis)

  datatype Db = Db(
    users: seq<User>,
    packages: seq<Package>,
    subscriptions: seq<Subscription>,
    transactions: seq<Transaction>,
    configs: seq<RouterConfig>,
    nextId: Id)

  /** Every id was handed out by the counter, and no table repeats an id. */
  ghost predicate WellFormed(db: Db) {
    && (forall i :: 0 <= i < |db.users| ==> db.users[i].id < db.nextId)
    && (forall i :: 0 <= i < |db.packages| ==> db.packages[i].id < db.nextId)
    && (forall i :: 0 <= i < |db.subscriptions| ==> db.subscriptions[i].id < db.nextId)
    && (forall i :: 0 <= i < |db.transactions| ==> db.transactions[i].id < db.nextId)
    && (forall i :: 0 <= i < |db.configs| ==> db.configs[i].id < db.nextId)
    && (forall i, j :: 0 <= i < j < |db.users| ==> db.users[i].id != db.users[j].id)
    && (forall i, j :: 0 <= i < j < |db.packages| ==> db.packages[i].id != db.packages[j].id)
    && (forall i, j :: 0 <= i < j < |db.subscriptions| ==> db.subscriptions[i].id != db.subscriptions[j].id)
    && (forall i, j :: 0 <= i < j < |db.transactions| ==> db.transactions[i].id != db.transactions[j].id)
    && (forall i, j :: 0 <= i < j < |db.configs| ==> db.configs[i].id != db.configs[j].id)
  }

  // Lookups by primary key (`findUnique`).

  function FindUser(db: Db, id: Id): (r: Option<User>)
    ensures r.Some? ==> r.value in db.users && r.value.id == id
    ensures r.None? ==> forall u :: u in db.users ==> u.id != id
  {
    First(db.users, (u: User) => u.id == id)
  }

  function FindPackage(db: Db, id: Id): (r: Option<Package>)
    ensures r.Some? ==> r.value in db.packages && r.value.id == id
    ensures r.None? ==> forall p :: p in db.packages ==> p.id != id
  {
    First(db.packages, (p: Package) => p.id == id)
  }

  function FindSubscription(db: Db, id: Id): (r: Option<Subscription>)
    ensures r.Some? ==> r.value in db.subscriptions && r.value.id == id
    ensures r.None? ==> forall s :: s in db.subscriptions ==> s.id != id
  {
    First(db.subscriptions, (s: Subscription) => s.id == id)
  }

  function FindConfig(configs: seq<RouterConfig>, id: Id): (r: Option<RouterConfig>)
    ensures r.Some? ==> r.value in configs && r.value.id == id
    ensures r.None? ==> forall k :: k in configs ==> k.id != id
  {
    First(configs, (k: RouterConfig) => k.id == id)
  }

  /** Rewrite the user with id `id`; every other row is kept. */
  function UpdateUser(users: seq<User>, id: Id, f: User -> User): (r: seq<User>)
    ensures |r| == |users|
    ensures forall i :: 0 <= i < |users| ==> r[i] == if users[i].id == id then f(users[i]) else users[i]
  {
    UpdateWhere(users, (u: User) => u.id == id, f)
  }

  function UpdateSubscription(subs: seq<Subscription>, id: Id, f: Subscription -> Subscription): (r: seq<Subscription>)
    ensures |r| == |subs|
    ensures forall i :: 0 <= i < |subs| ==> r[i] == if subs[i].id == id then f(subs[i]) else subs[i]
  {
    UpdateWhere(subs, (s: Subscription) => s.id == id, f)
  }

  function UpdateTransaction(txs: seq<Transaction>, id: Id, f: Transaction -> Transaction): (r: seq<Transaction>)
    ensures |r| == |txs|
    ensures forall i :: 0 <= i < |txs| ==> r[i] == if txs[i].id == id then f(txs[i]) else txs[i]
  {
    UpdateWhere(txs, (t: Transaction) => t.id == id, f)
  }

  function UpdateConfig(configs: seq<RouterConfig>, id: Id, f: RouterConfig -> RouterConfig): (r: seq<RouterConfig>)
    ensures |r| == |configs|
    ensures forall i :: 0 <= i < |configs| ==> r[i] == if configs[i].id == id then f(configs[i]) else configs[i]
  {
    UpdateWhere(configs, (k: RouterConfig) => k.id == id, f)
  }

  /** Remove the subscription with id `id`. Deleting the
      row just appended, under an id no earlier row has, restores the table. */
  function DeleteSubscription(subs: seq<Subscription>, id: Id): (r: seq<Subscription>)
    ensures forall s :: s in r ==> s in subs && s.id != id
    ensures forall s :: s in subs && s.id != id ==> s in r
    ensures |subs| > 0 && subs[|subs| - 1].id == id && (forall i :: 0 <= i < |subs| - 1 ==> subs[i].id != id) ==>
              r == subs[..|subs| - 1]
  {
    var keep := (s: Subscription) => s.id != id;
    if |subs| > 0 && subs[|subs| - 1].id == id && (forall i :: 0 <= i < |subs| - 1 ==> subs[i].id != id) then
      assert subs == subs[..|subs| - 1] + [subs[|subs| - 1]];
      FilterDropsAppended(subs[..|subs| - 1], subs[|subs| - 1], keep);
      Filter(subs, keep)
    else Filter(subs, keep)
  }

  /** Remove the transaction with id `id`. */
  function DeleteTransaction(txs: seq<Transaction>, id: Id): (r: seq<Transaction>)
    ensures forall t :: t in r ==> t in txs && t.id != id
    ensures forall t :: t in txs && t.id != id ==> t in r
    ensures |txs| > 0 && txs[|txs| - 1].id == id && (forall i :: 0 <= i < |txs| - 1 ==> txs[i].id != id) ==>
              r == txs[..|txs| - 1]
  {
    var keep := (t: Transaction) => t.id != id;
    if |txs| > 0 && txs[|txs| - 1].id == id && (forall i :: 0 <= i < |txs| - 1 ==> txs[i].id != id) then
      assert txs == txs[..|txs| - 1] + [txs[|txs| - 1]];
      FilterDropsAppended(txs[..|txs| - 1], txs[|txs| - 1], keep);
      Filter(txs, keep)
    else Filter(txs, keep)
  }

  /** No two router configurations are active at once. */
  predicate AtMostOneActive(configs: seq<RouterConfig>) {
    forall i, j :: 0 <= i < |configs| && 0 <= j < |configs| && configs[i].isActive && configs[j].isActive ==> i == j
  }

  /** Remove the router configuration with id `id`; removing
      rows cannot make two of them active. */
  function DeleteConfig(configs: seq<RouterConfig>, id: Id): (r: seq<RouterConfig>)
    ensures forall k :: k in r <==> k in configs && k.id != id
    ensures |r| <= |configs|
    ensures AtMostOneActive(configs) ==> AtMostOneActive(r)
  {
    var active := (k: RouterConfig) => k.isActive;
    if AtMostOneActive(configs) then
      assert AtMostOneWhere(configs, active);
      FilterKeepsAtMostOne(configs, (k: RouterConfig) => k.id != id, active);
      Filter(configs, (k: RouterConfig) => k.id != id)
    else Filter(configs, (k: RouterConfig) => k.id != id)
  }
}

/** The JSON responses the route handlers send, reduced to their status and
    the shape of their body. */
module Http {
  import opened Base

  datatype Body<T> =
    /** A success body carrying a message and the record: `{ success:
        true, message, data }`, or `{ message, user }` for a registration */
    | Done(message: string, data: T)
    /** `{ success: true, data, count }`, a listing */
    | Listing(items: seq<T>)
    /** `{ success: false, message }`, sent with status 200 */
    | Declined(message: string)
    /** `{ error, code? }` */
    | Failure(error: string, code: Option<string>)

  datatype Response<T> = Response(status: nat, body: Body<T>)

  function Fail<T>(status: nat, error: string): Response<T> {
    Response(status, Failure(error, None))
  }
}

=== FILE: subscriptions.dfy ===
/** The subscription endpoint (`/api/subscriptions`). POST creates a PENDING
    subscription with freshly generated router credentials and a PENDING
    charge for it; for gateway payment it then opens an invoice and links
    the charge to it, deleting both rows again when the invoice cannot be
    opened. GET lists subscriptions, filtered and newest first. */
module Subscriptions {
  import opened Base
  import opened Store
  import opened Http
  import opened Runtime
  import Xendit

  const GatewayMethod: string := "XENDIT"
  const DefaultBaseUrl: string := "http://localhost:3000"
  const PasswordLength: nat := 10

  const MissingIdsMessage: string := "User ID and Package ID are required"
  const UserNotFoundMessage: string := "User not found"
  const PackageNotFoundMessage: string := "Package not found"
  const CreatedMessage: string := "Subscription created successfully"
  const CreateFallbackMessage: string := "Failed to create subscription"
  const PaymentFailedPrefix: string := "Failed to create payment: "

  /** The POST body. An id that is absent or empty is `None`. */
  datatype CreateRequest = CreateRequest(userId: Option<Id>, packageId: Option<Id>, paymentMethod: Option<string>)

  /** The clock readings and random draws of one POST: the start date, the
      `Date.now()` in the account name, the draw behind the password, and
      the stamp and draw behind the invoice's external id. */
  datatype Entropy = Entropy(
    now: Millis,
    nameStamp: nat,
    passwordDraw: seq<Digit36>,
    invoiceStamp: nat,
    invoiceDraw: seq<Digit36>)

  // ---------------------------------------------------------------------
  // The generated credentials
  // ---------------------------------------------------------------------

  /** The router account name: the user's name with white space removed and
      letters lower-cased, then `-` and the timestamp. It contains no white
      space and no upper-case letter, keeps the name's other characters in
      order, and ends in `-<timestamp>`. */
  function AccountName(userName: string, stamp: nat): (r: string)
    ensures var stripped := StripWhitespace(userName);
            && |r| == |stripped| + 1 + |NatToDecimal(stamp)|
            && (forall i :: 0 <= i < |stripped| ==> UpperChar(r[i]) == UpperChar(stripped[i]))
            && r[|stripped|..] == "-" + NatToDecimal(stamp)
    ensures forall i :: 0 <= i < |r| ==> !IsJsWhitespace(r[i]) && !IsUpperLetter(r[i])
  {
    var stripped := StripWhitespace(userName);
    var lowered := ToLower(stripped);
    var stamped := "-" + NatToDecimal(stamp);
    var r := lowered + stamped;
    assert forall i :: 0 <= i < |lowered| ==> !IsJsWhitespace(lowered[i]) by {
      forall i | 0 <= i < |lowered| ensures !IsJsWhitespace(lowered[i]) {
        if IsUpperLetter(stripped[i]) {
          assert UpperChar(lowered[i]) == stripped[i];
        }
      }
    }
    assert forall i :: 0 <= i < |stamped| ==> !IsJsWhitespace(stamped[i]) && !IsUpperLetter(stamped[i]) by {
      forall i | 0 <= i < |stamped| ensures !IsJsWhitespace(stamped[i]) && !IsUpperLetter(stamped[i]) {
        if i > 0 {
          assert IsDigit(NatToDecimal(stamp)[i - 1]);
        }
      }
    }
    assert r[|stripped|..] == stamped;
    r
  }

  /** The router password: at most ten base-36 characters, exactly ten when
      the draw is long enough. */
  function AccountPassword(draw: seq<Digit36>): (r: string)
    ensures |r| <= PasswordLength
    ensures forall i :: 0 <= i < |r| ==> IsBase36Char(r[i])
    ensures |draw| >= PasswordLength ==> |r| == PasswordLength
  {
    RandomToken(draw, PasswordLength)
  }

  function ChargeDescription(pkg: Package): string {
    "Subscription: " + pkg.name + " - " + IntToDecimal(pkg.duration) + " days"
  }

  /** The invoice's customer: name and e-mail as stored, and the phone only
      when it is non-empty. */
  function CustomerOf(user: User): Xendit.Customer {
    Xendit.Customer(user.name, user.email, if Truthy(user.phone) then user.phone else None)
  }

  /** `<NEXT_PUBLIC_BASE_URL or http://localhost:3000>/payment/return`. */
  function ReturnUrl(env: Env): Option<string> {
    Some(OrElse(env.publicBaseUrl, DefaultBaseUrl) + "/payment/return")
  }

  // ---------------------------------------------------------------------
  // The rows written
  // ---------------------------------------------------------------------

  function NewSubscription(db: Db, userId: Id, pkg: Package, user: User, e: Entropy): Subscription {
    Subscription(db.nextId, userId, pkg.id, SubscriptionStatus.Pending, e.now, e.now + pkg.duration * DayMillis,
                 AccountName(user.name, e.nameStamp), AccountPassword(e.passwordDraw), None, e.now)
  }

  function NewCharge(db: Db, userId: Id, pkg: Package, paymentMethod: string, e: Entropy): Transaction {
    Transaction(db.nextId + 1, userId, Some(db.nextId), SubscriptionCharge, pkg.price, TransactionStatus.Pending,
                Some(paymentMethod), None, None, NoMetadata, Some(ChargeDescription(pkg)), e.now)
  }

  /** The two creates, appended in order. */
  function Record(db: Db, sub: Subscription, tx: Transaction): Db {
    db.(subscriptions := db.subscriptions + [sub], transactions := db.transactions + [tx], nextId := db.nextId + 2)
  }

  /** The compensation: delete the subscription, then the charge. */
  function Compensate(db: Db, sub: Subscription, tx: Transaction): Db {
    db.(subscriptions := DeleteSubscription(db.subscriptions, sub.id),
        transactions := DeleteTransaction(db.transactions, tx.id))
  }

  /** The fields of the gateway's reply the handler reads; each is absent
      when the reply is not an invoice. */
  function InvoiceId(p: Xendit.GatewayPayload): Option<string> {
    if p.InvoiceObject? then Some(p.invoice.id) else None
  }

  function InvoiceUrl(p: Xendit.GatewayPayload): Option<string> {
    if p.InvoiceObject? then Some(p.invoice.invoiceUrl) else None
  }

  function InvoiceExpiry(p: Xendit.GatewayPayload): Option<string> {
    if p.InvoiceObject? then Some(p.invoice.expiryDate) else None
  }

  /** The charge's update after the invoice is opened: the invoice id as
      external id (an absent id leaves the column as it was) and the link as
      metadata. */
  function LinkInvoice(t: Transaction, p: Xendit.GatewayPayload): Transaction {
    t.(externalId := if InvoiceId(p).Some? then InvoiceId(p) else t.externalId,
       metadata := InvoiceLink(InvoiceUrl(p), InvoiceExpiry(p)))
  }

  // ---------------------------------------------------------------------
  // POST
  // ---------------------------------------------------------------------

  /** The data of a successful POST: both rows as first created, and the
      invoice link when an invoice was opened. */
  datatype Created = Created(subscription: Subscription, transaction: Transaction,
                             invoiceUrl: Option<string>, expiryDate: Option<string>)

  datatype Outcome = Outcome(response: Response<Created>, world: World, calls: seq<Xendit.GatewayRequest>)

  /** The invoice parameters for a subscription charge. */
  function ChargeInvoice(env: Env, user: User, pkg: Package, e: Entropy): Xendit.InvoiceParams {
    Xendit.SubscriptionInvoice(pkg.price, ChargeDescription(pkg), CustomerOf(user), ReturnUrl(env), e.invoiceStamp, e.invoiceDraw)
  }

  /** The handler. `body` is the parsed JSON, or the parser's message. */
  function Create(w: World, env: Env, body: Result<CreateRequest, string>, e: Entropy, gw: Xendit.Gateway): (o: Outcome)
    ensures o.response.status in {200, 400, 404, 500}
    ensures o.response.status == 400 <==> body.Ok? && (body.value.userId.None? || body.value.packageId.None?)
    ensures o.response.status in {400, 404} ==> o.world == w && o.calls == []
    ensures body.Ok? && body.value.userId.Some? && body.value.packageId.Some? ==>
              (FindUser(w.db, body.value.userId.value).None? ==> o.response == Fail(404, UserNotFoundMessage))
              && (FindUser(w.db, body.value.userId.value).Some? && FindPackage(w.db, body.value.packageId.value).None? ==>
                    o.response == Fail(404, PackageNotFoundMessage))
    ensures |o.calls| <= 1
  {
    match body
    case Err(m) => Outcome(Fail(500, if m != "" then m else CreateFallbackMessage), w, [])
    case Ok(req) =>
      if req.userId.None? || req.packageId.None? then Outcome(Fail(400, MissingIdsMessage), w, [])
      else
        match (FindUser(w.db, req.userId.value), FindPackage(w.db, req.packageId.value))
        case (None, _) => Outcome(Fail(404, UserNotFoundMessage), w, [])
        case (_, None) => Outcome(Fail(404, PackageNotFoundMessage), w, [])
        case (Some(user), Some(pkg)) => Submit(w, env, req, user, pkg, e, gw)
  }

  /** The handler after both lookups succeeded: create the rows, then pay. */
  function Submit(w: World, env: Env, req: CreateRequest, user: User, pkg: Package, e: Entropy, gw: Xendit.Gateway)
    : (o: Outcome)
    requires req.userId.Some?
    ensures o.response.status in {200, 500}
    ensures |o.calls| <= 1
    ensures var sub := NewSubscription(w.db, req.userId.value, pkg, user, e);
            var tx := NewCharge(w.db, req.userId.value, pkg, req.paymentMethod.GetOr(GatewayMethod), e);
            var failed := PaymentFails(w, env, req, user, pkg, e, gw);
            && (o.response.status == 500 <==> failed)
            && (failed ==> o.world.db == Compensate(Record(w.db, sub, tx), sub, tx))
  {
    var paymentMethod := req.paymentMethod.GetOr(GatewayMethod);
    var sub := NewSubscription(w.db, req.userId.value, pkg, user, e);
    var tx := NewCharge(w.db, req.userId.value, pkg, paymentMethod, e);
    var db1 := Record(w.db, sub, tx);
    if paymentMethod != GatewayMethod then
      Outcome(Response(200, Done(CreatedMessage, Created(sub, tx, None, None))), w.(db := db1), [])
    else
      var (instance, gatewayCache) := Xendit.GetInstance(w.gateway, env.xenditApiKey, env.nodeEnv);
      var w1 := w.(gateway := gatewayCache);
      if instance.Err? then
        Outcome(Fail(500, PaymentFailedPrefix + instance.error.message), w1.(db := Compensate(db1, sub, tx)), [])
      else
        var (reply, request) := Xendit.CreateInvoice(gw, 0, instance.value, ChargeInvoice(env, user, pkg, e));
        match reply
        case Err(err) =>
          Outcome(Fail(500, PaymentFailedPrefix + err.message), w1.(db := Compensate(db1, sub, tx)), [request])
        case Ok(payload) =>
          Outcome(Response(200, Done(CreatedMessage, Created(sub, tx, InvoiceUrl(payload), InvoiceExpiry(payload)))),
                  w1.(db := LinkCharge(db1, tx.id, payload)), [request])
  }

  /** Payment setup fails: the method is XENDIT and either no gateway
      client can be had or the gateway refuses the invoice. */
  predicate PaymentFails(w: World, env: Env, req: CreateRequest, user: User, pkg: Package, e: Entropy, gw: Xendit.Gateway) {
    var instance := Xendit.GetInstance(w.gateway, env.xenditApiKey, env.nodeEnv).0;
    && req.paymentMethod.GetOr(GatewayMethod) == GatewayMethod
    && (instance.Err? || Xendit.CreateInvoice(gw, 0, instance.value, ChargeInvoice(env, user, pkg, e)).0.Err?)
  }

  /** The store after the charge with id `id` is linked to the invoice. */
  function LinkCharge(db: Db, id: Id, p: Xendit.GatewayPayload): Db {
    db.(transactions := UpdateTransaction(db.transactions, id, (t: Transaction) => LinkInvoice(t, p)))
  }

  /** The requests that get as far as creating rows. */
  predicate Creates(w: World, body: Result<CreateRequest, string>) {
    && body.Ok? && body.value.userId.Some? && body.value.packageId.Some?
    && FindUser(w.db, body.value.userId.value).Some?
    && FindPackage(w.db, body.value.packageId.value).Some?
  }

  /** Past validation, the handler is `Submit` on the found rows. */
  lemma CreateSubmits(w: World, env: Env, body: Result<CreateRequest, string>, e: Entropy, gw: Xendit.Gateway)
    requires Creates(w, body)
    ensures Create(w, env, body, e, gw)
              == Submit(w, env, body.value, FindUser(w.db, body.value.userId.value).value,
                        FindPackage(w.db, body.value.packageId.value).value, e, gw)
  {
  }

  function MethodOf(body: Result<CreateRequest, string>): string
    requires body.Ok?
  {
    body.value.paymentMethod.GetOr(GatewayMethod)
  }

  /** What a POST that gets past validation creates: a PENDING subscription
      for the requested user and package, running from now for the
      package's duration in days, with the generated credentials; and a
      PENDING SUBSCRIPTION charge for the package price, linked to it, with
      the requested payment method (XENDIT by default). A 200 returns both
      rows as created. */
  lemma CreatedRows(w: World, env: Env, req: CreateRequest, user: User, pkg: Package, e: Entropy, gw: Xendit.Gateway)
    requires req.userId.Some?
    ensures var o := Submit(w, env, req, user, pkg, e, gw);
            var sub := NewSubscription(w.db, req.userId.value, pkg, user, e);
            var tx := NewCharge(w.db, req.userId.value, pkg, req.paymentMethod.GetOr(GatewayMethod), e);
            && sub.status == SubscriptionStatus.Pending
            && sub.userId == req.userId.value && sub.packageId == pkg.id
            && sub.startDate == e.now && sub.endDate - sub.startDate == pkg.duration * DayMillis
            && sub.mikrotikName == AccountName(user.name, e.nameStamp)
            && sub.mikrotikPassword == AccountPassword(e.passwordDraw)
            && tx.status == TransactionStatus.Pending && tx.kind == SubscriptionCharge
            && tx.amount == pkg.price && tx.subscriptionId == Some(sub.id) && tx.userId == sub.userId
            && (req.paymentMethod.None? ==> tx.paymentMethod == Some(GatewayMethod))
            && (req.paymentMethod.Some? ==> tx.paymentMethod == req.paymentMethod)
            && (o.response.status == 200 ==>
                  o.response.body.Done? && o.response.body.data.subscription == sub && o.response.body.data.transaction == tx)
  {
  }

  /** A method other than XENDIT answers 200 without reaching the gateway,
      and leaves both rows appended, PENDING, with no external id. */
  lemma OtherMethodStaysPending(w: World, env: Env, req: CreateRequest, user: User, pkg: Package, e: Entropy, gw: Xendit.Gateway)
    requires req.userId.Some? && req.paymentMethod.Some? && req.paymentMethod.value != GatewayMethod
    ensures var o := Submit(w, env, req, user, pkg, e, gw);
            var n := |w.db.transactions|;
            && o.response.status == 200 && o.calls == []
            && o.world.db.subscriptions == w.db.subscriptions + [o.response.body.data.subscription]
            && o.world.db.transactions == w.db.transactions + [o.response.body.data.transaction]
            && o.world.db.subscriptions[|w.db.subscriptions|].status == SubscriptionStatus.Pending
            && o.world.db.transactions[n].status == TransactionStatus.Pending
            && o.world.db.transactions[n].externalId.None?
  {
  }

  /** For XENDIT with a gateway client available, exactly one invoice
      request is sent, carrying the charge's invoice parameters; when the
      gateway answers with an invoice, the response is 200 and the new charge
      row holds the invoice's id as its external id and the invoice link as
      metadata, still PENDING. */
  lemma GatewayLinksInvoice(w: World, env: Env, req: CreateRequest, user: User, pkg: Package, e: Entropy,
                            gw: Xendit.Gateway, invoice: Xendit.Invoice)
    requires req.userId.Some? && req.paymentMethod.GetOr(GatewayMethod) == GatewayMethod
    requires WellFormed(w.db)
    requires Xendit.GetInstance(w.gateway, env.xenditApiKey, env.nodeEnv).0.Ok?
    ensures var o := Submit(w, env, req, user, pkg, e, gw);
            && |o.calls| == 1
            && o.calls[0].body == Some(ChargeInvoice(env, user, pkg, e))
            && (gw(0, o.calls[0]) == Xendit.Answer(200, "OK", Xendit.InvoiceObject(invoice)) ==>
                  var n := |w.db.transactions|;
                  && o.response.status == 200
                  && |o.world.db.transactions| == n + 1
                  && o.world.db.transactions[..n] == w.db.transactions
                  && o.world.db.transactions[n].externalId == Some(invoice.id)
                  && o.world.db.transactions[n].metadata == InvoiceLink(Some(invoice.invoiceUrl), Some(invoice.expiryDate))
                  && o.world.db.transactions[n].status == TransactionStatus.Pending)
  {
    var o := Submit(w, env, req, user, pkg, e, gw);
    var tx := NewCharge(w.db, req.userId.value, pkg, GatewayMethod, e);
    var db1 := Record(w.db, NewSubscription(w.db, req.userId.value, pkg, user, e), tx);
    SubmitCallsGateway(w, env, req, user, pkg, e, gw);
    if gw(0, o.calls[0]) == Xendit.Answer(200, "OK", Xendit.InvoiceObject(invoice)) {
      LinkAppended(db1, |w.db.transactions|, Xendit.InvoiceObject(invoice));
    }
  }

  /** With a gateway client at hand, the handler sends exactly the invoice
      request, and on a successful reply links the charge to it. */
  lemma SubmitCallsGateway(w: World, env: Env, req: CreateRequest, user: User, pkg: Package, e: Entropy,
                           gw: Xendit.Gateway)
    requires req.userId.Some? && req.paymentMethod.GetOr(GatewayMethod) == GatewayMethod
    requires Xendit.GetInstance(w.gateway, env.xenditApiKey, env.nodeEnv).0.Ok?
    ensures var o := Submit(w, env, req, user, pkg, e, gw);
            var c := Xendit.GetInstance(w.gateway, env.xenditApiKey, env.nodeEnv).0.value;
            var (reply, request) := Xendit.CreateInvoice(gw, 0, c, ChargeInvoice(env, user, pkg, e));
            var tx := NewCharge(w.db, req.userId.value, pkg, GatewayMethod, e);
            var db1 := Record(w.db, NewSubscription(w.db, req.userId.value, pkg, user, e), tx);
            && o.calls == [request]
            && (reply.Ok? ==> o.response.status == 200 && o.world.db == LinkCharge(db1, tx.id, reply.value))
            && (reply.Err? ==> o.response == Fail(500, PaymentFailedPrefix + reply.error.message)
                               && o.world.db == Compensate(db1, NewSubscription(w.db, req.userId.value, pkg, user, e), tx))
  {
  }

  /** A failed payment setup, for either reason, answers 500 with the
      payment-failed message and leaves every table as it was before the
      request. */
  lemma PaymentFailureCompensates(w: World, env: Env, req: CreateRequest, user: User, pkg: Package, e: Entropy,
                                  gw: Xendit.Gateway)
    requires req.userId.Some? && WellFormed(w.db)
    requires PaymentFails(w, env, req, user, pkg, e, gw)
    ensures var o := Submit(w, env, req, user, pkg, e, gw);
            && o.response.status == 500
            && o.response.body.Failure? && StartsWith(o.response.body.error, PaymentFailedPrefix)
            && o.world.db.subscriptions == w.db.subscriptions
            && o.world.db.transactions == w.db.transactions
            && o.world.db.users == w.db.users && o.world.db.packages == w.db.packages
            && o.world.db.configs == w.db.configs
  {
    FailedPaymentCompensates(w, env, req, user, pkg, e, gw);
  }

  /** Linking the last charge, whose id no earlier charge has, rewrites that
      charge only. */
  lemma LinkAppended(db: Db, n: nat, p: Xendit.GatewayPayload)
    requires |db.transactions| == n + 1
    requires forall i :: 0 <= i < n ==> db.transactions[i].id != db.transactions[n].id
    ensures var linked := LinkCharge(db, db.transactions[n].id, p).transactions;
            && |linked| == n + 1 && linked[..n] == db.transactions[..n]
            && linked[n] == LinkInvoice(db.transactions[n], p)
  {
    var linked := LinkCharge(db, db.transactions[n].id, p).transactions;
    assert forall i :: 0 <= i < n ==> linked[i] == db.transactions[i];
  }

  /** A failed payment setup (no gateway API key, or a refused invoice)
      answers 500 and deletes both new rows: every table is as it was. */
  lemma FailedPaymentCompensates(w: World, env: Env, req: CreateRequest, user: User, pkg: Package, e: Entropy, gw: Xendit.Gateway)
    requires req.userId.Some? && WellFormed(w.db)
    requires Submit(w, env, req, user, pkg, e, gw).response.status == 500
    ensures var o := Submit(w, env, req, user, pkg, e, gw);
            && o.response.body.Failure?
            && StartsWith(o.response.body.error, PaymentFailedPrefix)
            && o.world.db.subscriptions == w.db.subscriptions
            && o.world.db.transactions == w.db.transactions
            && o.world.db.users == w.db.users && o.world.db.packages == w.db.packages
            && o.world.db.configs == w.db.configs
  {
    var sub := NewSubscription(w.db, req.userId.value, pkg, user, e);
    var tx := NewCharge(w.db, req.userId.value, pkg, req.paymentMethod.GetOr(GatewayMethod), e);
    CompensateRestores(w.db, sub, tx);
    SubmitFailureCompensates(w, env, req, user, pkg, e, gw);
  }

  /** A failed submission answers with the payment-failed message and keeps
      the compensated store. */
  lemma SubmitFailureCompensates(w: World, env: Env, req: CreateRequest, user: User, pkg: Package, e: Entropy,
                                 gw: Xendit.Gateway)
    requires req.userId.Some?
    requires Submit(w, env, req, user, pkg, e, gw).response.status == 500
    ensures var o := Submit(w, env, req, user, pkg, e, gw);
            var sub := NewSubscription(w.db, req.userId.value, pkg, user, e);
            var tx := NewCharge(w.db, req.userId.value, pkg, req.paymentMethod.GetOr(GatewayMethod), e);
            && o.world.db == Compensate(Record(w.db, sub, tx), sub, tx)
            && o.response.body.Failure? && StartsWith(o.response.body.error, PaymentFailedPrefix)
  {
    var (instance, _) := Xendit.GetInstance(w.gateway, env.xenditApiKey, env.nodeEnv);
    if instance.Err? {
      PrefixStarts(PaymentFailedPrefix, instance.error.message);
    } else {
      var (reply, _) := Xendit.CreateInvoice(gw, 0, instance.value, ChargeInvoice(env, user, pkg, e));
      PrefixStarts(PaymentFailedPrefix, reply.error.message);
    }
  }

  /** Every POST keeps ids unique and below the counter. */
  lemma CreatePreservesWellFormed(w: World, env: Env, body: Result<CreateRequest, string>, e: Entropy, gw: Xendit.Gateway)
    requires WellFormed(w.db)
    ensures WellFormed(Create(w, env, body, e, gw).world.db)
  {
    if Creates(w, body) {
      CreateSubmits(w, env, body, e, gw);
      SubmitPreservesWellFormed(w, env, body.value, FindUser(w.db, body.value.userId.value).value,
                                FindPackage(w.db, body.value.packageId.value).value, e, gw);
    }
  }

  lemma SubmitPreservesWellFormed(w: World, env: Env, req: CreateRequest, user: User, pkg: Package, e: Entropy, gw: Xendit.Gateway)
    requires req.userId.Some? && WellFormed(w.db)
    ensures WellFormed(Submit(w, env, req, user, pkg, e, gw).world.db)
  {
    var sub := NewSubscription(w.db, req.userId.value, pkg, user, e);
    var tx := NewCharge(w.db, req.userId.value, pkg, req.paymentMethod.GetOr(GatewayMethod), e);
    var db1 := Record(w.db, sub, tx);
    RecordWellFormed(w.db, sub, tx);
    SubmitStores(w, env, req, user, pkg, e, gw);
    var db := Submit(w, env, req, user, pkg, e, gw).world.db;
    if db == Compensate(db1, sub, tx) {
      CompensateWellFormed(w.db, sub, tx);
    } else if db != db1 {
      var p :| db == LinkCharge(db1, tx.id, p);
      LinkChargeWellFormed(db1, tx.id, p);
    }
  }

  /** The store after a POST that got past validation: the rows recorded,
      then either left, compensated or linked to an invoice. */
  lemma SubmitStores(w: World, env: Env, req: CreateRequest, user: User, pkg: Package, e: Entropy, gw: Xendit.Gateway)
    requires req.userId.Some?
    ensures var sub := NewSubscription(w.db, req.userId.value, pkg, user, e);
            var tx := NewCharge(w.db, req.userId.value, pkg, req.paymentMethod.GetOr(GatewayMethod), e);
            var db1 := Record(w.db, sub, tx);
            var db := Submit(w, env, req, user, pkg, e, gw).world.db;
            db == db1 || db == Compensate(db1, sub, tx) || exists p :: db == LinkCharge(db1, tx.id, p)
  {
    var o := Submit(w, env, req, user, pkg, e, gw);
    var (instance, _) := Xendit.GetInstance(w.gateway, env.xenditApiKey, env.nodeEnv);
    if o.response.status == 500 {
      SubmitFailureCompensates(w, env, req, user, pkg, e, gw);
    } else if req.paymentMethod.GetOr(GatewayMethod) == GatewayMethod && instance.Ok? {
      SubmitCallsGateway(w, env, req, user, pkg, e, gw);
      var (reply, _) := Xendit.CreateInvoice(gw, 0, instance.value, ChargeInvoice(env, user, pkg, e));
      if reply.Err? {
        SubmitFailureCompensates(w, env, req, user, pkg, e, gw);
      }
    }
  }

  /** Appending rows under the next two ids keeps the store well formed. */
  lemma RecordWellFormed(db: Db, sub: Subscription, tx: Transaction)
    requires WellFormed(db) && sub.id == db.nextId && tx.id == db.nextId + 1
    ensures WellFormed(Record(db, sub, tx))
  {
  }

  /** Compensating a fresh record restores every table, under a larger counter. */
  lemma CompensateWellFormed(db: Db, sub: Subscription, tx: Transaction)
    requires WellFormed(db) && sub.id == db.nextId && tx.id == db.nextId + 1
    ensures Compensate(Record(db, sub, tx), sub, tx) == db.(nextId := db.nextId + 2)
    ensures WellFormed(Compensate(Record(db, sub, tx), sub, tx))
  {
    CompensateRestores(db, sub, tx);
    LargerCounterWellFormed(db, db.nextId + 2);
  }

  /** Deleting the two rows just appended, under ids no earlier row has,
      gives back the tables as they were. */
  lemma CompensateRestores(db: Db, sub: Subscription, tx: Transaction)
    requires forall i :: 0 <= i < |db.subscriptions| ==> db.subscriptions[i].id != sub.id
    requires forall i :: 0 <= i < |db.transactions| ==> db.transactions[i].id != tx.id
    ensures Compensate(Record(db, sub, tx), sub, tx) == db.(nextId := db.nextId + 2)
  {
    var db1 := Record(db, sub, tx);
    assert db1.subscriptions[..|db1.subscriptions| - 1] == db.subscriptions;
    assert db1.transactions[..|db1.transactions| - 1] == db.transactions;
  }

  /** Raising the counter keeps the store well formed. */
  lemma LargerCounterWellFormed(db: Db, next: Id)
    requires WellFormed(db) && next >= db.nextId
    ensures WellFormed(db.(nextId := next))
  {
  }

  /** Linking a charge changes no id. */
  lemma LinkChargeWellFormed(db: Db, id: Id, p: Xendit.GatewayPayload)
    requires WellFormed(db)
    ensures WellFormed(LinkCharge(db, id, p))
  {
    var linked := LinkCharge(db, id, p).transactions;
    assert forall i :: 0 <= i < |linked| ==> linked[i].id == db.transactions[i].id;
  }

  // ---------------------------------------------------------------------
  // GET
  // ---------------------------------------------------------------------

  /** The query parameters; an absent or empty `userId` is `None`. */
  datatype ListQuery = ListQuery(userId: Option<Id>, status: Option<string>, packageType: Option<string>)

  /** The `where` object the handler builds. */
  datatype Where = Where(userId: Option<Id>, status: Option<string>, packageType: Option<string>)

  /** A filter is set exactly for the non-empty parameters; status and type
      are compared upper-cased. */
  function BuildWhere(q: ListQuery): (f: Where)
    ensures f.userId == q.userId
    ensures f.status.Some? <==> Truthy(q.status)
    ensures f.status.Some? ==> f.status.value == ToUpper(q.status.value)
    ensures f.packageType.Some? <==> Truthy(q.packageType)
    ensures f.packageType.Some? ==> f.packageType.value == ToUpper(q.packageType.value)
  {
    Where(q.userId,
          if Truthy(q.status) then Some(ToUpper(q.status.value)) else None,
          if Truthy(q.packageType) then Some(ToUpper(q.packageType.value)) else None)
  }

  /** The rows a `where` object selects; a type filter needs the package. */
  predicate Matches(db: Db, f: Where, s: Subscription) {
    && (f.userId.Some? ==> s.userId == f.userId.value)
    && (f.status.Some? ==> SubscriptionStatusName(s.status) == f.status.value)
    && (f.packageType.Some? ==>
          FindPackage(db, s.packageId).Some? && ServiceTypeName(FindPackage(db, s.packageId).value.kind) == f.packageType.value)
  }

  /** The user fields the listing includes. */
  datatype UserSummary = UserSummary(id: Id, name: string, email: Option<string>, phone: Option<string>)

  datatype Listed = Listed(subscription: Subscription, user: Option<UserSummary>, package: Option<Package>,
                           latestPayment: Option<Transaction>)

  /** The latest successful charge of a subscription. */
  function LatestPayment(db: Db, subId: Id): (r: Option<Transaction>)
    ensures r.Some? ==> r.value in db.transactions && r.value.subscriptionId == Some(subId) && r.value.status == Success
    ensures r.None? <==> forall t :: t in db.transactions ==> !(t.subscriptionId == Some(subId) && t.status == Success)
    ensures r.Some? ==> forall t :: t in db.transactions && t.subscriptionId == Some(subId) && t.status == Success ==>
                          t.createdAt <= r.value.createdAt
  {
    var paid := Filter(db.transactions, (t: Transaction) => t.subscriptionId == Some(subId) && t.status == Success);
    MaxBy(paid, (t: Transaction) => t.createdAt)
  }

  function ViewOf(db: Db, s: Subscription): (v: Listed)
    ensures v.subscription == s && v.package == FindPackage(db, s.packageId) && v.latestPayment == LatestPayment(db, s.id)
  {
    var u := FindUser(db, s.userId);
    Listed(s, if u.Some? then Some(UserSummary(u.value.id, u.value.name, u.value.email, u.value.phone)) else None,
           FindPackage(db, s.packageId), LatestPayment(db, s.id))
  }

  /** The subscriptions a `where` object selects, in table order. */
  function Selected(db: Db, f: Where): (r: seq<Subscription>)
    ensures forall s :: s in r <==> s in db.subscriptions && Matches(db, f, s)
  {
    Filter(db.subscriptions, (s: Subscription) => Matches(db, f, s))
  }

  /** `orderBy: { createdAt: 'desc' }`: the same rows, newest first. */
  function NewestFirst(s: seq<Subscription>): (r: seq<Subscription>)
    ensures multiset(r) == multiset(s)
    ensures forall i :: 0 < i < |r| ==> r[i - 1].createdAt >= r[i].createdAt
  {
    var newestFirst := (a: Subscription, b: Subscription) => a.createdAt >= b.createdAt;
    assert Total(newestFirst);
    SortBy(s, newestFirst)
  }

  /** The views of `subs`, in the same order. */
  function Views(db: Db, subs: seq<Subscription>): (r: seq<Listed>)
    ensures |r| == |subs|
    ensures forall i :: 0 <= i < |r| ==> r[i] == ViewOf(db, subs[i])
  {
    MapSeq(subs, (s: Subscription) => ViewOf(db, s))
  }

  /** The listing: only subscriptions the query selects, newest first, each
      shown with its package and latest successful charge (that each
      selected one appears exactly once is `ListShowsEachSelectedOnce`). */
  function List(db: Db, q: ListQuery): (r: seq<Listed>)
    ensures forall i :: 0 <= i < |r| ==> r[i].subscription in db.subscriptions && Matches(db, BuildWhere(q), r[i].subscription)
    ensures forall i :: 0 < i < |r| ==> r[i - 1].subscription.createdAt >= r[i].subscription.createdAt
    ensures forall i :: 0 <= i < |r| ==> r[i] == ViewOf(db, r[i].subscription)
  {
    var sorted := NewestFirst(Selected(db, BuildWhere(q)));
    SortedSelection(db, BuildWhere(q));
    Views(db, sorted)
  }

  /** Sorting the selection keeps every row selected. */
  lemma SortedSelection(db: Db, f: Where)
    ensures var sorted := NewestFirst(Selected(db, f));
            forall i :: 0 <= i < |sorted| ==> sorted[i] in db.subscriptions && Matches(db, f, sorted[i])
  {
    var selected := Selected(db, f);
    var sorted := NewestFirst(selected);
    forall i | 0 <= i < |sorted| ensures sorted[i] in selected {
      assert sorted[i] in multiset(selected);
    }
  }

  /** The listing holds the view of every selected subscription exactly as
      often as it is stored: a reordering of the selection's views, nothing
      added and nothing lost. */
  lemma ListShowsEachSelectedOnce(db: Db, q: ListQuery)
    ensures multiset(List(db, q)) == multiset(Views(db, Selected(db, BuildWhere(q))))
  {
    var selected := Selected(db, BuildWhere(q));
    MapPermutation(selected, NewestFirst(selected), (s: Subscription) => ViewOf(db, s));
  }

  /** The GET handler: the listing, with its count. */
  function ListHandler(db: Db, q: ListQuery): (resp: Response<Listed>)
    ensures resp.status == 200 && resp.body.Listing?
    ensures forall x :: x in resp.body.items ==> x.subscription in db.subscriptions
  {
    Response(200, Listing(List(db, q)))
  }
}

=== FILE: xendit.dfy ===
/** The payment-gateway client (`src/lib/xendit.ts`): callback-token check,
    external-id generation, amount rounding, the payment-method whitelist,
    the invoice-list query string, invoice parameter construction for
    subscriptions and top-ups, payment-status lookup, callback
    normalisation, and the cached client instance. The gateway itself is an
    oracle from (call index, request) to reply. */
module Xendit {
  import opened Base

  /** The API root; the constructor picks the same URL in both environments. */
  const ApiBaseUrl: string := "https://api.xendit.co"

  const ValidPaymentMethods: seq<string> :=
    ["VIRTUAL_ACCOUNT", "BANK_TRANSFER", "CREDIT_CARD", "OVO", "DANA", "LINKAJA", "SHOPEEPAY", "QRIS"]

  const MissingApiKeyMessage: string := "XENDIT_API_KEY environment variable is not set"

  datatype Client = Client(apiKey: string, baseUrl: string)

  /** `new XenditAPI(apiKey, isProduction)`. */
  function NewClient(apiKey: string, isProduction: bool): (c: Client)
    ensures c.apiKey == apiKey
    ensures c.baseUrl == ApiBaseUrl
  {
    Client(apiKey, if isProduction then "https://api.xendit.co" else "https://api.xendit.co")
  }

  /** `getXenditInstance()`: the cached instance if there is one; otherwise
      a fresh client from the API key, which becomes the cached instance, or
      an error when the key is unset or empty (and nothing is cached). */
  function GetInstance(cache: Option<Client>, apiKey: Option<string>, nodeEnv: Option<string>)
    : (r: (Result<Client, Error>, Option<Client>))
    ensures cache.Some? ==> r.0 == Ok(cache.value) && r.1 == cache
    ensures cache.None? && !Truthy(apiKey) ==> r.0.Err? && r.0.error.message == MissingApiKeyMessage && r.1.None?
    ensures cache.None? && Truthy(apiKey) ==>
              r.0.Ok? && r.0.value.apiKey == apiKey.value && r.0.value.baseUrl == ApiBaseUrl && r.1 == Some(r.0.value)
  {
    if cache.Some? then (Ok(cache.value), cache)
    else if !Truthy(apiKey) then (Err(Error("Error", MissingApiKeyMessage)), None)
    else
      var c := NewClient(apiKey.value, nodeEnv == Some("production"));
      (Ok(c), Some(c))
  }

  /** `verifyCallbackToken(token)`: strict equality with the configured
      token; with no token configured every token is refused. */
  function VerifyCallbackToken(configured: Option<string>, token: string): (ok: bool)
    ensures ok <==> configured == Some(token)
    ensures configured.None? ==> !ok
  {
    match configured
    case None => false
    case Some(expected) => token == expected
  }

  /** `generateExternalId(prefix)`: `<prefix>-<Date.now()>-<up to six
      radix-36 characters>`, with the prefix defaulting to `INV`. */
  function GenerateExternalId(prefix: Option<string>, now: nat, draw: seq<Digit36>): (r: string)
    ensures var p := prefix.GetOr("INV");
            var stamp := NatToDecimal(now);
            && |p| + |stamp| + 2 <= |r| <= |p| + |stamp| + 8
            && r[..|p|] == p
            && r[|p|] == '-'
            && r[|p| + 1..|p| + 1 + |stamp|] == stamp
            && r[|p| + 1 + |stamp|] == '-'
            && forall i :: |p| + |stamp| + 2 <= i < |r| ==> IsBase36Char(r[i])
  {
    var p := prefix.GetOr("INV");
    var stamp := NatToDecimal(now);
    var token := RandomToken(draw, 6);
    var r := p + "-" + stamp + "-" + token;
    assert r[|p| + |stamp| + 2..] == token;
    r
  }

  /** `formatAmount(amount)` is `Math.round`: the nearest integer, halves
      rounded up; an integral amount is returned unchanged. */
  function FormatAmount(amount: real): (r: int)
    ensures r as real - 0.5 <= amount < r as real + 0.5
    ensures amount == amount.Floor as real ==> r == amount.Floor
  {
    (amount + 0.5).Floor
  }

  /** `validatePaymentMethod(method)`: the upper-cased method is one of the
      eight listed methods. */
  function ValidatePaymentMethod(choice: string): (ok: bool)
    ensures ok <==> exists i :: 0 <= i < |ValidPaymentMethods| && ToUpper(choice) == ValidPaymentMethods[i]
  {
    ToUpper(choice) in ValidPaymentMethods
  }

  /** The whitelist does not depend on letter case: two spellings that
      differ only in the case of letters are both accepted or both refused. */
  lemma ValidatePaymentMethodIgnoresCase(a: string, b: string)
    requires |a| == |b|
    requires forall i :: 0 <= i < |a| ==> LowerChar(a[i]) == LowerChar(b[i])
    ensures ValidatePaymentMethod(a) == ValidatePaymentMethod(b)
  {
    ToUpperIgnoresCase(a, b);
  }

  // ---------------------------------------------------------------------
  // Invoice-list query string (URLSearchParams)
  // ---------------------------------------------------------------------

  /** A value of the query object: `undefined`, a scalar (`toString()`), or
      an array (one entry per element). */
  datatype QueryValue = Undefined | Text(text: string) | Number(n: int) | Items(items: seq<string>)

  /** How many `key=value` entries one property contributes. */
  function EntryCount(v: QueryValue): nat {
    match v
    case Undefined => 0
    case Items(xs) => |xs|
    case _ => 1
  }

  function TotalEntries(props: seq<(string, QueryValue)>): nat {
    if |props| == 0 then 0 else EntryCount(props[0].1) + TotalEntries(props[1..])
  }

  function Repeat(key: string, items: seq<string>): (r: seq<(string, string)>)
    ensures |r| == |items|
    ensures forall i :: 0 <= i < |r| ==> r[i] == (key, items[i])
  {
    if |items| == 0 then [] else [(key, items[0])] + Repeat(key, items[1..])
  }

  /** Entry `j` of the ones a property contributes: element `j` of an
      array, or the scalar's text. */
  function EntryAt(key: string, v: QueryValue, j: nat): (string, string)
    requires j < EntryCount(v)
  {
    match v
    case Items(xs) => (key, xs[j])
    case Text(t) => (key, t)
    case Number(n) => (key, IntToDecimal(n))
  }

  /** The entries one property contributes, in order. */
  function EntriesOf(key: string, v: QueryValue): (r: seq<(string, string)>)
    ensures |r| == EntryCount(v)
    ensures forall j :: 0 <= j < |r| ==> r[j] == EntryAt(key, v, j)
  {
    match v
    case Undefined => []
    case Text(t) => [(key, t)]
    case Number(n) => [(key, IntToDecimal(n))]
    case Items(xs) => Repeat(key, xs)
  }

  /** Where the entries of property `k` start: after those of every
      earlier property. */
  function Offset(props: seq<(string, QueryValue)>, k: nat): nat
    requires k <= |props|
  {
    TotalEntries(props[..k])
  }

  /** The entries `getAllInvoices` appends, property by property in the
      object's own order: one per array element, none for `undefined`. */
  function QueryEntries(props: seq<(string, QueryValue)>): (r: seq<(string, string)>)
    ensures |r| == TotalEntries(props)
    ensures forall e :: e in r ==> exists k :: 0 <= k < |props| && props[k].0 == e.0
  {
    if |props| == 0 then []
    else
      var rest := QueryEntries(props[1..]);
      assert forall e :: e in rest ==> exists k :: 0 <= k < |props| && props[k].0 == e.0 by {
        forall e | e in rest ensures exists k :: 0 <= k < |props| && props[k].0 == e.0 {
          var k :| 0 <= k < |props| - 1 && props[1..][k].0 == e.0;
          assert props[k + 1].0 == e.0;
        }
      }
      EntriesOf(props[0].0, props[0].1) + rest
  }

  lemma OffsetStep(props: seq<(string, QueryValue)>, k: nat)
    requires 0 < k <= |props|
    ensures Offset(props, k) == EntryCount(props[0].1) + Offset(props[1..], k - 1)
  {
    var pre := props[..k];
    assert pre[0] == props[0];
    assert pre[1..] == props[1..][..k - 1];
  }

  /** Entry `j` of property `k` sits at `Offset(props, k) + j` of the query:
      every property contributes all its entries, in order, after those of
      the properties before it. */
  lemma {:induction false} QueryEntryPlacement(props: seq<(string, QueryValue)>, k: nat, j: nat)
    requires k < |props| && j < EntryCount(props[k].1)
    ensures Offset(props, k) + j < |QueryEntries(props)|
    ensures QueryEntries(props)[Offset(props, k) + j] == EntryAt(props[k].0, props[k].1, j)
  {
    var head := EntriesOf(props[0].0, props[0].1);
    var rest := QueryEntries(props[1..]);
    assert QueryEntries(props) == head + rest;
    if k == 0 {
      assert props[..0] == [];
    } else {
      QueryEntryPlacement(props[1..], k - 1, j);
      OffsetStep(props, k);
      assert props[1..][k - 1] == props[k];
    }
  }

  /** Conversely, every entry of the query is entry `j` of some property
      `k`, at that place. */
  lemma {:induction false} QueryEntryOrigin(props: seq<(string, QueryValue)>, i: nat)
    requires i < |QueryEntries(props)|
    ensures exists k: nat, j: nat :: k < |props| && j < EntryCount(props[k].1) && Offset(props, k) + j == i
                                     && QueryEntries(props)[i] == EntryAt(props[k].0, props[k].1, j)
  {
    var head := EntriesOf(props[0].0, props[0].1);
    var rest := QueryEntries(props[1..]);
    assert QueryEntries(props) == head + rest;
    if i < |head| {
      assert props[..0] == [];
      assert Offset(props, 0) + i == i && QueryEntries(props)[i] == EntryAt(props[0].0, props[0].1, i);
    } else {
      QueryEntryOrigin(props[1..], i - |head|);
      var k: nat, j: nat :| k < |props[1..]| && j < EntryCount(props[1..][k].1) && Offset(props[1..], k) + j == i - |head|
                            && rest[i - |head|] == EntryAt(props[1..][k].0, props[1..][k].1, j);
      OffsetStep(props, k + 1);
      assert props[1..][k] == props[k + 1];
      assert Offset(props, k + 1) + j == i && QueryEntries(props)[i] == EntryAt(props[k + 1].0, props[k + 1].1, j);
    }
  }

  /** The characters `application/x-www-form-urlencoded` leaves as they are. */
  predicate IsUnreservedByte(b: nat) {
    b == 0x2A || b == 0x2D || b == 0x2E || b == 0x5F
    || (0x30 <= b <= 0x39) || (0x41 <= b <= 0x5A) || (0x61 <= b <= 0x7A)
  }

  function HexUpper(d: nat): (c: char)
    requires d < 16
    ensures IsDigit(c) || 'A' <= c <= 'F'
  {
    if d < 10 then DigitChar(d) else ('A' as int + (d - 10)) as char
  }

  /** The UTF-8 bytes of one character. */
  function Utf8(c: char): (r: seq<nat>)
    ensures 1 <= |r| <= 4
    ensures forall i :: 0 <= i < |r| ==> r[i] < 256
  {
    var n := c as int;
    if n < 0x80 then [n]
    else if n < 0x800 then [0xC0 + n / 64, 0x80 + n % 64]
    else if n < 0x10000 then [0xE0 + n / 4096, 0x80 + (n / 64) % 64, 0x80 + n % 64]
    else [0xF0 + n / 262144, 0x80 + (n / 4096) % 64, 0x80 + (n / 64) % 64, 0x80 + n % 64]
  }

  function EncodeByte(b: nat): (r: string)
    requires b < 256
    ensures '&' !in r && '=' !in r
  {
    if b == 0x20 then "+"
    else if IsUnreservedByte(b) then [b as char]
    else ['%', HexUpper(b / 16), HexUpper(b % 16)]
  }

  function EncodeBytes(bs: seq<nat>): (r: string)
    requires forall i :: 0 <= i < |bs| ==> bs[i] < 256
    ensures '&' !in r && '=' !in r
  {
    if |bs| == 0 then "" else EncodeByte(bs[0]) + EncodeBytes(bs[1..])
  }

  /** Form-urlencoding of one key or value: the output never contains the
      separators `&` and `=`. */
  function FormEncode(s: string): (r: string)
    ensures '&' !in r && '=' !in r
  {
    if |s| == 0 then "" else EncodeBytes(Utf8(s[0])) + FormEncode(s[1..])
  }

  function Pair(e: (string, string)): string {
    FormEncode(e.0) + "=" + FormEncode(e.1)
  }

  /** `URLSearchParams.toString()`. */
  function Serialize(entries: seq<(string, string)>): string {
    Join(MapSeq(entries, Pair), "&")
  }

  const InvoicesEndpoint: string := "/v2/invoices"

  /** The request path of `getAllInvoices(params)`: no `?` at all when there
      is no entry. */
  function InvoicesPath(params: Option<seq<(string, QueryValue)>>): (path: string)
    ensures params.None? ==> path == InvoicesEndpoint
    ensures params.Some? && TotalEntries(params.value) == 0 ==> path == InvoicesEndpoint
    ensures params.Some? && TotalEntries(params.value) > 0 ==>
              path == InvoicesEndpoint + "?" + Serialize(QueryEntries(params.value))
  {
    var entries := if params.Some? then QueryEntries(params.value) else [];
    var query := Serialize(entries);
    QueryPresentIffEntries(entries);
    if query != "" then InvoicesEndpoint + "?" + query else InvoicesEndpoint
  }

  /** The query is empty exactly when there is no entry. */
  lemma QueryPresentIffEntries(entries: seq<(string, string)>)
    ensures Serialize(entries) != "" <==> |entries| > 0
  {
    if |entries| > 0 {
      SerializeNonEmpty(entries);
    }
  }

  /** At least one entry serializes to a non-empty query. */
  lemma SerializeNonEmpty(entries: seq<(string, string)>)
    requires |entries| > 0
    ensures Serialize(entries) != ""
  {
    var parts := MapSeq(entries, Pair);
    forall i | 0 <= i < |parts| ensures '=' in parts[i] {
      var e := entries[i];
      assert parts[i][|FormEncode(e.0)|] == '=';
    }
    JoinOfNonEmpty(parts, "&");
  }

  lemma JoinOfNonEmpty(parts: seq<string>, sep: string)
    requires |parts| > 0 && forall i :: 0 <= i < |parts| ==> '=' in parts[i]
    ensures Join(parts, sep) != ""
  {
    if |parts| > 1 {
      assert '=' in parts[0];
    }
  }

  function Occurrences(s: string, c: char): nat {
    if |s| == 0 then 0 else (if s[0] == c then 1 else 0) + Occurrences(s[1..], c)
  }

  lemma {:induction false} OccurrencesConcat(a: string, b: string, c: char)
    ensures Occurrences(a + b, c) == Occurrences(a, c) + Occurrences(b, c)
  {
    if |a| > 0 {
      assert (a + b)[1..] == a[1..] + b;
      OccurrencesConcat(a[1..], b, c);
    } else {
      assert a + b == b;
    }
  }

  lemma {:induction false} OccurrencesAbsent(s: string, c: char)
    requires c !in s
    ensures Occurrences(s, c) == 0
  {
    if |s| > 0 {
      OccurrencesAbsent(s[1..], c);
    }
  }

  /** One `key=value` entry per query entry: the serialized query string has
      exactly one `=` per entry and one `&` between consecutive entries, so
      no key or value can forge or swallow an entry. */
  lemma {:induction false} SerializeSeparatesEntries(entries: seq<(string, string)>)
    requires |entries| > 0
    ensures Occurrences(Serialize(entries), '=') == |entries|
    ensures Occurrences(Serialize(entries), '&') == |entries| - 1
  {
    var head := Pair(entries[0]);
    OccurrencesAbsent(FormEncode(entries[0].0), '=');
    OccurrencesAbsent(FormEncode(entries[0].1), '=');
    OccurrencesAbsent(FormEncode(entries[0].0), '&');
    OccurrencesAbsent(FormEncode(entries[0].1), '&');
    OccurrencesConcat(FormEncode(entries[0].0), "=", '=');
    OccurrencesConcat(FormEncode(entries[0].0) + "=", FormEncode(entries[0].1), '=');
    OccurrencesConcat(FormEncode(entries[0].0), "=", '&');
    OccurrencesConcat(FormEncode(entries[0].0) + "=", FormEncode(entries[0].1), '&');
    assert Occurrences("=", '=') == 1 && Occurrences("=", '&') == 0;
    assert Occurrences(head, '=') == 1 && Occurrences(head, '&') == 0;
    if |entries| > 1 {
      var tail := entries[1..];
      SerializeSeparatesEntries(tail);
      assert MapSeq(entries, Pair)[1..] == MapSeq(tail, Pair);
      assert Serialize(entries) == head + "&" + Serialize(tail);
      OccurrencesConcat(head, "&", '=');
      OccurrencesConcat(head + "&", Serialize(tail), '=');
      OccurrencesConcat(head, "&", '&');
      OccurrencesConcat(head + "&", Serialize(tail), '&');
      assert Occurrences("&", '&') == 1 && Occurrences("&", '=') == 0;
    } else {
      assert Serialize(entries) == head;
    }
  }

  // ---------------------------------------------------------------------
  // Invoices
  // ---------------------------------------------------------------------

  datatype Customer = Customer(name: string, email: Option<string>, phone: Option<string>)

  datatype InvoiceCustomer = InvoiceCustomer(givenNames: string, email: Option<string>, mobileNumber: Option<string>)

  datatype InvoiceItem = InvoiceItem(name: string, quantity: int, price: int, category: string)

  datatype InvoiceParams = InvoiceParams(
    externalId: string,
    amount: int,
    description: string,
    customer: InvoiceCustomer,
    items: Option<seq<InvoiceItem>>,
    successRedirectUrl: Option<string>,
    failureRedirectUrl: Option<string>,
    shouldSendEmail: bool,
    currency: string)

  /** `returnUrl ? returnUrl + '?status=<outcome>&external_id=<id>' : undefined`. */
  function RedirectUrl(returnUrl: Option<string>, outcome: string, externalId: string): (r: Option<string>)
    ensures r.Some? <==> Truthy(returnUrl)
    ensures r.Some? ==> StartsWith(r.value, returnUrl.value + "?status=" + outcome)
    ensures r.Some? ==> |r.value| >= |externalId| && r.value[|r.value| - |externalId|..] == externalId
    ensures r.Some? ==> r.value[|returnUrl.value + "?status=" + outcome|..] == "&external_id=" + externalId
  {
    if Truthy(returnUrl) then
      var url := returnUrl.value + "?status=" + outcome + "&external_id=" + externalId;
      assert url[..|returnUrl.value + "?status=" + outcome|] == returnUrl.value + "?status=" + outcome;
      Some(url)
    else None
  }

  function ToInvoiceCustomer(c: Customer): InvoiceCustomer {
    InvoiceCustomer(c.name, c.email, c.phone)
  }

  /** The parameters `createSubscriptionPayment` sends: a `SUB-` external
      id, the rounded amount, currency IDR, e-mail on, no items, and
      redirect URLs exactly when a return URL is given. */
  function SubscriptionInvoice(amount: real, description: string, customer: Customer,
                               returnUrl: Option<string>, now: nat, draw: seq<Digit36>)
    : (p: InvoiceParams)
    ensures StartsWith(p.externalId, "SUB-")
    ensures p.amount == FormatAmount(amount)
    ensures p.currency == "IDR" && p.shouldSendEmail
    ensures p.items.None?
    ensures p.description == description
    ensures p.customer == InvoiceCustomer(customer.name, customer.email, customer.phone)
    ensures p.successRedirectUrl.Some? <==> Truthy(returnUrl)
    ensures p.failureRedirectUrl.Some? <==> Truthy(returnUrl)
    ensures p.successRedirectUrl == RedirectUrl(returnUrl, "success", p.externalId)
    ensures p.failureRedirectUrl == RedirectUrl(returnUrl, "failed", p.externalId)
  {
    var externalId := GenerateExternalId(Some("SUB"), now, draw);
    InvoiceParams(
      externalId, FormatAmount(amount), description, ToInvoiceCustomer(customer), None,
      RedirectUrl(returnUrl, "success", externalId), RedirectUrl(returnUrl, "failed", externalId),
      true, "IDR")
  }

  /** The parameters `createTopupPayment` sends: a `TOPUP-` external id and
      exactly one item whose price is the rounded amount. */
  function TopupInvoice(amount: real, description: string, customer: Customer,
                        returnUrl: Option<string>, now: nat, draw: seq<Digit36>)
    : (p: InvoiceParams)
    ensures StartsWith(p.externalId, "TOPUP-")
    ensures p.amount == FormatAmount(amount)
    ensures p.currency == "IDR" && p.shouldSendEmail
    ensures p.items.Some? && |p.items.value| == 1
    ensures p.items.value[0] == InvoiceItem("Topup Saldo", 1, p.amount, "Topup")
    ensures p.description == description
    ensures p.customer == InvoiceCustomer(customer.name, customer.email, customer.phone)
    ensures p.successRedirectUrl.Some? <==> Truthy(returnUrl)
    ensures p.failureRedirectUrl.Some? <==> Truthy(returnUrl)
    ensures p.successRedirectUrl == RedirectUrl(returnUrl, "success", p.externalId)
    ensures p.failureRedirectUrl == RedirectUrl(returnUrl, "failed", p.externalId)
  {
    var externalId := GenerateExternalId(Some("TOPUP"), now, draw);
    var rounded := FormatAmount(amount);
    InvoiceParams(
      externalId, rounded, description, ToInvoiceCustomer(customer),
      Some([InvoiceItem("Topup Saldo", 1, rounded, "Topup")]),
      RedirectUrl(returnUrl, "success", externalId), RedirectUrl(returnUrl, "failed", externalId),
      true, "IDR")
  }

  // ---------------------------------------------------------------------
  // The gateway as an oracle, and the calls made to it
  // ---------------------------------------------------------------------

  datatype Invoice = Invoice(id: string, externalId: string, status: string, invoiceUrl: string, expiryDate: string)

  datatype GatewayRequest = GatewayRequest(verb: string, url: string, apiKey: string, body: Option<InvoiceParams>)

  /** The decoded JSON of a reply. */
  datatype GatewayPayload =
    | InvoiceObject(invoice: Invoice)
    | InvoiceArray(invoices: seq<Invoice>)
    | ErrorObject(message: Option<string>)

  datatype GatewayReply =
    | Answer(status: int, statusText: string, payload: GatewayPayload)
    | Unreachable(error: Error)

  /** The remote gateway: the reply to the n-th request of a handler. */
  type Gateway = (nat, GatewayRequest) -> GatewayReply

  predicate IsOkStatus(status: int) { 200 <= status <= 299 }

  /** The detail an API error names: the reply's non-empty `message`, or
      `Unknown error`. */
  function ErrorDetail(payload: GatewayPayload): (d: string)
    ensures d != ""
    ensures payload.ErrorObject? && payload.message.Some? && payload.message.value != "" ==> d == payload.message.value
    ensures !(payload.ErrorObject? && payload.message.Some? && payload.message.value != "") ==> d == "Unknown error"
  {
    match payload
    case ErrorObject(Some(m)) => if m != "" then m else "Unknown error"
    case _ => "Unknown error"
  }

  /** `makeRequest`: a transport failure is rethrown; a status outside
      200-299 throws `Xendit API error: <status> <text> - <message>`; any
      other reply yields its decoded body. */
  function MakeRequest(gw: Gateway, n: nat, c: Client, endpoint: string, verb: string, body: Option<InvoiceParams>)
    : (r: (Result<GatewayPayload, Error>, GatewayRequest))
    ensures r.1 == GatewayRequest(verb, c.baseUrl + endpoint, c.apiKey, body)
    ensures r.0.Ok? <==> gw(n, r.1).Answer? && IsOkStatus(gw(n, r.1).status)
    ensures r.0.Ok? ==> r.0.value == gw(n, r.1).payload
    ensures gw(n, r.1).Answer? && !IsOkStatus(gw(n, r.1).status) ==>
              StartsWith(r.0.error.message, "Xendit API error: ")
    ensures gw(n, r.1).Unreachable? ==> r.0 == Err(gw(n, r.1).error)
    ensures gw(n, r.1).Answer? && !IsOkStatus(gw(n, r.1).status) ==>
              var a := gw(n, r.1);
              r.0 == Err(Error("Error", "Xendit API error: " + IntToDecimal(a.status) + " " + a.statusText + " - " + ErrorDetail(a.payload)))
  {
    var request := GatewayRequest(verb, c.baseUrl + endpoint, c.apiKey, body);
    match gw(n, request)
    case Unreachable(e) => (Err(e), request)
    case Answer(status, text, payload) =>
      if IsOkStatus(status) then (Ok(payload), request)
      else
        (Err(Error("Error", "Xendit API error: " + IntToDecimal(status) + " " + text + " - " + ErrorDetail(payload))), request)
  }

  /** `createInvoice(params)`: a POST of the parameters to `/v2/invoices`;
      a 2xx reply yields its decoded body as it is, whatever its shape. */
  function CreateInvoice(gw: Gateway, n: nat, c: Client, params: InvoiceParams)
    : (r: (Result<GatewayPayload, Error>, GatewayRequest))
    ensures r.1 == GatewayRequest("POST", c.baseUrl + InvoicesEndpoint, c.apiKey, Some(params))
    ensures r.0.Ok? <==> gw(n, r.1).Answer? && IsOkStatus(gw(n, r.1).status)
    ensures r.0.Ok? ==> r.0.value == gw(n, r.1).payload
  {
    MakeRequest(gw, n, c, InvoicesEndpoint, "POST", Some(params))
  }

  /** `checkPaymentStatus(externalId)`: list every invoice and return the
      first whose external id matches; a failed call, or a reply that is
      not a list, yields no invoice. */
  function CheckPaymentStatus(gw: Gateway, n: nat, c: Client, externalId: string)
    : (r: (Option<Invoice>, GatewayRequest))
    ensures r.1 == GatewayRequest("GET", c.baseUrl + InvoicesEndpoint, c.apiKey, None)
    ensures r.0.Some? ==> r.0.value.externalId == externalId
    ensures r.0.Some? ==> gw(n, r.1).Answer? && IsOkStatus(gw(n, r.1).status)
                          && gw(n, r.1).payload.InvoiceArray? && r.0.value in gw(n, r.1).payload.invoices
    ensures (&& gw(n, r.1).Answer? && IsOkStatus(gw(n, r.1).status) && gw(n, r.1).payload.InvoiceArray?
             && exists i :: i in gw(n, r.1).payload.invoices && i.externalId == externalId)
            ==> r.0.Some?
    ensures r.0.Some? ==>
              var list := gw(n, r.1).payload.invoices;
              exists k :: 0 <= k < |list| && list[k] == r.0.value
                          && forall j :: 0 <= j < k ==> list[j].externalId != externalId
  {
    var (res, request) := MakeRequest(gw, n, c, InvoicesPath(None), "GET", None);
    match res
    case Ok(InvoiceArray(list)) =>
      FirstIsEarliest(list, (i: Invoice) => i.externalId == externalId);
      (First(list, (i: Invoice) => i.externalId == externalId), request)
    case _ => (None, request)
  }

  // ---------------------------------------------------------------------
  // Callback normalisation
  // ---------------------------------------------------------------------

  /** The JSON body of a payment notification; `raw` is its serialization
      as stored in the transaction's metadata. */
  datatype CallbackData = CallbackData(
    id: Option<string>,
    externalId: Option<string>,
    status: Option<string>,
    paidAmount: Option<real>,
    paymentMethod: Option<string>,
    paymentChannel: Option<string>,
    raw: string)

  datatype ProcessedCallback = ProcessedCallback(
    success: bool,
    externalId: Option<string>,
    status: string,
    amount: Option<real>,
    paymentMethod: Option<string>,
    paymentChannel: Option<string>)

  /** `processCallback(data)`: the status upper-cased and the other fields
      copied; a notification without a status cannot be upper-cased, and
      the failure result is returned instead. */
  function ProcessCallback(data: CallbackData): (r: ProcessedCallback)
    ensures r.success <==> data.status.Some?
    ensures r.success ==> r.status == ToUpper(data.status.value)
    ensures r.success ==> r.externalId == data.externalId && r.amount == data.paidAmount
                          && r.paymentMethod == data.paymentMethod && r.paymentChannel == data.paymentChannel
    ensures !r.success ==> r == ProcessedCallback(false, Some(""), "FAILED", None, None, None)
  {
    match data.status
    case None => ProcessedCallback(false, Some(""), "FAILED", None, None, None)
    case Some(s) =>
      ProcessedCallback(true, data.externalId, ToUpper(s), data.paidAmount, data.paymentMethod, data.paymentChannel)
  }
}
